=== FILE: README.md ===
# Mock-interview dashboard: a Dafny model

This project models the logic of an AI mock-interview web application. Users hold voice interviews with an AI interviewer. The server grades each transcript into a feedback document. A dashboard then summarises a user's interviews and feedback into statistics, skill progress, weekly trends, achievements and practice recommendations.

The store (the `users`, `interviews` and `feedback` collections) is immutable data: a map of user documents and sequences of documents in store order. Every server action is a pure function from the store, and from whatever the outside world supplies, to its result and the store after its writes. The outside world covers the language model's output, the clock, random draws, service outages and the session verifier.

The modules follow the program's structure:

- **`Analytics`** (`analytics.dfy`): the dashboard statistics engine. It covers totals and the rounded mean score, per-skill progress, the four weekly trends, the five achievements and the practice recommendations.
- **`UserStats`** (`user_stats.dfy`): the per-user interview and question counters. It covers incrementing, reading, initialising, resetting and migrating them.
- **`GeneralActions`** (`general_actions.dfy`): storing graded feedback, which also updates the counters, and the three interview and feedback queries with their in-memory fallbacks.
- **`Auth`** (`auth.dfy`): the session cookie, sign-up, sign-in, sign-out and the current user.
- **`Generate`** and **`Synthetic`** (`generate.dfy`, `synthetic.dfy`): the two API routes. One stores a generated interview; the other stores an estimated feedback for a voice-generated interview.
- **`InterviewTraining`** and **`QuestionBanks`** (`interview_training.dfy`, `question_banks.dfy`): the interviewer prompt builder and the domain question-bank lookup.
- **`Agent`** (`agent.dfy`): the voice-call component. It covers its state under the voice service's events, the assistant it starts, and what it does when the call ends.
- **`DashboardViews`** (`dashboard_views.dfy`): what the dashboard, the analytics dialog, the interview card and the counter card derive from the analytics before rendering.

Shared pieces:

- `Records` holds the documents, `Filter`, `FindBy` and `slice`.
- `Sorting` models the engine's stable `Array.prototype.sort` as an insertion sort.
- `Numeric` holds `Math.round` of a quotient, sums and clamps.
- `Text` holds `includes`, `toLowerCase`, `trim`, `split`, `join` and number rendering.
- `Wrappers` holds `Option`.

Integers are unbounded. Timestamps are milliseconds since the epoch. `Math.round(a / b)` is computed exactly as the integer nearest to `a / b`, with a half rounding up.

Two lookups in object literals read inherited object properties:

- **Inherited level names.** A level such as `constructor` or `toString` names a property that every object inherits. Looking it up in the level table (constants/interview-training.ts:146-147) finds that property, and reading `.adjustments.map` from it throws. So prompt generation fails for such levels (`EnhancedPrompt` returns `None`), and the generate route reports an error.
- **Inherited badge names.** An interview card whose type names an inherited property (components/InterviewCard.tsx:29-49) gets that property as its badge, because the `||` fallback to the gray badge applies only to missing entries. Its colour is then missing (`InheritedBadge`).

## Model

| member | source | states |
|---|---|---|
| Analytics.GetDashboardStats | lib/actions/analytics.action.ts:70-149 | The counters come from the user's stats, read as 0 when absent. Completed equals total. The success rate is 100 exactly when there is an interview. Practice time is 25 minutes per interview. Weekly growth is min(total, 3). Monthly growth is min(25, 5·total) for a positive total and 0 otherwise. Average and improvement come from the feedback. Every figure is 0 when the feedback query fails. |
| Analytics.AverageScoreIsRoundedMean | lib/actions/analytics.action.ts:93-98 | The average score is within half a point of the exact mean. It lies in [0, 100] when every score does. |
| Analytics.AverageScoreOrderFree | lib/actions/analytics.action.ts:93-98 | The average does not depend on the order of the feedback. |
| Analytics.FirstToLastEnds | lib/actions/analytics.action.ts:113-121 | After the time sort, the first-to-last difference is the score of a latest feedback minus that of an earliest one. |
| Analytics.ScoreImprovementSpec | lib/actions/analytics.action.ts:113-121 | The improvement is 0 without feedback and the score minus the 70 baseline for one feedback. For more, it is a latest score minus an earliest score. |
| Analytics.CategoryScoresMembers | lib/actions/analytics.action.ts:213-216 | A category's observations are exactly the category scores of that name found in any feedback. |
| Analytics.LevelOfMean | lib/actions/analytics.action.ts:233-240 | The level is Expert from a mean of 90, Advanced from 75, Intermediate from 50, and Beginner below 50. |
| Analytics.SummarizeMeans | lib/actions/analytics.action.ts:218-247 | Progress is the mean rounded. The level follows the mean's band. Improvement is the rounded difference between the means of the second and first halves, and 0 for a single observation. |
| Analytics.SummarizeBounds | lib/actions/analytics.action.ts:219-244 | Progress stays in [0, 100] when the scores do. |
| Analytics.SkillNamesDistinct | lib/actions/analytics.action.ts:202-208 | The five mapped skill names are pairwise distinct. |
| Analytics.GetSkillsProgress | lib/actions/analytics.action.ts:152-191 | A failed query gives no skills. No feedback gives the five Beginner placeholders at 0, in the fixed order. With feedback, the order is stated by `SkillsInCategoryOrder`. |
| Analytics.SkillsProgressBySkill | lib/actions/analytics.action.ts:194-249 | With feedback, a skill is listed exactly when its category has observations. Its entry is then the summary of those observations. |
| Analytics.SkillsProgressNames | lib/actions/analytics.action.ts:202-249 | At most five skills are listed, each under a mapped name, and no name appears twice. |
| Analytics.TaggedInOrder | lib/actions/analytics.action.ts:212-249 | The loop pushes one entry per category, at most, in category order. So keeping only the present entries keeps them in the order of their positions among the mapped names. |
| Analytics.SkillsInCategoryOrder | lib/actions/analytics.action.ts:194-249 | With feedback, the listed skills come in the fixed category order: a skill listed earlier has an earlier position among the five mapped names. |
| Analytics.WithImprovements | lib/actions/analytics.action.ts:300-303 | Each trend after the first gets its score minus the previous trend's. Weeks and scores are unchanged. |
| Analytics.GetPerformanceTrends | lib/actions/analytics.action.ts:259-270 | A failed query or no feedback gives no trends. There are never more than four. |
| Analytics.TrendsIgnoreOrder | lib/actions/analytics.action.ts:263-265 | Sorting the feedback by time first does not change the trends. |
| Analytics.TrendsByWeek | lib/actions/analytics.action.ts:275-297 | Week w has a trend exactly when some feedback falls in [now − (w+1) weeks, now − w weeks). Its score is the rounded mean of that week's scores. |
| Analytics.TrendsShape | lib/actions/analytics.action.ts:275-303 | Trends run from older to newer weeks, all within the last four weeks. The first improvement is 0, and each later one is the score difference to the previous trend. |
| Analytics.HighScoresExist | lib/actions/analytics.action.ts:344-354 | Some feedback scores at least 85 exactly when the high-score list is non-empty. Its first entry is such a feedback. |
| Analytics.Unlock | lib/actions/analytics.action.ts:331-405 | Each badge is unlocked exactly when its rule holds: any interview; a score of at least 85; three interviews in the last week; ten finalized interviews; a first-to-last gain of at least 20. |
| Analytics.GetUserAchievements | lib/actions/analytics.action.ts:313-414 | Achievements are empty when a query fails, at most five, and sorted newest first. |
| Analytics.AchievementsEarned | lib/actions/analytics.action.ts:331-409 | The list holds a badge exactly when that badge's rule holds. |
| Analytics.AchievementsDistinct | lib/actions/analytics.action.ts:331-409 | No badge is listed twice. |
| Analytics.AchievementDates | lib/actions/analytics.action.ts:332-403 | Each listed badge carries the date its rule picks. First interview: the first stored interview's date. High scorer: the first high-scoring feedback's date. Consistent learner: the third interview of the last week. Interview master: the tenth finalized interview. Improvement champion: the latest feedback's date, and no feedback is later. |
| Analytics.LatestFeedbackIsLatest | lib/actions/analytics.action.ts:389-393 | The last feedback after the time sort is one of the feedback and no other is later. |
| Analytics.LowestSkill | lib/actions/analytics.action.ts:430-432 | The chosen skill has the least progress, and it is the first such skill. |
| Analytics.Recommend | lib/actions/analytics.action.ts:426-465 | There are at most three recommendations, and none without skills. |
| Analytics.RecommendFocus | lib/actions/analytics.action.ts:430-441 | A high-priority focus item exists exactly when some skill is below 70. It then comes first and names the lowest skill. |
| Analytics.RecommendBehavioral | lib/actions/analytics.action.ts:444-452 | The behavioural advice appears exactly when the behavioural skill is listed below 80. |
| Analytics.RecommendSystemDesign | lib/actions/analytics.action.ts:455-463 | The system-design advice appears exactly when the technical skill is listed at 80 or more. |
| Analytics.RecommendParts | lib/actions/analytics.action.ts:426-465 | The recommendations are the focus item, then the behavioral item, then the system-design item, each pushed at most once. The last two are of medium priority. |
| Analytics.RecommendDistinct | lib/actions/analytics.action.ts:426-465 | No recommendation is listed twice. |
| Analytics.GetPracticeRecommendations | lib/actions/analytics.action.ts:417-470 | A failed query gives none, and there are never more than three. A user without feedback is told to focus on Technical Questions and to strengthen behavioural answers. |
| Analytics.NewUserRecommendations | lib/actions/analytics.action.ts:158-191 | The five placeholder skills call for focus on Technical Questions and for the behavioural advice, and nothing else. |
| Analytics.ReportedSkills | lib/actions/analytics.action.ts:194-249 | With feedback, a skill is reported exactly when it is the summary, under its mapped name, of a category that has scores. |
| Analytics.PracticeFocusFromFeedback | lib/actions/analytics.action.ts:425-441 | With feedback, a high-priority focus item is given exactly when some category with scores is summarised below 70. |
| Analytics.PracticeBehavioralFromFeedback | lib/actions/analytics.action.ts:443-452 | With feedback, the behavioural advice is given exactly when the communication category has scores summarised below 80. |
| Analytics.PracticeSystemDesignFromFeedback | lib/actions/analytics.action.ts:454-463 | With feedback, the system-design advice is given exactly when the technical category has scores summarised at 80 or more. |
| UserStats.IncrementUserInterviewCount | lib/actions/user-stats.action.ts:8-40 | A missing user gets "User not found" and nothing is written. Otherwise the interview counter, read as 0 when absent, grows by one, and no other field or user changes. |
| UserStats.IncrementUserQuestionCount | lib/actions/user-stats.action.ts:42-80 | The same for the question counter, which grows by the given count (default 1). |
| UserStats.GetUserStats | lib/actions/user-stats.action.ts:82-104 | A missing user gives `null`. Otherwise both counters are returned, with absent ones as 0. |
| UserStats.InitializeUserStats | lib/actions/user-stats.action.ts:106-140 | Absent counters become 0 and present ones are kept. A missing user is reported. |
| UserStats.ResetUserStats | lib/actions/user-stats.action.ts:142-162 | Both counters become 0. The update fails on a missing user. |
| UserStats.MigrateUserStats | lib/actions/user-stats.action.ts:164-200 | Both counters are overwritten with the number of the user's interviews and the total length of their question arrays. The update fails on a missing user. |
| UserStats.MigrateAllUserStats | lib/actions/user-stats.action.ts:202-226 | When the users can be read, exactly the users missing a counter are recounted, the count of them is returned, and the result is a success. Every other user is untouched. A failed read reports failure with the error text and a count of 0, and changes nothing. |
| UserStats.IncrementThenRead | lib/actions/user-stats.action.ts:8-104 | Reading after an increment gives the old interview count plus one. |
| UserStats.IncrementsCommute | lib/actions/user-stats.action.ts:8-80 | Incrementing the interview counter and then the question counter gives the same store as the reverse order. |
| UserStats.InitializeIdempotent | lib/actions/user-stats.action.ts:106-140 | Initialising twice gives the same store as initialising once. |
| UserStats.InitializePreservesReadings | lib/actions/user-stats.action.ts:82-140 | Initialising never changes what `getUserStats` reads for anyone. |
| UserStats.MigrateThenRead | lib/actions/user-stats.action.ts:82-200 | Reading after a migration gives the recounted numbers. |
| GeneralActions.FormatTranscriptLength | lib/actions/general.action.ts:18-22 | The formatted transcript is as long as its lines together. |
| GeneralActions.FormatTranscriptAppend | lib/actions/general.action.ts:18-22 | Formatting distributes over concatenating transcripts. |
| GeneralActions.FormatTranscriptShowsEach | lib/actions/general.action.ts:18-22 | Every message's `- role: content` line occurs in the formatted transcript. |
| GeneralActions.AskedQuestions | lib/actions/general.action.ts:123-124 | The question count is the length of whatever the questions field holds: the number of questions for a list, the string's length when the field holds a string. It is 0 when the interview or its questions are missing. |
| GeneralActions.CreateFeedback | lib/actions/general.action.ts:14-150 | The feedback fails exactly when grading or the write fails, and then nothing is written. The document id is the requested id when it is non-empty, else a fresh one. The stored feedback carries the language model's fields. Only the author's counters change. |
| GeneralActions.CreateFeedbackCounts | lib/actions/general.action.ts:112-139 | A stored feedback adds one interview and the interview's question count to the author's counters. |
| GeneralActions.CreateFeedbackUnknownUser | lib/actions/general.action.ts:112-143 | For an author without a profile the counter updates fail silently and no profile is created. |
| GeneralActions.GetFeedbackByInterviewId | lib/actions/general.action.ts:158-190 | It gives `null` exactly when no feedback matches both the interview and the user. Otherwise it gives the first match. |
| GeneralActions.FeedbackFallbackAgrees | lib/actions/general.action.ts:158-190 | The in-memory fallback finds the same feedback as the indexed query. |
| GeneralActions.GetLatestInterviews | lib/actions/general.action.ts:192-229 | Exactly min(limit, number of the user's finalized interviews) are returned, each the user's and finalized, none more often than it is stored, newest first. A negative limit drops that many from the end. |
| GeneralActions.LatestInterviewsAreNewest | lib/actions/general.action.ts:192-229 | A matching interview is left out only if it is no newer than every one returned. None is left out when the limit covers all the user's finalized interviews. |
| GeneralActions.GetInterviewsByUserId | lib/actions/general.action.ts:231-260 | It returns a rearrangement of the user's interviews, newest first. |
| GeneralActions.InterviewsByUserMembers | lib/actions/general.action.ts:231-260 | An interview is listed exactly when it belongs to the user. |
| Auth.SetSessionCookie | lib/actions/auth.action.ts:7-26 | The session cookie holds the created session. It lives exactly as long as the session, one week. It is HTTP-only, lax and site-wide, and secure exactly in production. No other cookie changes. |
| Auth.SignUpErrorMessage | lib/actions/auth.action.ts:78-113 | The message is never empty. `auth/email-already-exists` gives "This email is already in use" and `permission-denied` gives the security-rules message. Otherwise, an error whose message mentions `serviceAccountKey` gives the configuration message. Every other error gives "Failed to create account: " followed by the error's own message, or by "Please try again." when that message is missing or empty. |
| Auth.SignUp | lib/actions/auth.action.ts:28-114 | Sign-up succeeds exactly when the read works, the id is new and the write works. It then stores a fresh profile with both counters at 0. An existing id gets its own message. |
| Auth.SignUpThenStats | lib/actions/auth.action.ts:55-70 | A new account reads zero interviews and zero questions. Nobody else's reading changes. |
| Auth.SignUpTwice | lib/actions/auth.action.ts:48-54 | A second sign-up with the same id fails and leaves the store as the first left it. |
| Auth.SignIn | lib/actions/auth.action.ts:116-148 | Sign-in succeeds exactly when the user lookup finds a record and a session was created, and it then sets the cookie. A failed lookup, which is what the identity service gives for an unknown e-mail, or a failed session gets the generic failure message. The code's "does not exist" message belongs to a falsy record, which the service does not return. |
| Auth.SignOut | lib/actions/auth.action.ts:150-155 | The session cookie is gone and every other cookie is kept. |
| Auth.GetCurrentUser | lib/actions/auth.action.ts:157-184 | There is a current user exactly when a non-empty session cookie verifies to an existing profile that can be read. |
| Auth.IsAuthenticated | lib/actions/auth.action.ts:186-189 | It is true exactly when there is a current user. |
| Auth.SignOutSignsOut | lib/actions/auth.action.ts:150-189 | After signing out nobody is authenticated. |
| Auth.SignInThenCurrent | lib/actions/auth.action.ts:116-184 | After a successful sign-in with a verifiable session, the current user is the one signed in. |
| Synthetic.DrawsFromRandom | app/api/feedback/synthetic/route.ts:13-22 | The base draw lies in 0..19 and each offset draw in -5..4. |
| Synthetic.SyntheticCategories | app/api/feedback/synthetic/route.ts:19-44 | There are five category scores, in the fixed order, each the base plus its offset clamped to [60, 100]. |
| Synthetic.SyntheticFeedback | app/api/feedback/synthetic/route.ts:15-59 | The feedback belongs to the user and is stamped now. Its interview id is "generate-" followed by the time. Its score lies in 75..94. The assessment embeds the estimated question count. |
| Synthetic.ClampIdle | app/api/feedback/synthetic/route.ts:22-42 | The clamp never changes a category score: each lies in 70..98. |
| Synthetic.PostSynthetic | app/api/feedback/synthetic/route.ts:4-79 | An unreadable body gives a server error. A missing or empty user id gives 400. Otherwise exactly one feedback is added when the write works. |
| Synthetic.SyntheticScoreRange | app/api/feedback/synthetic/route.ts:13-42 | A saved synthetic feedback scores 75..94, and so does every category. |
| Generate.ParseTechstack | app/api/vapi/generate/route.ts:12 | There is one trimmed, comma-free name per comma-separated piece, and each is that piece trimmed. |
| Generate.ParseTechstackJoin | app/api/vapi/generate/route.ts:12 | Parsing the comma-join of trimmed, comma-free names gives the names back. |
| Generate.PostGenerate | app/api/vapi/generate/route.ts:8-73 | Generation succeeds exactly when the body has a tech stack, the level is not an inherited name, generation works and the write works. It then appends one finalized interview with the parsed stack. Counters and feedback never change. |
| Generate.GenerateKeepsCounters | app/api/vapi/generate/route.ts:63-66 | Generating an interview leaves every user's counters unchanged. |
| QuestionBanks.LevelKeyOf | constants/question-banks.ts:229-233 | The level is senior when it contains "senior", beginner when it contains "junior" or "entry" but not "senior", and intermediate otherwise. |
| QuestionBanks.TypeKeyOf | constants/question-banks.ts:234 | The behavioural list is chosen exactly for "behavioral". |
| QuestionBanks.GetQuestionsByDomain | constants/question-banks.ts:217-254 | A technical domain uses the level and type lists. Otherwise the first matching domain (sales, analytics/data, marketing, hr/human, finance/accounting) is used, with intermediate technical as the default. The result is never empty. |
| QuestionBanks.LevelIsCaseSensitive | constants/question-banks.ts:229-233 | The level is not lower-cased. Any level without the lower-case letters s, j and t cannot contain "senior", "junior" or "entry", so it falls through to intermediate. A capitalised "Senior" is one such level. |
| InterviewTraining.KindOf | constants/interview-training.ts:143-145 | "technical" and "behavioral" select their prompts, and every other type uses the mixed prompt. |
| InterviewTraining.LookupLevel | constants/interview-training.ts:146-147 | The three level keys find their adjustments, inherited property names find an inherited value, and everything else finds nothing. |
| InterviewTraining.DetectIndustry | constants/interview-training.ts:150-181 | The lower-cased role selects the first matching industry (frontend, backend, fullstack, data, mobile), or none. |
| InterviewTraining.IndustryIgnoresCase | constants/interview-training.ts:151 | Roles that lower-case alike get the same industry. |
| InterviewTraining.EnhancedPrompt | constants/interview-training.ts:137-204 | The prompt fails exactly for an inherited level name. Otherwise it is the template filled with the type's prompt, role, level, level section, industry areas and stack. |
| InterviewTraining.PromptStartsWithBase | constants/interview-training.ts:184 | The prompt starts with the interview type's system prompt. |
| InterviewTraining.RoleContextListsStack | constants/interview-training.ts:186-189 | The role context names the role and level and lists the stack joined by ", ". |
| InterviewTraining.PromptNamesRole | constants/interview-training.ts:186-189 | The prompt contains the role context and the joined stack. |
| InterviewTraining.PromptLevelSection | constants/interview-training.ts:191-193 | The prompt contains the level section. It reads "undefined" twice for a level that is not one of the three keys. |
| InterviewTraining.PromptIndustryFocus | constants/interview-training.ts:195-196 | The prompt contains the industry focus areas as a bulleted list. |
| InterviewTraining.PromptClosesWithStack | constants/interview-training.ts:198-203 | The prompt's technology context lists the stack, followed by the closing instructions. |
| Agent.Step | components/Agent.tsx:40-90 | A final transcript appends its message, and nothing else changes the messages. Call start makes the call active, call end or hang-up finishes it, and dialling connects it. The shown message is the latest one kept. |
| Agent.TranscriptStep | components/Agent.tsx:49-54 | The transcript of a sequence of events grows by the last event's message exactly when that event is a final transcript. |
| Agent.RunTranscript | components/Agent.tsx:49-54 | After any events, the kept messages are the earlier ones followed by the final transcripts, in order. |
| Agent.RunShowsLatest | components/Agent.tsx:87-90 | The shown message is the latest final transcript, or empty before the first. |
| Agent.FinishCall | components/Agent.tsx:92-169 | A generated call goes home. When anything was said, it counts one interview and half the messages (rounded up) as questions, and requests a synthetic feedback. Any other call grades its transcript, and opens the feedback page exactly when grading returned a non-empty id. |
| Agent.GeneratedCallCounts | components/Agent.tsx:119-133 | A finished generated call with messages adds one interview and ⌈messages/2⌉ questions to the user's counters. |
| Agent.FormatQuestionsLines | components/Agent.tsx:199-204 | The formatted questions split back into one "- question" line per question. |
| Agent.PlanCall | components/Agent.tsx:171-214 | A generated call starts the workflow exactly when its id is set and not blank. Otherwise it starts the interviewer with the fallback instructions. Any other call starts the interviewer with its bulleted questions. |
| Analytics.TrendsOrderFree | lib/actions/analytics.action.ts:259-303 | Feedback with the same elements in any order gives the same trends. |
| Analytics.Unlocked | lib/actions/analytics.action.ts:331-405 | There are five slots, one per badge in the fixed order. Each holds that badge's unlock result. |
| Records.FindBy | lib/actions/general.action.ts:184 | `find` gives nothing exactly when no element matches. Otherwise it gives the first matching element. |
| Text.Split | app/api/vapi/generate/route.ts:12 | `split` gives one more piece than there are separators. No piece contains the separator, and the pieces joined by it give the text back. |
| Text.SplitJoin | app/api/vapi/generate/route.ts:12 | Splitting the join of separator-free pieces gives the pieces back. |
| Text.Trim | app/api/vapi/generate/route.ts:12 | `trim` keeps the middle of the text, drops only whitespace before and after it, and leaves no whitespace at either end. |
| Numeric.RoundDivIsRound | lib/actions/analytics.action.ts:96-98 | `Math.round` of a quotient is within half of the exact quotient. |
| Numeric.CeilHalf | components/Agent.tsx:128 | `Math.ceil(n / 2)` is the r with 2r − 1 ≤ n ≤ 2r. |
| Sorting.SortBy | lib/actions/analytics.action.ts:263-265 | The time sort returns a sorted rearrangement of its input. It is stable: elements with equal keys keep their relative order. |
| Sorting.SortDescBy | lib/actions/general.action.ts:222-225 | The newest-first sort returns a rearrangement sorted by descending key. It is stable in the same way. |
| DashboardViews.FormatPracticeTime | components/Dashboard.tsx:76-86 | No time or a negative time reads "0m". Otherwise the label is digits and a unit (m, h or d), and the digits are the whole number of units in the time. |
| DashboardViews.NestedFloor | components/Dashboard.tsx:80-81 | Flooring minutes to hours and then hours to days gives the whole days in the minutes. |
| DashboardViews.ShownStats | components/Dashboard.tsx:63-70 | Without statistics every figure shows as 0. |
| DashboardViews.RecentActivity | components/Dashboard.tsx:73 | Recent activity shows the first five interviews, or all of them when there are fewer, and nothing without a list. |
| DashboardViews.ShownAchievements | components/Dashboard.tsx:296-298 | The card shows the first three achievements, or its empty state when there are none. |
| DashboardViews.ImprovementAreas | components/Dashboard.tsx:630-633 | The placeholders show exactly when no skill progress is known. Otherwise at most three skills show, each improving. |
| DashboardViews.ImprovementAreasComplete | components/Dashboard.tsx:630-633 | The listed skills are the first min(3, number improving) improving skills of the input, in its order. Fewer than three are listed only when no other skill improves. |
| DashboardViews.ScoreLineParts | components/Dashboard.tsx:163-165 | The caption is the sign, the size of the change in decimal, and the verdict. |
| DashboardViews.ScoreLineWording | components/Dashboard.tsx:163-165 | The caption starts with "+" exactly for a gain, and ends in "improved" exactly when there is no loss. |
| DashboardViews.CompletedCount | components/DashboardModals.tsx:196-198 | The count is 0 for a non-array. Otherwise it is at most the total, equal to the total exactly when all interviews are finalized, and 0 exactly when none is. |
| DashboardViews.PracticeMinutes | components/DashboardModals.tsx:199 | The practice time is 25 minutes per completed interview. |
| DashboardViews.HoursMinutes | components/DashboardModals.tsx:237 | The shown hours h and minutes m satisfy 60h + m = t and m < 60. |
| DashboardViews.HoursMinutesUnique | components/DashboardModals.tsx:237 | That split is the only one. |
| DashboardViews.RecentHistory | components/DashboardModals.tsx:254-255 | The history shows the first five interviews. |
| DashboardViews.SkillLink | components/DashboardModals.tsx:115 | The skill link is the interview page with the skill id as its `skill` parameter. |
| DashboardViews.ScheduleLinkReads | components/DashboardModals.tsx:174 | The schedule link's query splits into `duration=` and `questions=` parameters, whose digits read back as the session's numbers. |
| DashboardViews.CardFeedback | components/InterviewCard.tsx:19-25 | A card has feedback only when both ids are given and non-empty. It is then the user's feedback on that interview, and it is found whenever one exists. |
| DashboardViews.DisplayType | components/InterviewCard.tsx:27 | A type containing "mix" in any letter case shows as "Mixed". Any other type shows unchanged. |
| DashboardViews.DisplayTypeStable | components/InterviewCard.tsx:27 | "Mixed" is shown exactly for mixed types. Showing twice changes nothing, and letter case does not matter. |
| DashboardViews.BadgeFor | components/InterviewCard.tsx:29-49 | The three capitalised types get their badges. Inherited property names get the inherited value, and everything else gets the gray badge. |
| DashboardViews.CardBadge | components/InterviewCard.tsx:27-49 | A mixed type always wears the mixed badge. Any other unknown type wears the gray one. |
| DashboardViews.CardScore | components/InterviewCard.tsx:55 | The score is the feedback's total, or 0 without feedback. |
| DashboardViews.ToneOf | components/InterviewCard.tsx:56-61 | The colour is emerald from 80, red below 60, and amber between. |
| DashboardViews.ToneMonotone | components/InterviewCard.tsx:56-61 | A higher score never gets a worse colour. |
| DashboardViews.ScoreLabel | components/InterviewCard.tsx:109 | The label is the score over 100, or "---/100" exactly when the score is missing or 0. |
| DashboardViews.BarWidth | components/InterviewCard.tsx:115-126 | The bar shows exactly for a non-zero score. Its width is the score, capped at 100. |
| DashboardViews.CardLink | components/InterviewCard.tsx:149-154 | The link lies under the interview's page. It is the feedback page exactly when there is feedback. |
| DashboardViews.FetchStats | components/UserStatsCard.tsx:26-43 | An answer replaces the counters and clears the error. A missing user or a rejected call shows "Failed to load user statistics" and keeps the counters. Loading always ends. |
| DashboardViews.Mount | components/UserStatsCard.tsx:21-24 | The card starts at 0 and 0, loading, with no error. It fetches only for a non-empty user id, and otherwise keeps loading. |
| DashboardViews.Migrate | components/UserStatsCard.tsx:45-63 | A successful migration fetches again. A failure shows its error, or the default message when it has none or the call was rejected. Migrating always ends. |
| DashboardViews.View | components/UserStatsCard.tsx:71-163 | The spinner shows while loading, then the error. Otherwise both counters show, with the rounded average only after an interview and the migration notice exactly when both counters are 0. |
| DashboardViews.RetryRecovers | components/UserStatsCard.tsx:82-98 | A failed load shows the error, and a retry that gets an answer shows that answer's counters. |
| DashboardViews.MigrationShowsRecount | components/UserStatsCard.tsx:45-63 | Migrating an existing user and fetching again shows the recounted counters, without the notice once any interview exists. |

## Left out

- Language-model calls (`generateObject`, `generateText`) and `JSON.parse` of their output are parameters: the language model's fields, the generated questions, or a failure.
- Voice-service calls (`vapi.start`, `vapi.stop`, event registration) are left out. The voice call is modelled only through the events it delivers and the assistant it would start.
- Clocks, `Math.random` and fresh document ids are parameters. The synthetic route reads the clock twice (app/api/feedback/synthetic/route.ts:17 and 58); one `now` stands for both reads, so the model does not show the few milliseconds by which they can differ. The random draws are integers, and `Synthetic.DrawsFromRandom` relates them to a draw in [0, 1).
- Session-cookie creation and verification by the identity service are parameters, as a created session and a verifier function.
- Concurrency is left out: the read-modify-write races on the counters and the parallel reads of the dashboard. Each action is one sequential step.
- Service outages appear only where the code branches on them, as explicit flags or `None` results. Exceptions in the agent's stats path and in the stats updates after a feedback is stored are not modelled separately. They are caught and do not change the outcome.
- The order in which the store returns query results is the collection's order. Indexed queries that order by creation time are modelled by the in-memory sort of their fallbacks.
- `toLowerCase` is modelled on ASCII letters only. Non-ASCII case mapping is left out.
- Numbers are integers. NaN, fractional minutes and floating-point rounding of the averages are left out, and the means are exact.
- Rendering, styling, icons, toasts, date formatting (`dayjs`, `toLocaleDateString`) and router navigation are left out. Routes are strings.
- The PDF generators and their buttons are layout over a library that is not part of this model.
- The synthetic feedback's fixed texts (strengths, areas for improvement, the words around the question count) are a parameter, `copy`.
- The finish effect of the voice call runs once per status change. Its re-running when other dependencies change is not modelled.
- The `GET` handler of the generate route only returns a constant and is not modelled.
- Static prompt and configuration constants (the conversational flow, the enhanced interviewer, the dashboard quick actions) are used only as opaque texts.
- The question banks' follow-up questions and feedback templates are unused by the modelled operations and are left out. Bank contents are sizes, not texts.
- Agent.Step: `isSpeaking` is kept but not constrained by the contract, because nothing else reads it.
- GeneralActions.AskedQuestions: a string-valued questions field counts its characters, while JavaScript's `.length` counts UTF-16 code units, so the two differ on characters outside the Basic Multilingual Plane. Strings here are sequences of characters with no encoding.

=== FILE: agent.dfy ===
/** The voice-call component (`components/Agent.tsx`): the call status and
    transcript it keeps while the voice service reports events, the
    assistant it starts, and what it does once the call has finished. The
    voice service, the router and the server actions are outside; their
    effects are modelled through the store they act on. */
module Agent {
  import opened Wrappers
  import opened Records
  import Numeric
  import Text
  import UserStats
  import GeneralActions
  import Synthetic

  datatype CallStatus = Inactive | Connecting | Active | Finished

  type SavedMessage = GeneralActions.TranscriptMessage

  /** What the component reacts to: the voice service's events and the
      user's two buttons. */
  datatype CallEvent =
    | CallStart
    | CallEnd
    | Message(kind: string, transcriptType: string, role: string, transcript: string)
    | SpeechStart
    | SpeechEnd
    | CallError
    | Dial
    | HangUp

  /** The component's state. */
  datatype AgentState = AgentState(
    callStatus: CallStatus,
    messages: seq<SavedMessage>,
    isSpeaking: bool,
    lastMessage: string)

  const Initial: AgentState := AgentState(Inactive, [], false, "")

  /** Only final transcripts are kept. */
  predicate IsFinalTranscript(e: CallEvent) {
    e.Message? && e.kind == "transcript" && e.transcriptType == "final"
  }

  /** The message a transcript event saves. */
  function Saved(e: CallEvent): SavedMessage
    requires e.Message?
  {
    GeneralActions.TranscriptMessage(e.role, e.transcript)
  }

  /** One event: its handler, then the effect that shows the latest message. */
  function Step(s: AgentState, e: CallEvent): (r: AgentState)
    ensures r.messages == (if IsFinalTranscript(e) then s.messages + [Saved(e)] else s.messages)
    ensures e.CallStart? ==> r.callStatus == Active
    ensures e.CallEnd? || e.HangUp? ==> r.callStatus == Finished
    ensures e.Dial? ==> r.callStatus == Connecting
    ensures !(e.CallStart? || e.CallEnd? || e.HangUp? || e.Dial?) ==> r.callStatus == s.callStatus
    ensures |r.messages| > 0 ==> r.lastMessage == r.messages[|r.messages| - 1].content
    ensures |r.messages| == 0 ==> r.lastMessage == s.lastMessage
  {
    var handled :=
      match e
      case CallStart => s.(callStatus := Active)
      case CallEnd => s.(callStatus := Finished)
      case Message(_, _, _, _) => if IsFinalTranscript(e) then s.(messages := s.messages + [Saved(e)]) else s
      case SpeechStart => s.(isSpeaking := true)
      case SpeechEnd => s.(isSpeaking := false)
      case CallError => s
      case Dial => s.(callStatus := Connecting)
      case HangUp => s.(callStatus := Finished);
    if |handled.messages| > 0 then handled.(lastMessage := handled.messages[|handled.messages| - 1].content)
    else handled
  }

  /** The state after a sequence of events. */
  function Run(s: AgentState, events: seq<CallEvent>): AgentState
    decreases |events|
  {
    if |events| == 0 then s else Step(Run(s, events[..|events| - 1]), events[|events| - 1])
  }

  /** The transcript as an independent reading of the events: the final
      transcript events, in order, as messages. */
  function Transcript(events: seq<CallEvent>): (t: seq<SavedMessage>)
    ensures |t| == |Filter(events, IsFinalTranscript)|
  {
    var finals := Filter(events, IsFinalTranscript);
    seq(|finals|, i requires 0 <= i < |finals| => Saved(finals[i]))
  }

  /** The last event extends the transcript by its message when it is a
      final transcript, and leaves it as it was otherwise. */
  lemma TranscriptStep(events: seq<CallEvent>)
    requires |events| > 0
    ensures Transcript(events) == Transcript(events[..|events| - 1])
      + (if IsFinalTranscript(events[|events| - 1]) then [Saved(events[|events| - 1])] else [])
  {
    var prefix, e := events[..|events| - 1], events[|events| - 1];
    assert events == prefix + [e];
    FilterAppend(prefix, [e], IsFinalTranscript);
    assert Filter([e], IsFinalTranscript) == (if IsFinalTranscript(e) then [e] else []);
  }

  /** From any state, the kept messages grow by exactly the final
      transcripts, in the order they arrived. */
  lemma {:induction false} RunTranscript(s: AgentState, events: seq<CallEvent>)
    ensures Run(s, events).messages == s.messages + Transcript(events)
    decreases |events|
  {
    if |events| == 0 {
      assert Transcript(events) == [];
    } else {
      var prefix := events[..|events| - 1];
      var e := events[|events| - 1];
      var before := Run(s, prefix);
      RunTranscript(s, prefix);
      assert Run(s, events) == Step(before, e);
      TranscriptStep(events);
    }
  }

  /** From the initial state the latest kept message is the one shown, and
      nothing is shown before the first. */
  lemma {:induction false} RunShowsLatest(events: seq<CallEvent>)
    ensures |Transcript(events)| > 0 ==> Run(Initial, events).lastMessage == Transcript(events)[|Transcript(events)| - 1].content
    ensures |Transcript(events)| == 0 ==> Run(Initial, events).lastMessage == ""
    decreases |events|
  {
    var r := Run(Initial, events);
    RunTranscript(Initial, events);
    assert r.messages == Transcript(events);
    if |events| > 0 && |r.messages| == 0 {
      var prefix := events[..|events| - 1];
      var before := Run(Initial, prefix);
      assert r == Step(before, events[|events| - 1]);
      RunTranscript(Initial, prefix);
      assert |before.messages| == 0;
      RunShowsLatest(prefix);
    }
  }

  /** Where `router.push` sends the user. */
  const Home: string := "/"

  function FeedbackPage(interviewId: string): string {
    "/interview/" + interviewId + "/feedback"
  }

  /** What finishing a call leaves behind: the page the user is sent to,
      the store after the server actions, and the body of the synthetic
      feedback request, if one is sent. */
  datatype Finish = Finish(route: string, store: GeneralActions.Store, syntheticRequest: Option<Synthetic.SyntheticRequest>)

  /** The effect once the status is FINISHED. A generated call counts one
      interview and `Math.ceil(messages / 2)` questions for the user and asks
      for a synthetic feedback, but only if anything was said, then goes home.
      Any other call grades its transcript and opens the feedback page when
      that succeeds. The grading result, outages, the clock and the new id
      are parameters of `createFeedback`. */
  function FinishCall(callType: string, messages: seq<SavedMessage>, userId: string, interviewId: string,
                      feedbackId: Option<string>, store: GeneralActions.Store, generated: Option<GeneralActions.Generated>,
                      writeOk: bool, interviewReadOk: bool, freshId: string, now: int): (r: Finish)
    ensures callType == "generate" ==> r.route == Home && r.store.interviews == store.interviews && r.store.feedback == store.feedback
    ensures callType == "generate" && |messages| == 0 ==> r.store == store && r.syntheticRequest.None?
    ensures callType == "generate" && |messages| > 0 ==>
      r.syntheticRequest == Some(Synthetic.SyntheticRequest(Some(userId), Some(Numeric.CeilHalf(|messages|))))
    ensures callType != "generate" ==> r.syntheticRequest.None?
    ensures callType != "generate" ==>
      var (outcome, after) := GeneralActions.CreateFeedback(store, GeneralActions.CreateFeedbackParams(interviewId, userId, messages, feedbackId),
                                                           generated, writeOk, interviewReadOk, freshId, now);
      r.store == after && (r.route == FeedbackPage(interviewId) <==> outcome.Created? && outcome.feedbackId != "")
  {
    if callType == "generate" then
      if |messages| == 0 then Finish(Home, store, None)
      else
        var estimated := Numeric.CeilHalf(|messages|);
        var afterInterview := UserStats.IncrementUserInterviewCount(store.users, userId).1;
        var afterQuestions := if estimated > 0 then UserStats.IncrementUserQuestionCount(afterInterview, userId, estimated).1 else afterInterview;
        Finish(Home, store.(users := afterQuestions), Some(Synthetic.SyntheticRequest(Some(userId), Some(estimated))))
    else
      var (outcome, after) := GeneralActions.CreateFeedback(store, GeneralActions.CreateFeedbackParams(interviewId, userId, messages, feedbackId),
                                                           generated, writeOk, interviewReadOk, freshId, now);
      var route := if outcome.Created? && outcome.feedbackId != "" then FeedbackPage(interviewId) else Home;
      Finish(route, after, None)
  }

  /** A finished generated call with a transcript counts one interview and
      half the messages, rounded up, as questions: every exchange of a
      question and an answer is one question. */
  lemma GeneratedCallCounts(messages: seq<SavedMessage>, userId: string, interviewId: string, feedbackId: Option<string>,
                            store: GeneralActions.Store, generated: Option<GeneralActions.Generated>,
                            writeOk: bool, interviewReadOk: bool, freshId: string, now: int)
    requires |messages| > 0 && userId in store.users
    ensures var after := FinishCall("generate", messages, userId, interviewId, feedbackId, store, generated,
                                    writeOk, interviewReadOk, freshId, now).store.users;
      UserStats.GetUserStats(after, userId) == Some(UserStats.Counts(
        UserStats.OrZero(store.users[userId].interviewCount) + 1,
        UserStats.OrZero(store.users[userId].questionCount) + Numeric.CeilHalf(|messages|)))
    ensures 1 <= Numeric.CeilHalf(|messages|) && 2 * Numeric.CeilHalf(|messages|) - 1 <= |messages| <= 2 * Numeric.CeilHalf(|messages|)
  {
  }

  /** The assistant a call starts: the configured workflow with the user's
      name and id, or the interviewer assistant with the questions to ask. */
  datatype CallPlan =
    | StartWorkflow(workflowId: string, userName: string, userId: string)
    | StartAssistant(userName: string, questions: string)

  /** What the interviewer assistant is told to ask when no workflow is
      configured for a generated call. */
  const FallbackQuestions: string :=
    "Please conduct a comprehensive interview following the structured conversational flow. "
    + "Start by asking about the role type, then customize the interview based on their responses."

  /** The interview's questions as a bulleted list, one per line; no
      questions give the empty text. */
  function FormatQuestions(questions: Option<seq<string>>): string {
    if questions.None? then "" else Text.Bullets(questions.value)
  }

  /** The bulleted list gives back each question, behind its bullet, on its
      own line, for questions written on one line each. */
  lemma FormatQuestionsLines(questions: seq<string>)
    requires |questions| > 0
    requires forall i :: 0 <= i < |questions| ==> '\n' !in questions[i]
    ensures |Text.Split(FormatQuestions(Some(questions)), '\n')| == |questions|
    ensures forall i :: 0 <= i < |questions| ==> Text.Split(FormatQuestions(Some(questions)), '\n')[i] == "- " + questions[i]
  {
    Text.BulletsLines(questions);
    var b := Text.Bulleted(questions);
    forall i | 0 <= i < |questions| ensures b[i] == "- " + questions[i] {
      assert b[i] == b[i][..2] + b[i][2..];
    }
  }

  /** `handleCall`: a generated call starts the workflow when its id is set
      and not blank, and otherwise the interviewer assistant with the
      fallback instructions; any other call starts the interviewer assistant
      with its questions. */
  function PlanCall(callType: string, workflowId: Option<string>, userName: string, userId: string,
                    questions: Option<seq<string>>): (p: CallPlan)
    ensures p.StartWorkflow? <==> callType == "generate" && workflowId.Some? && Text.Trim(workflowId.value) != ""
    ensures p.StartWorkflow? ==> p == StartWorkflow(workflowId.value, userName, userId)
    ensures p.StartAssistant? ==> p.userName == userName
    ensures callType == "generate" && !p.StartWorkflow? ==> p == StartAssistant(userName, FallbackQuestions)
    ensures callType != "generate" ==> p == StartAssistant(userName, FormatQuestions(questions))
  {
    if callType == "generate" then
      if workflowId.Some? && workflowId.value != "" && Text.Trim(workflowId.value) != "" then
        StartWorkflow(workflowId.value, userName, userId)
      else StartAssistant(userName, FallbackQuestions)
    else StartAssistant(userName, FormatQuestions(questions))
  }
}

=== FILE: analytics.dfy ===
/** The dashboard analytics of one user: summary statistics, progress per
    skill, weekly score trends, achievements and practice recommendations.
    Each operation receives the result of its store queries; a query that
    fails is `None`, and the operation then returns the value its error
    handler returns. The current time is a parameter. */
module Analytics {
  import opened Wrappers
  import opened Numeric
  import opened Records
  import opened Sorting
  import Text
  import UserStats

  /** Minutes of practice credited for each counted interview. */
  const MinutesPerInterview: int := 25
  /** The score a single interview's improvement is measured against. */
  const BaselineScore: int := 70
  /** Seven days of 24 hours, in milliseconds. */
  const WeekMs: int := 604_800_000

  function TotalScore(f: Feedback): int {
    f.totalScore
  }

  function FeedbackTime(f: Feedback): int {
    f.createdAt
  }

  // ---------------------------------------------------------------------
  // Summary statistics
  // ---------------------------------------------------------------------

  datatype DashboardStats = DashboardStats(
    totalInterviews: int,
    completedInterviews: int,
    successRate: int,
    averageScore: int,
    practiceTime: int,
    weeklyGrowth: int,
    monthlyGrowth: int,
    scoreImprovement: int,
    totalQuestions: int)

  /** What the statistics fall back to when a query fails. */
  const NoStats: DashboardStats := DashboardStats(0, 0, 0, 0, 0, 0, 0, 0, 0)

  /** The mean total score rounded to the nearest integer; 0 without feedback. */
  function AverageScore(fs: seq<Feedback>): int {
    if |fs| == 0 then 0 else RoundDiv(SumOf(fs, TotalScore), |fs|)
  }

  /** Score of the latest feedback minus that of the earliest, after a stable
      ascending sort by creation time. */
  function FirstToLast(fs: seq<Feedback>): int
    requires |fs| > 0
  {
    var sorted := SortBy(fs, FeedbackTime);
    sorted[|sorted| - 1].totalScore - sorted[0].totalScore
  }

  /** Change in score over the user's history: earliest to latest, or from the
      baseline when there is a single feedback. */
  function ScoreImprovement(fs: seq<Feedback>): int {
    if |fs| >= 2 then FirstToLast(fs)
    else if |fs| == 1 then fs[0].totalScore - BaselineScore
    else 0
  }

  function GetDashboardStats(feedback: Option<seq<Feedback>>, userStats: Option<UserStats.Counts>): (r: DashboardStats)
    ensures feedback.None? ==> r == NoStats
    ensures feedback.Some? ==> r.totalInterviews == (if userStats.Some? then userStats.value.interviewCount else 0)
    ensures feedback.Some? ==> r.totalQuestions == (if userStats.Some? then userStats.value.questionCount else 0)
    ensures r.completedInterviews == r.totalInterviews
    ensures r.successRate == (if r.totalInterviews > 0 then 100 else 0)
    ensures r.practiceTime == MinutesPerInterview * r.totalInterviews
    ensures r.weeklyGrowth <= 3 && r.weeklyGrowth <= r.totalInterviews
    ensures r.weeklyGrowth == 3 || r.weeklyGrowth == r.totalInterviews
    ensures r.totalInterviews <= 0 ==> r.monthlyGrowth == 0
    ensures r.totalInterviews > 0 ==> r.monthlyGrowth <= 25 && r.monthlyGrowth <= 5 * r.totalInterviews
    ensures r.totalInterviews > 0 ==> r.monthlyGrowth == 25 || r.monthlyGrowth == 5 * r.totalInterviews
    ensures feedback.Some? ==> r.averageScore == AverageScore(feedback.value)
    ensures feedback.Some? ==> r.scoreImprovement == ScoreImprovement(feedback.value)
  {
    match feedback
    case None => NoStats
    case Some(fs) =>
      var total := if userStats.Some? then userStats.value.interviewCount else 0;
      var questions := if userStats.Some? then userStats.value.questionCount else 0;
      DashboardStats(
        total,
        total,
        if total > 0 then 100 else 0,
        AverageScore(fs),
        total * MinutesPerInterview,
        Min(total, 3),
        if total > 0 then Min(25, total * 5) else 0,
        ScoreImprovement(fs),
        questions)
  }

  /** The average score is `Math.round` of the exact mean, and scores within
      `[0, 100]` average within `[0, 100]`. */
  lemma AverageScoreIsRoundedMean(fs: seq<Feedback>)
    requires |fs| > 0
    ensures AverageScore(fs) as real - 0.5 <= Ratio(SumOf(fs, TotalScore), |fs|) < AverageScore(fs) as real + 0.5
    ensures (forall i :: 0 <= i < |fs| ==> 0 <= fs[i].totalScore <= 100) ==> 0 <= AverageScore(fs) <= 100
  {
    RoundDivIsRound(SumOf(fs, TotalScore), |fs|);
    if forall i :: 0 <= i < |fs| ==> 0 <= fs[i].totalScore <= 100 {
      SumOfBounds(fs, TotalScore, 0, 100);
      RoundDivMeanBounds(SumOf(fs, TotalScore), |fs|, 0, 100);
    }
  }

  /** The average does not depend on the order the store returns feedback in. */
  lemma AverageScoreOrderFree(a: seq<Feedback>, b: seq<Feedback>)
    requires multiset(a) == multiset(b)
    ensures AverageScore(a) == AverageScore(b)
  {
    assert |a| == |multiset(a)| == |b|;
    SumOfPermutation(a, b, TotalScore);
  }

  predicate EarliestAt(fs: seq<Feedback>, i: int) {
    0 <= i < |fs| && forall k :: 0 <= k < |fs| ==> fs[i].createdAt <= fs[k].createdAt
  }

  predicate LatestAt(fs: seq<Feedback>, i: int) {
    0 <= i < |fs| && forall k :: 0 <= k < |fs| ==> fs[k].createdAt <= fs[i].createdAt
  }

  /** `FirstToLast` compares a feedback with no earlier one against a
      feedback with no later one. */
  lemma FirstToLastEnds(fs: seq<Feedback>)
    requires |fs| > 0
    ensures exists i, j :: EarliestAt(fs, i) && LatestAt(fs, j) && FirstToLast(fs) == fs[j].totalScore - fs[i].totalScore
  {
    var sorted := SortBy(fs, FeedbackTime);
    var n := |sorted|;
    SortedEnds(fs, FeedbackTime);
    assert sorted[0] in multiset(fs) && sorted[n - 1] in multiset(fs);
    var i :| 0 <= i < |fs| && fs[i] == sorted[0];
    var j :| 0 <= j < |fs| && fs[j] == sorted[n - 1];
    forall k | 0 <= k < |fs| ensures fs[i].createdAt <= fs[k].createdAt <= fs[j].createdAt {
      assert fs[k] in fs;
    }
    assert EarliestAt(fs, i) && LatestAt(fs, j);
    assert FirstToLast(fs) == fs[j].totalScore - fs[i].totalScore;
  }

  /** The score improvement against the history it summarises. */
  lemma ScoreImprovementSpec(fs: seq<Feedback>)
    ensures |fs| == 0 ==> ScoreImprovement(fs) == 0
    ensures |fs| == 1 ==> ScoreImprovement(fs) == fs[0].totalScore - BaselineScore
    ensures |fs| >= 2 ==> exists i, j :: EarliestAt(fs, i) && LatestAt(fs, j) && ScoreImprovement(fs) == fs[j].totalScore - fs[i].totalScore
  {
    if |fs| >= 2 {
      FirstToLastEnds(fs);
    }
  }

  // ---------------------------------------------------------------------
  // Skills progress
  // ---------------------------------------------------------------------

  datatype Level = Beginner | Intermediate | Advanced | Expert

  datatype SkillProgress = SkillProgress(skill: string, progress: int, level: Level, improvement: int)

  /** The feedback categories that are tracked, in reporting order. */
  const Categories: seq<string> := [
    "Technical Knowledge",
    "Communication Skills",
    "Problem-Solving",
    "Cultural & Role Fit",
    "Confidence & Clarity"
  ]

  /** The skill each category is reported as, position by position. */
  const SkillNames: seq<string> := [
    "Technical Questions",
    "Behavioral Questions",
    "System Design",
    "Problem Solving",
    "Communication"
  ]

  lemma SkillNamesDistinct()
    ensures forall a, b :: 0 <= a < b < |SkillNames| ==> SkillNames[a] != SkillNames[b]
  {
    assert SkillNames[0][0] == 'T' && SkillNames[1][0] == 'B' && SkillNames[2][0] == 'S';
    assert SkillNames[3][0] == 'P' && SkillNames[4][0] == 'C';
  }

  /** Position of the first occurrence of `n` in `names`, or `|names|` when
      it does not occur. */
  function IndexIn(names: seq<string>, n: string): (r: nat)
    ensures r <= |names|
    ensures r < |names| ==> names[r] == n
    ensures forall j :: 0 <= j < r ==> names[j] != n
    decreases |names|
  {
    if |names| == 0 then 0
    else if names[0] == n then 0
    else 1 + IndexIn(names[1..], n)
  }

  /** The entry reported for a skill nobody has feedback on yet. */
  function Placeholder(skill: string): SkillProgress {
    SkillProgress(skill, 0, Beginner, 0)
  }

  function Score(c: CategoryScore): int {
    c.score
  }

  /** All category scores named `category`, feedback by feedback, each
      feedback's scores in their own order. */
  function CategoryScores(fs: seq<Feedback>, category: string): seq<CategoryScore>
    decreases |fs|
  {
    if |fs| == 0 then []
    else Filter(fs[0].categoryScores, (c: CategoryScore) => c.name == category) + CategoryScores(fs[1..], category)
  }

  /** `CategoryScores` collects exactly the scores of that category. */
  lemma {:induction false} CategoryScoresMembers(fs: seq<Feedback>, category: string)
    ensures forall k :: 0 <= k < |CategoryScores(fs, category)| ==> CategoryScores(fs, category)[k].name == category
    ensures forall c :: c in CategoryScores(fs, category) <==> c.name == category && exists j :: 0 <= j < |fs| && c in fs[j].categoryScores
    decreases |fs|
  {
    if |fs| > 0 {
      var p := (c: CategoryScore) => c.name == category;
      var head := Filter(fs[0].categoryScores, p);
      var r := CategoryScores(fs, category);
      CategoryScoresMembers(fs[1..], category);
      FilterMembers(fs[0].categoryScores, p);
      assert r == head + CategoryScores(fs[1..], category);
      forall c ensures c in r <==> c.name == category && exists j :: 0 <= j < |fs| && c in fs[j].categoryScores {
        if c in head {
          var k :| 0 <= k < |head| && head[k] == c;
          assert p(head[k]);
        } else if c in CategoryScores(fs[1..], category) {
          var j :| 0 <= j < |fs[1..]| && c in fs[1..][j].categoryScores;
          assert c in fs[j + 1].categoryScores;
        }
        if c.name == category && exists j :: 0 <= j < |fs| && c in fs[j].categoryScores {
          var j :| 0 <= j < |fs| && c in fs[j].categoryScores;
          if j == 0 {
            var k :| 0 <= k < |fs[0].categoryScores| && fs[0].categoryScores[k] == c;
            assert p(fs[0].categoryScores[k]);
          } else {
            assert c in fs[1..][j - 1].categoryScores;
          }
        }
      }
    }
  }

  /** The level for a mean score of `total / n`. */
  function LevelOf(total: int, n: int): Level
    requires n > 0
  {
    if total >= 90 * n then Expert
    else if total >= 75 * n then Advanced
    else if total >= 50 * n then Intermediate
    else Beginner
  }

  /** The level thresholds apply to the exact mean. */
  lemma LevelOfMean(total: int, n: int)
    requires n > 0
    ensures LevelOf(total, n) == Expert <==> Ratio(total, n) >= 90.0
    ensures LevelOf(total, n) == Advanced <==> 75.0 <= Ratio(total, n) < 90.0
    ensures LevelOf(total, n) == Intermediate <==> 50.0 <= Ratio(total, n) < 75.0
    ensures LevelOf(total, n) == Beginner <==> Ratio(total, n) < 50.0
  {
    RatioAtLeast(total, n, 90);
    RatioAtLeast(total, n, 75);
    RatioAtLeast(total, n, 50);
  }

  /** The exact mean score of a list of category scores. */
  function Mean(obs: seq<CategoryScore>): real
    requires |obs| > 0
  {
    Ratio(SumOf(obs, Score), |obs|)
  }

  /** The progress entry of one skill from its category scores: the rounded
      mean, the level of the exact mean, and the rounded difference between
      the means of the later and the earlier half of the attempts (the earlier
      half being the shorter one when the count is odd). */
  function Summarize(skill: string, obs: seq<CategoryScore>): (r: SkillProgress)
    requires |obs| > 0
    ensures r.skill == skill
  {
    var n := |obs|;
    var first := obs[..n / 2];
    var second := obs[n / 2..];
    var total := SumOf(obs, Score);
    var improvement :=
      if |second| > 0 && |first| > 0 then
        RoundDiv(SumOf(second, Score) * |first| - SumOf(first, Score) * |second|, |second| * |first|)
      else 0;
    SkillProgress(skill, RoundDiv(total, n), LevelOf(total, n), improvement)
  }

  /** A skill's summary against the exact means it rounds. */
  lemma SummarizeMeans(skill: string, obs: seq<CategoryScore>)
    requires |obs| > 0
    ensures Summarize(skill, obs).progress as real - 0.5 <= Mean(obs) < Summarize(skill, obs).progress as real + 0.5
    ensures Summarize(skill, obs).level == Expert <==> Mean(obs) >= 90.0
    ensures Summarize(skill, obs).level == Advanced <==> 75.0 <= Mean(obs) < 90.0
    ensures Summarize(skill, obs).level == Intermediate <==> 50.0 <= Mean(obs) < 75.0
    ensures Summarize(skill, obs).level == Beginner <==> Mean(obs) < 50.0
    ensures |obs| == 1 ==> Summarize(skill, obs).improvement == 0
    ensures |obs| >= 2 ==> var second := obs[|obs| / 2..]; var first := obs[..|obs| / 2];
      Summarize(skill, obs).improvement as real - 0.5 <= Mean(second) - Mean(first) < Summarize(skill, obs).improvement as real + 0.5
  {
    var n := |obs|;
    var first := obs[..n / 2];
    var second := obs[n / 2..];
    RoundDivIsRound(SumOf(obs, Score), n);
    LevelOfMean(SumOf(obs, Score), n);
    if n >= 2 {
      RatioDifference(SumOf(second, Score), |second|, SumOf(first, Score), |first|);
      RoundDivIsRound(SumOf(second, Score) * |first| - SumOf(first, Score) * |second|, |second| * |first|);
    }
  }

  /** Category scores within `[0, 100]` give a progress within `[0, 100]`. */
  lemma SummarizeBounds(skill: string, obs: seq<CategoryScore>)
    requires |obs| > 0
    requires forall i :: 0 <= i < |obs| ==> 0 <= obs[i].score <= 100
    ensures 0 <= Summarize(skill, obs).progress <= 100
  {
    SumOfBounds(obs, Score, 0, 100);
    RoundDivMeanBounds(SumOf(obs, Score), |obs|, 0, 100);
  }

  /** The `k`-th category's entry: the summary of its scores under its mapped
      skill name, when it has any scores. */
  function SkillEntry(fs: seq<Feedback>, k: nat): (r: Option<SkillProgress>)
    requires k < |Categories|
    ensures r.Some? ==> r.value.skill == SkillNames[k]
  {
    var obs := CategoryScores(fs, Categories[k]);
    if |obs| > 0 then Some(Summarize(SkillNames[k], obs)) else None
  }

  /** Entries of which the `k`-th, when present, is the skill `names[k]`. */
  predicate Tagged(opts: seq<Option<SkillProgress>>, names: seq<string>) {
    |opts| == |names|
    && (forall a, b :: 0 <= a < b < |names| ==> names[a] != names[b])
    && (forall k :: 0 <= k < |opts| && opts[k].Some? ==> opts[k].value.skill == names[k])
  }

  /** Looking up a skill among tagged entries finds the entry tagged with it. */
  lemma {:induction false} FindTagged(opts: seq<Option<SkillProgress>>, names: seq<string>, n: string)
    requires Tagged(opts, names)
    ensures forall j :: 0 <= j < |names| && names[j] == n ==> FindSkill(Present(opts), n) == opts[j]
    ensures (forall j :: 0 <= j < |names| ==> names[j] != n) ==> FindSkill(Present(opts), n) == None
    decreases |opts|
  {
    if |opts| > 0 {
      var head := if opts[0].Some? then [opts[0].value] else [];
      assert Tagged(opts[1..], names[1..]) by {
        forall a, b | 0 <= a < b < |names[1..]| ensures names[1..][a] != names[1..][b] {
          assert names[1..][a] == names[a + 1] && names[1..][b] == names[b + 1];
        }
        forall k | 0 <= k < |opts[1..]| && opts[1..][k].Some? ensures opts[1..][k].value.skill == names[1..][k] {
          assert opts[1..][k] == opts[k + 1];
        }
      }
      FindTagged(opts[1..], names[1..], n);
      FindByAppend(head, Present(opts[1..]), (s: SkillProgress) => s.skill == n);
      if opts[0].Some? {
        assert FindBy(head, (s: SkillProgress) => s.skill == n) == if names[0] == n then opts[0] else None by {
          assert head[1..] == [];
        }
      }
      forall j | 0 <= j < |names| && names[j] == n ensures FindSkill(Present(opts), n) == opts[j] {
        if j > 0 {
          assert names[1..][j - 1] == n && opts[1..][j - 1] == opts[j];
          assert names[0] != n;
        }
      }
      if forall j :: 0 <= j < |names| ==> names[j] != n {
        assert names[0] != n;
        forall j | 0 <= j < |names[1..]| ensures names[1..][j] != n {
          assert names[1..][j] == names[j + 1];
        }
      }
    }
  }

  /** A lookup finds the first entry with the name. */
  lemma FindFirst(r: seq<SkillProgress>, n: string, i: nat)
    requires i < |r| && r[i].skill == n
    requires forall j :: 0 <= j < i ==> r[j].skill != n
    ensures FindSkill(r, n) == Some(r[i])
  {
    var p := (s: SkillProgress) => s.skill == n;
    assert p(r[i]);
    var found := FindBy(r, p);
    var k :| 0 <= k < |r| && r[k] == found.value && p(r[k]) && forall j :: 0 <= j < k ==> !p(r[j]);
    assert k == i;
  }

  /** One optional entry per tracked category, in category order. */
  function SkillEntries(fs: seq<Feedback>): (r: seq<Option<SkillProgress>>)
    ensures Tagged(r, SkillNames)
  {
    SkillNamesDistinct();
    seq(|Categories|, k requires 0 <= k < |Categories| => SkillEntry(fs, k))
  }

  function GetSkillsProgress(feedback: Option<seq<Feedback>>): (r: seq<SkillProgress>)
    ensures feedback.None? ==> r == []
    ensures feedback == Some([]) ==> |r| == |SkillNames|
    ensures feedback == Some([]) ==> forall i :: 0 <= i < |r| ==> r[i] == Placeholder(SkillNames[i])
  {
    match feedback
    case None => []
    case Some(fs) =>
      if |fs| == 0 then seq(|SkillNames|, i requires 0 <= i < |SkillNames| => Placeholder(SkillNames[i]))
      else Present(SkillEntries(fs))
  }

  /** `skills.find(s => s.skill === name)`. */
  function FindSkill(skills: seq<SkillProgress>, name: string): Option<SkillProgress> {
    FindBy(skills, (s: SkillProgress) => s.skill == name)
  }

  /** With some feedback, each skill is reported exactly when its category
      has scores, and then as the summary of those scores. */
  lemma SkillsProgressBySkill(fs: seq<Feedback>, k: nat)
    requires |fs| > 0 && k < |Categories|
    ensures FindSkill(GetSkillsProgress(Some(fs)), SkillNames[k]).Some? <==> |CategoryScores(fs, Categories[k])| > 0
    ensures FindSkill(GetSkillsProgress(Some(fs)), SkillNames[k]).Some? ==>
      FindSkill(GetSkillsProgress(Some(fs)), SkillNames[k]).value == Summarize(SkillNames[k], CategoryScores(fs, Categories[k]))
  {
    var e := SkillEntries(fs);
    assert e[k] == SkillEntry(fs, k);
    SkillNamesDistinct();
    FindTagged(e, SkillNames, SkillNames[k]);
  }

  /** At most five skills are reported, each at most once, all of them among
      the five tracked skills. */
  lemma SkillsProgressNames(fs: seq<Feedback>)
    requires |fs| > 0
    ensures |GetSkillsProgress(Some(fs))| <= |SkillNames|
    ensures forall i :: 0 <= i < |GetSkillsProgress(Some(fs))| ==> GetSkillsProgress(Some(fs))[i].skill in SkillNames
    ensures InjectiveOn(GetSkillsProgress(Some(fs)), (s: SkillProgress) => s.skill)
  {
    var e := SkillEntries(fs);
    var r := Present(e);
    PresentMembers(e);
    forall i | 0 <= i < |r| ensures r[i].skill in SkillNames {
      var k :| 0 <= k < |e| && e[k] == Some(r[i]);
    }
    PresentKeysDistinct(e, (s: SkillProgress) => s.skill);
  }

  /** The present entries of tagged entries keep the order of their tags. */
  lemma TaggedInOrder(opts: seq<Option<SkillProgress>>, names: seq<string>)
    requires Tagged(opts, names)
    ensures forall i, j :: 0 <= i < j < |Present(opts)| ==>
      IndexIn(names, Present(opts)[i].skill) < IndexIn(names, Present(opts)[j].skill)
  {
    var rank := (s: SkillProgress) => 0 - IndexIn(names, s.skill);
    forall k | 0 <= k < |opts| && opts[k].Some? ensures rank(opts[k].value) == -k {
      assert opts[k].value.skill == names[k];
    }
    PresentKeysDescending(opts, rank);
  }

  /** With some feedback, the listed skills come in the fixed category order
      of the skill mapping. */
  lemma SkillsInCategoryOrder(fs: seq<Feedback>)
    requires |fs| > 0
    ensures forall i, j :: 0 <= i < j < |GetSkillsProgress(Some(fs))| ==>
      IndexIn(SkillNames, GetSkillsProgress(Some(fs))[i].skill) < IndexIn(SkillNames, GetSkillsProgress(Some(fs))[j].skill)
  {
    TaggedInOrder(SkillEntries(fs), SkillNames);
  }

  // ---------------------------------------------------------------------
  // Weekly trends
  // ---------------------------------------------------------------------

  /** Number of calendar weeks the trends look back over. */
  const TrendWeeks: nat := 4

  /** A trend entry for the week ending `weeksAgo` weeks before now. */
  datatype Trend = Trend(weeksAgo: nat, score: int, improvement: int)
  {
    /** The label shown for the week. */
    function Period(): string {
      if weeksAgo == 0 then "This Week"
      else if weeksAgo == 1 then "Last Week"
      else if weeksAgo == 2 then "2 Weeks Ago"
      else "3 Weeks Ago"
    }
  }

  function WeeksAgo(t: Trend): int {
    t.weeksAgo
  }

  /** Whether `f` was created in the half-open week `[now - (w + 1) weeks, now - w weeks)`. */
  predicate InWeek(now: int, w: nat, f: Feedback) {
    now - (w + 1) * WeekMs <= f.createdAt < now - w * WeekMs
  }

  function WeekFeedback(fs: seq<Feedback>, now: int, w: nat): seq<Feedback> {
    Filter(fs, (f: Feedback) => InWeek(now, w, f))
  }

  /** The entry for week `w`, if any feedback falls in it: the rounded mean
      score, with the improvement still to be filled in. */
  function WeekTrend(fs: seq<Feedback>, now: int, w: nat): (r: Option<Trend>)
    ensures r.Some? ==> r.value.weeksAgo == w
  {
    var week := WeekFeedback(fs, now, w);
    if |week| > 0 then Some(Trend(w, AverageScore(week), 0)) else None
  }

  /** One optional entry per week, oldest week first. */
  function WeekTrends(fs: seq<Feedback>, now: int): (r: seq<Option<Trend>>)
    ensures |r| == TrendWeeks
    ensures forall k :: 0 <= k < |r| ==> r[k] == WeekTrend(fs, now, TrendWeeks - 1 - k)
    ensures forall k :: 0 <= k < |r| && r[k].Some? ==> r[k].value.weeksAgo == TrendWeeks - 1 - k
    ensures forall k :: 0 <= k < |r| && r[k].Some? ==> r[k].value.improvement == 0
  {
    seq(TrendWeeks, k requires 0 <= k < TrendWeeks => WeekTrend(fs, now, TrendWeeks - 1 - k))
  }

  /** The second pass over the entries: each entry after the first records
      the change in score from the entry before it. */
  function WithImprovements(ts: seq<Trend>): (r: seq<Trend>)
    ensures |r| == |ts|
    ensures forall i :: 0 <= i < |r| ==> r[i].weeksAgo == ts[i].weeksAgo && r[i].score == ts[i].score
    ensures |r| > 0 ==> r[0] == ts[0]
    ensures forall i, j :: 0 <= i && j == i + 1 < |r| ==> r[j].improvement == r[j].score - r[i].score
  {
    seq(|ts|, i requires 0 <= i < |ts| => if i == 0 then ts[0] else ts[i].(improvement := ts[i].score - ts[i - 1].score))
  }

  /** The trends of the feedback taken in the order given. */
  function TrendsOf(fs: seq<Feedback>, now: int): (r: seq<Trend>)
    ensures |r| <= TrendWeeks
  {
    WithImprovements(Present(WeekTrends(fs, now)))
  }

  function GetPerformanceTrends(feedback: Option<seq<Feedback>>, now: int): (r: seq<Trend>)
    ensures feedback.None? || feedback == Some([]) ==> r == []
    ensures |r| <= TrendWeeks
  {
    match feedback
    case None => []
    case Some(fs) =>
      var sorted := SortBy(fs, FeedbackTime);
      if |sorted| == 0 then [] else TrendsOf(sorted, now)
  }

  /** A week's entry does not depend on the order of the feedback. */
  lemma WeekTrendOrderFree(a: seq<Feedback>, b: seq<Feedback>, now: int, w: nat)
    requires multiset(a) == multiset(b)
    ensures WeekTrend(a, now, w) == WeekTrend(b, now, w)
  {
    var p := (f: Feedback) => InWeek(now, w, f);
    FilterPermutation(a, b, p);
    AverageScoreOrderFree(Filter(a, p), Filter(b, p));
    assert |Filter(a, p)| == |multiset(Filter(a, p))| == |Filter(b, p)|;
  }

  /** The trends do not depend on the order of the feedback. */
  lemma TrendsOrderFree(a: seq<Feedback>, b: seq<Feedback>, now: int)
    requires multiset(a) == multiset(b)
    ensures TrendsOf(a, now) == TrendsOf(b, now)
  {
    var ea, eb := WeekTrends(a, now), WeekTrends(b, now);
    forall k | 0 <= k < TrendWeeks ensures ea[k] == eb[k] {
      WeekTrendOrderFree(a, b, now, TrendWeeks - 1 - k);
    }
    assert ea == eb;
  }

  /** Sorting the feedback first changes nothing: the trends are those of the
      feedback in store order. */
  lemma TrendsIgnoreOrder(fs: seq<Feedback>, now: int)
    requires |fs| > 0
    ensures GetPerformanceTrends(Some(fs), now) == TrendsOf(fs, now)
  {
    TrendsOrderFree(SortBy(fs, FeedbackTime), fs, now);
  }

  /** Among the present entries, week `w` appears exactly when it has an
      entry, and then as that entry. */
  lemma PresentWeeks(fs: seq<Feedback>, now: int, w: nat)
    requires w < TrendWeeks
    ensures (exists i :: 0 <= i < |Present(WeekTrends(fs, now))| && Present(WeekTrends(fs, now))[i].weeksAgo == w)
      <==> WeekTrend(fs, now, w).Some?
    ensures forall i :: 0 <= i < |Present(WeekTrends(fs, now))| && Present(WeekTrends(fs, now))[i].weeksAgo == w ==>
      Some(Present(WeekTrends(fs, now))[i]) == WeekTrend(fs, now, w)
  {
    var e := WeekTrends(fs, now);
    var k := TrendWeeks - 1 - w;
    PresentByKey(e, WeeksAgo, (j: int) => TrendWeeks - 1 - j, k);
    assert e[k] == WeekTrend(fs, now, w);
  }

  /** A week is reported exactly when some feedback falls in it, with the
      rounded mean score of that feedback. */
  lemma TrendsByWeek(fs: seq<Feedback>, now: int, w: nat)
    requires |fs| > 0 && w < TrendWeeks
    ensures var r := GetPerformanceTrends(Some(fs), now);
      (exists i :: 0 <= i < |r| && r[i].weeksAgo == w) <==> |WeekFeedback(fs, now, w)| > 0
    ensures var r := GetPerformanceTrends(Some(fs), now);
      forall i :: 0 <= i < |r| && r[i].weeksAgo == w ==> r[i].score == AverageScore(WeekFeedback(fs, now, w))
  {
    TrendsIgnoreOrder(fs, now);
    PresentWeeks(fs, now, w);
    var ts := Present(WeekTrends(fs, now));
    var r := WithImprovements(ts);
    assert r == GetPerformanceTrends(Some(fs), now);
    assert WeekTrend(fs, now, w).Some? <==> |WeekFeedback(fs, now, w)| > 0;
    if |WeekFeedback(fs, now, w)| > 0 {
      var i :| 0 <= i < |ts| && ts[i].weeksAgo == w;
      assert r[i].weeksAgo == w;
    }
    forall i | 0 <= i < |r| && r[i].weeksAgo == w ensures r[i].score == AverageScore(WeekFeedback(fs, now, w)) {
      assert ts[i].weeksAgo == w && r[i].score == ts[i].score;
    }
  }

  /** Trends run from the oldest week to the current one, cover only the last
      four weeks, and each records the change in score from the one before. */
  predicate TrendsShaped(r: seq<Trend>) {
    && (forall i, j :: 0 <= i < j < |r| ==> r[i].weeksAgo > r[j].weeksAgo)
    && (forall i :: 0 <= i < |r| ==> r[i].weeksAgo < TrendWeeks)
    && (|r| > 0 ==> r[0].improvement == 0)
    && (forall i, j :: 0 <= i && j == i + 1 < |r| ==> r[j].improvement == r[j].score - r[i].score)
  }

  /** Trends in strictly decreasing weeks within the last four, none carrying
      an improvement yet, keep that order once the improvements are chained. */
  lemma ChainedShape(ts: seq<Trend>)
    requires forall i, j :: 0 <= i < j < |ts| ==> ts[i].weeksAgo > ts[j].weeksAgo
    requires forall i :: 0 <= i < |ts| ==> ts[i].weeksAgo < TrendWeeks && ts[i].improvement == 0
    ensures TrendsShaped(WithImprovements(ts))
  {
  }

  /** The present entries of a tagged sequence keep its strictly decreasing
      weeks, and carry no improvement yet. */
  lemma PresentTrends(e: seq<Option<Trend>>)
    requires forall a, b :: 0 <= a < b < |e| && e[a].Some? && e[b].Some? ==> e[a].value.weeksAgo > e[b].value.weeksAgo
    requires forall k :: 0 <= k < |e| && e[k].Some? ==> e[k].value.weeksAgo < TrendWeeks && e[k].value.improvement == 0
    ensures forall i, j :: 0 <= i < j < |Present(e)| ==> Present(e)[i].weeksAgo > Present(e)[j].weeksAgo
    ensures forall i :: 0 <= i < |Present(e)| ==> Present(e)[i].weeksAgo < TrendWeeks && Present(e)[i].improvement == 0
  {
    var ts := Present(e);
    PresentMembers(e);
    PresentKeysDescending(e, WeeksAgo);
    forall i | 0 <= i < |ts| ensures ts[i].weeksAgo < TrendWeeks && ts[i].improvement == 0 {
      var k :| 0 <= k < |e| && e[k] == Some(ts[i]);
    }
  }

  /** The trends of any feedback have that shape. */
  lemma TrendsOfShape(fs: seq<Feedback>, now: int)
    ensures TrendsShaped(TrendsOf(fs, now))
  {
    var e := WeekTrends(fs, now);
    PresentTrends(e);
    ChainedShape(Present(e));
  }

  /** The reported trends have that shape. */
  lemma TrendsShape(fs: seq<Feedback>, now: int)
    requires |fs| > 0
    ensures TrendsShaped(GetPerformanceTrends(Some(fs), now))
  {
    TrendsIgnoreOrder(fs, now);
    TrendsOfShape(fs, now);
  }

  // ---------------------------------------------------------------------
  // Achievements
  // ---------------------------------------------------------------------

  datatype AchievementCategory = Milestone | Streak | Performance | Skill

  /** The achievements that can be unlocked, in the order they are checked. */
  datatype Badge = FirstInterview | HighScorer | ConsistentLearner | InterviewMaster | ImprovementChampion
  {
    function Id(): string {
      match this
      case FirstInterview => "first-interview"
      case HighScorer => "high-scorer"
      case ConsistentLearner => "consistent-learner"
      case InterviewMaster => "interview-master"
      case ImprovementChampion => "improvement-champion"
    }

    function Title(): string {
      match this
      case FirstInterview => "First Interview"
      case HighScorer => "High Scorer"
      case ConsistentLearner => "Consistent Learner"
      case InterviewMaster => "Interview Master"
      case ImprovementChampion => "Improvement Champion"
    }

    function Description(): string {
      match this
      case FirstInterview => "Completed your first AI interview"
      case HighScorer => "Achieved 85+ average score"
      case ConsistentLearner => "Practiced 3 days in a row"
      case InterviewMaster => "Completed 10+ interviews"
      case ImprovementChampion => "Improved score by 20+ points"
    }

    function Icon(): string {
      match this
      case FirstInterview => "\U{1F3AF}"
      case HighScorer => "\U{2B50}"
      case ConsistentLearner => "\U{1F4DA}"
      case InterviewMaster => "\U{1F3C6}"
      case ImprovementChampion => "\U{1F4C8}"
    }

    function Category(): AchievementCategory {
      match this
      case FirstInterview => Milestone
      case HighScorer => Performance
      case ConsistentLearner => Streak
      case InterviewMaster => Milestone
      case ImprovementChampion => Performance
    }

    /** Position in the order the achievements are checked. */
    function Rank(): nat {
      match this
      case FirstInterview => 0
      case HighScorer => 1
      case ConsistentLearner => 2
      case InterviewMaster => 3
      case ImprovementChampion => 4
    }
  }

  datatype Achievement = Achievement(badge: Badge, unlockedAt: int)

  function UnlockedAt(a: Achievement): int {
    a.unlockedAt
  }

  function BadgeOf(a: Achievement): Badge {
    a.badge
  }

  function BadgeRank(a: Achievement): int {
    a.badge.Rank()
  }

  const HighScoreThreshold: int := 85
  const StreakInterviews: nat := 3
  const MasterInterviews: nat := 10
  const ChampionGain: int := 20

  predicate IsHighScore(f: Feedback) {
    f.totalScore >= HighScoreThreshold
  }

  function HighScores(fs: seq<Feedback>): seq<Feedback> {
    Filter(fs, IsHighScore)
  }

  /** Some feedback is a high score exactly when the high scores are not empty,
      and the first of them is one of the feedback documents. */
  lemma HighScoresExist(fs: seq<Feedback>)
    ensures |HighScores(fs)| > 0 <==> exists i :: 0 <= i < |fs| && IsHighScore(fs[i])
    ensures |HighScores(fs)| > 0 ==> IsHighScore(HighScores(fs)[0]) && HighScores(fs)[0] in fs
  {
    var high := HighScores(fs);
    FilterMembers(fs, IsHighScore);
    if |high| > 0 {
      assert high[0] in high;
      var i :| 0 <= i < |fs| && fs[i] == high[0];
    } else {
      forall i | 0 <= i < |fs| ensures !IsHighScore(fs[i]) {
        assert fs[i] in fs;
      }
    }
  }

  /** Interviews created within the last week. */
  function RecentInterviews(interviews: seq<Interview>, now: int): seq<Interview> {
    Filter(interviews, (iv: Interview) => iv.createdAt >= now - WeekMs)
  }

  function CompletedInterviews(interviews: seq<Interview>): seq<Interview> {
    Filter(interviews, (iv: Interview) => iv.finalized)
  }

  /** The last feedback after a stable ascending sort by creation time. */
  function LatestFeedback(fs: seq<Feedback>): Feedback
    requires |fs| > 0
  {
    var sorted := SortBy(fs, FeedbackTime);
    sorted[|sorted| - 1]
  }

  /** The condition under which each achievement is unlocked. */
  predicate Earned(interviews: seq<Interview>, fs: seq<Feedback>, now: int, b: Badge) {
    match b
    case FirstInterview => |interviews| > 0
    case HighScorer => exists i :: 0 <= i < |fs| && IsHighScore(fs[i])
    case ConsistentLearner => |RecentInterviews(interviews, now)| >= StreakInterviews
    case InterviewMaster => |CompletedInterviews(interviews)| >= MasterInterviews
    case ImprovementChampion => |fs| >= 2 && FirstToLast(fs) >= ChampionGain
  }

  /** The check for one achievement: unlocked exactly when earned, dated by
      the first high score, the third recent interview, the tenth completed
      interview or the latest feedback. */
  function Unlock(interviews: seq<Interview>, fs: seq<Feedback>, now: int, b: Badge): (r: Option<Achievement>)
    ensures r.Some? ==> r.value.badge == b
    ensures r.Some? <==> Earned(interviews, fs, now, b)
  {
    match b
    case FirstInterview =>
      if |interviews| > 0 then Some(Achievement(b, interviews[0].createdAt)) else None
    case HighScorer =>
      var high := HighScores(fs);
      HighScoresExist(fs);
      if |high| > 0 then Some(Achievement(b, high[0].createdAt)) else None
    case ConsistentLearner =>
      var recent := RecentInterviews(interviews, now);
      if |recent| >= StreakInterviews then Some(Achievement(b, recent[StreakInterviews - 1].createdAt)) else None
    case InterviewMaster =>
      var completed := CompletedInterviews(interviews);
      if |completed| >= MasterInterviews then Some(Achievement(b, completed[MasterInterviews - 1].createdAt)) else None
    case ImprovementChampion =>
      if |fs| >= 2 && FirstToLast(fs) >= ChampionGain then Some(Achievement(b, LatestFeedback(fs).createdAt)) else None
  }

  /** Distinct badges have distinct ranks. */
  lemma RankInjective(a: Badge, b: Badge)
    ensures a.Rank() == b.Rank() ==> a == b
  {
  }

  /** The badge checked in position `k`. */
  function BadgeAt(k: nat): (b: Badge)
    requires k < 5
    ensures b.Rank() == k
  {
    if k == 0 then FirstInterview
    else if k == 1 then HighScorer
    else if k == 2 then ConsistentLearner
    else if k == 3 then InterviewMaster
    else ImprovementChampion
  }

  /** Each achievement's check, in the order they are made. */
  function Unlocked(interviews: seq<Interview>, fs: seq<Feedback>, now: int): (r: seq<Option<Achievement>>)
    ensures |r| == 5
    ensures forall k :: 0 <= k < |r| ==> r[k] == Unlock(interviews, fs, now, BadgeAt(k))
    ensures forall k :: 0 <= k < |r| && r[k].Some? ==> r[k].value.badge.Rank() == k
  {
    seq(5, k requires 0 <= k < 5 => Unlock(interviews, fs, now, BadgeAt(k)))
  }

  /** The unlocked achievements, most recently unlocked first. */
  function GetUserAchievements(interviews: Option<seq<Interview>>, feedback: Option<seq<Feedback>>, now: int): (r: seq<Achievement>)
    ensures interviews.None? || feedback.None? ==> r == []
    ensures SortedDescBy(r, UnlockedAt)
    ensures |r| <= 5
  {
    if interviews.None? || feedback.None? then []
    else SortDescBy(Present(Unlocked(interviews.value, feedback.value, now)), UnlockedAt)
  }

  /** Whether `b` is among the achievements. */
  predicate HasBadge(r: seq<Achievement>, b: Badge) {
    exists i :: 0 <= i < |r| && r[i].badge == b
  }

  /** Sorting the achievements does not change which badges are among them. */
  lemma HasBadgeSorted(p: seq<Achievement>, b: Badge)
    ensures HasBadge(SortDescBy(p, UnlockedAt), b) <==> HasBadge(p, b)
  {
    var r := SortDescBy(p, UnlockedAt);
    if HasBadge(r, b) {
      var i :| 0 <= i < |r| && r[i].badge == b;
      assert r[i] in multiset(p);
      var j :| 0 <= j < |p| && p[j] == r[i];
    }
    if HasBadge(p, b) {
      var i :| 0 <= i < |p| && p[i].badge == b;
      assert p[i] in multiset(r);
      var j :| 0 <= j < |r| && r[j] == p[i];
    }
  }

  /** With every present entry tagged by its position's rank, a badge is
      among the present entries exactly when its position holds an entry. */
  lemma HasBadgePresent(u: seq<Option<Achievement>>, b: Badge)
    requires b.Rank() < |u|
    requires forall k :: 0 <= k < |u| && u[k].Some? ==> u[k].value.badge.Rank() == k
    ensures HasBadge(Present(u), b) <==> u[b.Rank()].Some?
  {
    var p := Present(u);
    PresentByKey(u, BadgeRank, (j: int) => j, b.Rank());
    if HasBadge(p, b) {
      var i :| 0 <= i < |p| && p[i].badge == b;
      assert BadgeRank(p[i]) == b.Rank();
    }
    if u[b.Rank()].Some? {
      var i :| 0 <= i < |p| && BadgeRank(p[i]) == b.Rank();
      RankInjective(p[i].badge, b);
    }
  }

  /** An achievement is listed exactly when its condition holds. */
  lemma AchievementsEarned(interviews: seq<Interview>, fs: seq<Feedback>, now: int, b: Badge)
    ensures HasBadge(GetUserAchievements(Some(interviews), Some(fs), now), b) <==> Earned(interviews, fs, now, b)
  {
    var u := Unlocked(interviews, fs, now);
    HasBadgeSorted(Present(u), b);
    HasBadgePresent(u, b);
    assert BadgeAt(b.Rank()) == b;
  }

  /** No achievement is listed twice. */
  lemma AchievementsDistinct(interviews: seq<Interview>, fs: seq<Feedback>, now: int)
    ensures InjectiveOn(GetUserAchievements(Some(interviews), Some(fs), now), BadgeOf)
  {
    var u := Unlocked(interviews, fs, now);
    var p := Present(u);
    forall a, c | 0 <= a < c < |u| && u[a].Some? && u[c].Some? ensures BadgeOf(u[a].value) != BadgeOf(u[c].value) {
      assert u[a].value.badge.Rank() == a;
    }
    PresentKeysDistinct(u, BadgeOf);
    SortDescInjective(p, UnlockedAt, BadgeOf);
  }

  /** The last feedback after sorting by creation time is one no other
      feedback postdates. */
  lemma LatestFeedbackIsLatest(fs: seq<Feedback>)
    requires |fs| > 0
    ensures LatestFeedback(fs) in fs
    ensures forall i :: 0 <= i < |fs| ==> fs[i].createdAt <= LatestFeedback(fs).createdAt
  {
    SortedEnds(fs, FeedbackTime);
    var sorted := SortBy(fs, FeedbackTime);
    assert sorted[|sorted| - 1] in multiset(fs);
    forall i | 0 <= i < |fs| ensures fs[i].createdAt <= LatestFeedback(fs).createdAt {
      assert fs[i] in fs;
    }
  }

  /** With every present entry tagged by its position's rank, a listed
      achievement is the entry at its badge's position. */
  lemma ListedAtRank(u: seq<Option<Achievement>>, a: Achievement)
    requires forall k :: 0 <= k < |u| && u[k].Some? ==> u[k].value.badge.Rank() == k
    requires a in SortDescBy(Present(u), UnlockedAt)
    ensures a.badge.Rank() < |u| && u[a.badge.Rank()] == Some(a)
  {
    var p := Present(u);
    SortDescMember(p, UnlockedAt, a);
    PresentMembers(u);
    var i :| 0 <= i < |p| && p[i] == a;
    var k :| 0 <= k < |u| && u[k] == Some(p[i]);
  }

  /** The date each listed achievement carries: the first interview's, the
      first high score's, the third recent interview's, the tenth completed
      interview's, or the latest feedback's. */
  lemma AchievementDates(interviews: seq<Interview>, fs: seq<Feedback>, now: int, a: Achievement)
    requires a in GetUserAchievements(Some(interviews), Some(fs), now)
    ensures a.badge == FirstInterview ==> |interviews| > 0 && a.unlockedAt == interviews[0].createdAt
    ensures a.badge == HighScorer ==> |HighScores(fs)| > 0 && a.unlockedAt == HighScores(fs)[0].createdAt
    ensures a.badge == ConsistentLearner ==>
      |RecentInterviews(interviews, now)| >= StreakInterviews
      && a.unlockedAt == RecentInterviews(interviews, now)[StreakInterviews - 1].createdAt
    ensures a.badge == InterviewMaster ==>
      |CompletedInterviews(interviews)| >= MasterInterviews
      && a.unlockedAt == CompletedInterviews(interviews)[MasterInterviews - 1].createdAt
    ensures a.badge == ImprovementChampion ==> |fs| >= 2 && a.unlockedAt == LatestFeedback(fs).createdAt
    ensures a.badge == ImprovementChampion ==> forall i :: 0 <= i < |fs| ==> fs[i].createdAt <= a.unlockedAt
  {
    var b := a.badge;
    ListedAtRank(Unlocked(interviews, fs, now), a);
    assert BadgeAt(b.Rank()) == b;
    assert Unlock(interviews, fs, now, b) == Some(a);
    if b == ImprovementChampion {
      LatestFeedbackIsLatest(fs);
    }
  }

  // ---------------------------------------------------------------------
  // Practice recommendations
  // ---------------------------------------------------------------------

  datatype Priority = High | Medium | Low

  /** A recommendation; its texts, priority and category follow from which
      advice it is. */
  datatype Recommendation = FocusOn(skill: string) | StrengthenBehavioral | MasterSystemDesign
  {
    function Title(): string {
      match this
      case FocusOn(skill) => "Focus on " + skill
      case StrengthenBehavioral => "Strengthen Behavioral Responses"
      case MasterSystemDesign => "Master System Design"
    }

    function Description(): string {
      match this
      case FocusOn(skill) => "Your " + Text.ToLower(skill) + " score needs improvement. Practice with targeted questions."
      case StrengthenBehavioral => "Practice the STAR method for better storytelling in behavioral interviews."
      case MasterSystemDesign => "Take on complex architectural challenges to reach expert level."
    }

    function Priority(): Priority {
      if FocusOn? then High else Medium
    }

    function Category(): string {
      match this
      case FocusOn(skill) => skill
      case StrengthenBehavioral => "Behavioral"
      case MasterSystemDesign => "Technical"
    }
  }

  const BehavioralSkill: string := "Behavioral Questions"
  const TechnicalSkill: string := "Technical Questions"

  /** Recommended for the weakest skill while it is below this progress. */
  const FocusThreshold: int := 70
  const BehavioralThreshold: int := 80
  const SystemDesignThreshold: int := 80

  /** `skills.reduce((min, s) => s.progress < min.progress ? s : min)`: the
      position of the first skill with the least progress. */
  function LowestSkill(skills: seq<SkillProgress>): (k: nat)
    requires |skills| > 0
    ensures k < |skills|
    ensures forall j :: 0 <= j < |skills| ==> skills[k].progress <= skills[j].progress
    ensures forall j :: 0 <= j < k ==> skills[k].progress < skills[j].progress
  {
    if |skills| == 1 then 0
    else
      var k := LowestSkill(skills[..|skills| - 1]);
      assert forall j :: 0 <= j < |skills| - 1 ==> skills[j] == skills[..|skills| - 1][j];
      if skills[|skills| - 1].progress < skills[k].progress then |skills| - 1 else k
  }

  /** The recommendations for a list of skills. An empty list makes the
      reduction throw, and the error handler returns no recommendations. */
  function Recommend(skills: seq<SkillProgress>): (r: seq<Recommendation>)
    ensures |skills| == 0 ==> r == []
    ensures |r| <= 3
  {
    if |skills| == 0 then []
    else FocusPart(skills) + BehavioralPart(skills) + SystemDesignPart(skills)
  }

  function FocusPart(skills: seq<SkillProgress>): seq<Recommendation>
    requires |skills| > 0
  {
    var lowest := skills[LowestSkill(skills)];
    if lowest.progress < FocusThreshold then [FocusOn(lowest.skill)] else []
  }

  function BehavioralPart(skills: seq<SkillProgress>): seq<Recommendation> {
    var behavioral := FindSkill(skills, BehavioralSkill);
    if behavioral.Some? && behavioral.value.progress < BehavioralThreshold then [StrengthenBehavioral] else []
  }

  function SystemDesignPart(skills: seq<SkillProgress>): seq<Recommendation> {
    var technical := FindSkill(skills, TechnicalSkill);
    if technical.Some? && technical.value.progress >= SystemDesignThreshold then [MasterSystemDesign] else []
  }

  /** The recommendations are the focus item, then the behavioral item, then
      the system design item, each made at most once; the last two are of
      medium priority. */
  lemma RecommendParts(skills: seq<SkillProgress>)
    requires |skills| > 0
    ensures Recommend(skills) == FocusPart(skills) + (BehavioralPart(skills) + SystemDesignPart(skills))
    ensures |FocusPart(skills)| <= 1 && |BehavioralPart(skills)| <= 1 && |SystemDesignPart(skills)| <= 1
    ensures forall x :: x in BehavioralPart(skills) + SystemDesignPart(skills) ==> x.Priority() == Medium
  {
  }

  /** No recommendation is listed twice. */
  lemma RecommendDistinct(skills: seq<SkillProgress>)
    ensures forall i, j :: 0 <= i < j < |Recommend(skills)| ==> Recommend(skills)[i] != Recommend(skills)[j]
  {
    if |skills| > 0 {
      RecommendParts(skills);
      var f, b, d := FocusPart(skills), BehavioralPart(skills), SystemDesignPart(skills);
      var r := Recommend(skills);
      forall i, j | 0 <= i < j < |r| ensures r[i] != r[j] {
        if i < |f| {
          assert r[i].FocusOn? && !r[j].FocusOn?;
        } else {
          assert r[i] == StrengthenBehavioral && r[j] == MasterSystemDesign;
        }
      }
    }
  }

  /** The high-priority recommendation is made exactly when some skill is
      below the focus threshold; it comes first and names the first of the
      weakest skills. */
  lemma RecommendFocus(skills: seq<SkillProgress>)
    requires |skills| > 0
    ensures var r := Recommend(skills);
      (exists i :: 0 <= i < |r| && r[i].Priority() == High) <==> exists j :: 0 <= j < |skills| && skills[j].progress < FocusThreshold
    ensures var r := Recommend(skills);
      forall i :: 0 <= i < |r| && r[i].Priority() == High ==> i == 0 && r[i] == FocusOn(skills[LowestSkill(skills)].skill)
  {
    RecommendParts(skills);
    var f := FocusPart(skills);
    var rest := BehavioralPart(skills) + SystemDesignPart(skills);
    var r := Recommend(skills);
    var k := LowestSkill(skills);
    if |r| > 0 && r[0].Priority() == High {
      assert skills[k].progress < FocusThreshold;
    }
    if exists j :: 0 <= j < |skills| && skills[j].progress < FocusThreshold {
      assert r[0] == f[0];
    }
  }

  /** The behavioral recommendation is made exactly when the behavioral skill
      is reported below its threshold. */
  lemma RecommendBehavioral(skills: seq<SkillProgress>)
    requires |skills| > 0
    ensures StrengthenBehavioral in Recommend(skills) <==>
      FindSkill(skills, BehavioralSkill).Some? && FindSkill(skills, BehavioralSkill).value.progress < BehavioralThreshold
  {
    assert Recommend(skills) == FocusPart(skills) + BehavioralPart(skills) + SystemDesignPart(skills);
  }

  /** The system design recommendation is made exactly when the technical
      skill is reported at or above its threshold. */
  lemma RecommendSystemDesign(skills: seq<SkillProgress>)
    requires |skills| > 0
    ensures MasterSystemDesign in Recommend(skills) <==>
      FindSkill(skills, TechnicalSkill).Some? && FindSkill(skills, TechnicalSkill).value.progress >= SystemDesignThreshold
  {
    assert Recommend(skills) == FocusPart(skills) + BehavioralPart(skills) + SystemDesignPart(skills);
  }

  /** `getPracticeRecommendations`: none when the feedback cannot be read, at
      most three otherwise, and for a user without feedback the advice the
      placeholder skills call for. */
  function GetPracticeRecommendations(feedback: Option<seq<Feedback>>): (r: seq<Recommendation>)
    ensures feedback.None? ==> r == []
    ensures |r| <= 3
    ensures feedback == Some([]) ==> r == [FocusOn(TechnicalSkill), StrengthenBehavioral]
  {
    NewUserRecommendations();
    Recommend(GetSkillsProgress(feedback))
  }

  /** The placeholder skills of a user without feedback call for focus on the
      first of them and for strengthening behavioral answers. */
  lemma NewUserRecommendations()
    ensures Recommend(GetSkillsProgress(Some([]))) == [FocusOn(TechnicalSkill), StrengthenBehavioral]
  {
    var skills := GetSkillsProgress(Some([]));
    var k := LowestSkill(skills);
    assert skills[k].progress == 0 && skills[0].progress == 0;
    assert k == 0;
    assert skills[0].skill == TechnicalSkill;
    SkillNamesDistinct();
    FindFirst(skills, BehavioralSkill, 1);
    var technical := FindSkill(skills, TechnicalSkill);
    FindFirst(skills, TechnicalSkill, 0);
    assert SystemDesignPart(skills) == [];
  }

  /** A skill is reported exactly when it is the entry of some category,
      that is, the summary of a category with scores. */
  lemma ReportedSkills(fs: seq<Feedback>, x: SkillProgress)
    requires |fs| > 0
    ensures x in GetSkillsProgress(Some(fs)) <==> exists k :: 0 <= k < |Categories| && SkillEntry(fs, k) == Some(x)
  {
    var e := SkillEntries(fs);
    PresentMembers(e);
    if x in Present(e) {
      var k :| 0 <= k < |e| && e[k] == Some(x);
      assert e[k] == SkillEntry(fs, k);
    }
    forall k | 0 <= k < |Categories| && SkillEntry(fs, k).Some? ensures SkillEntry(fs, k).value in Present(e) {
      assert e[k] == SkillEntry(fs, k);
    }
  }

  /** With some feedback, a high-priority focus item is recommended exactly
      when the summary of some category with scores is below 70. */
  lemma PracticeFocusFromFeedback(fs: seq<Feedback>)
    requires |fs| > 0
    ensures var r := GetPracticeRecommendations(Some(fs));
      (exists i :: 0 <= i < |r| && r[i].Priority() == High) <==>
        exists k :: 0 <= k < |Categories| && SkillEntry(fs, k).Some? && SkillEntry(fs, k).value.progress < FocusThreshold
  {
    var skills := GetSkillsProgress(Some(fs));
    var r := GetPracticeRecommendations(Some(fs));
    assert r == Recommend(skills);
    if exists j :: 0 <= j < |skills| && skills[j].progress < FocusThreshold {
      var j :| 0 <= j < |skills| && skills[j].progress < FocusThreshold;
      ReportedSkills(fs, skills[j]);
    }
    if exists k :: 0 <= k < |Categories| && SkillEntry(fs, k).Some? && SkillEntry(fs, k).value.progress < FocusThreshold {
      var k :| 0 <= k < |Categories| && SkillEntry(fs, k).Some? && SkillEntry(fs, k).value.progress < FocusThreshold;
      ReportedSkills(fs, SkillEntry(fs, k).value);
    }
    if |skills| > 0 {
      RecommendFocus(skills);
    }
  }

  /** With some feedback, the behavioral advice is given exactly when the
      communication category has scores summarised below 80. */
  lemma PracticeBehavioralFromFeedback(fs: seq<Feedback>)
    requires |fs| > 0
    ensures StrengthenBehavioral in GetPracticeRecommendations(Some(fs)) <==>
      SkillEntry(fs, 1).Some? && SkillEntry(fs, 1).value.progress < BehavioralThreshold
  {
    var skills := GetSkillsProgress(Some(fs));
    assert GetPracticeRecommendations(Some(fs)) == Recommend(skills);
    assert SkillNames[1] == BehavioralSkill;
    SkillsProgressBySkill(fs, 1);
    if |skills| > 0 {
      RecommendBehavioral(skills);
    }
  }

  /** With some feedback, the system design advice is given exactly when the
      technical category has scores summarised at 80 or more. */
  lemma PracticeSystemDesignFromFeedback(fs: seq<Feedback>)
    requires |fs| > 0
    ensures MasterSystemDesign in GetPracticeRecommendations(Some(fs)) <==>
      SkillEntry(fs, 0).Some? && SkillEntry(fs, 0).value.progress >= SystemDesignThreshold
  {
    var skills := GetSkillsProgress(Some(fs));
    assert GetPracticeRecommendations(Some(fs)) == Recommend(skills);
    assert SkillNames[0] == TechnicalSkill;
    SkillsProgressBySkill(fs, 0);
    if |skills| > 0 {
      RecommendSystemDesign(skills);
    }
  }
}

=== FILE: auth.dfy ===
/** Sessions and accounts (`lib/actions/auth.action.ts`). Firebase Auth is
    outside the model: verifying a session cookie is a parameter function from
    the cookie to the user id it names (`None` when it is invalid or expired),
    and the outcome of each call into the authentication service is passed
    in. The browser's cookies are a map from cookie name to cookie. */
module Auth {
  import opened Wrappers
  import opened Records
  import Text
  import UserStats
  import Analytics

  /** `SESSION_DURATION`: one week, in seconds. */
  const SessionDuration: int := 60 * 60 * 24 * 7

  /** The `expiresIn` passed when the session cookie is created, in milliseconds. */
  const SessionExpiresInMs: int := SessionDuration * 1000

  const SessionCookieName: string := "session"

  datatype Cookie = Cookie(value: string, maxAge: int, httpOnly: bool, secure: bool, path: string, sameSite: string)

  type CookieJar = map<string, Cookie>

  /** `{ success, message }` of the account actions. */
  datatype AuthResult = AuthResult(success: bool, message: string)

  /** A store or authentication error as the catch blocks see it. */
  datatype ServiceError = ServiceError(code: string, message: Option<string>)

  /** What `auth.getUserByEmail` yields: a record, or a throw. The identity
      service throws for an unknown e-mail, so that case is `LookupFailed`;
      `NoUser` is the code's check for a falsy record, which the service does
      not produce. */
  datatype UserLookup = FoundUser(uid: string) | NoUser | LookupFailed

  /** The signed-in user as `getCurrentUser` returns it: the document and its id. */
  datatype CurrentUser = CurrentUser(id: string, doc: UserDoc)

  const UserExists: string := "User already exists. Please sign in."
  const AccountCreated: string := "Account created successfully. Please sign in."
  const EmailInUse: string := "This email is already in use"
  const PermissionDenied: string := "Permission denied. Please check Firebase security rules."
  const ConfigurationError: string := "Firebase configuration error. Please check environment variables."
  const CreateFailedPrefix: string := "Failed to create account: "
  const TryAgain: string := "Please try again."
  const NoSuchUser: string := "User does not exist. Create an account."
  const SignedIn: string := "Signed in successfully."
  const SignInFailed: string := "Failed to log into account. Please try again."

  /** `setSessionCookie`: stores the created session cookie in the browser
      for the session's lifetime, so that cookie and session expire together
      after one week; `secure` only in production. */
  function SetSessionCookie(jar: CookieJar, sessionCookie: string, production: bool): (r: CookieJar)
    ensures SessionCookieName in r && r[SessionCookieName].value == sessionCookie
    ensures r[SessionCookieName].maxAge * 1000 == SessionExpiresInMs == Analytics.WeekMs
    ensures r[SessionCookieName].path == "/" && r[SessionCookieName].sameSite == "lax"
    ensures r[SessionCookieName].httpOnly && r[SessionCookieName].secure == production
    ensures forall k :: k != SessionCookieName ==> (k in r <==> k in jar) && (k in jar ==> r[k] == jar[k])
  {
    jar[SessionCookieName := Cookie(sessionCookie, SessionDuration, true, production, "/", "lax")]
  }

  /** The error text names the service-account key file. */
  predicate MentionsServiceAccount(e: ServiceError) {
    e.message.Some? && Text.Contains(e.message.value, "serviceAccountKey")
  }

  /** The `signUp` catch block's message for an error: the known codes first,
      then a configuration hint, then the error's own text (or a generic
      request to retry). */
  function SignUpErrorMessage(e: ServiceError): (m: string)
    ensures m != ""
    ensures e.code == "auth/email-already-exists" ==> m == EmailInUse
    ensures e.code == "permission-denied" ==> m == PermissionDenied
    ensures (e.code != "auth/email-already-exists" && e.code != "permission-denied" && MentionsServiceAccount(e))
      ==> m == ConfigurationError
    ensures (e.code != "auth/email-already-exists" && e.code != "permission-denied" && !MentionsServiceAccount(e))
      ==> m == CreateFailedPrefix + (if e.message.Some? && e.message.value != "" then e.message.value else TryAgain)
  {
    if e.code == "auth/email-already-exists" then EmailInUse
    else if e.code == "permission-denied" then PermissionDenied
    else if MentionsServiceAccount(e) then ConfigurationError
    else
      var detail := if e.message.Some? && e.message.value != "" then e.message.value else TryAgain;
      CreateFailedPrefix + detail
  }

  /** The profile a new account starts with. */
  function NewUserDoc(name: string, email: string, now: int): UserDoc {
    UserDoc(name, email, Some(0), Some(0), now, None, None)
  }

  /** `signUp`: creates the user's profile unless one exists. `readError` and
      `writeError` are the failures of the existence check and of the write. */
  function SignUp(users: UserStats.Users, uid: string, name: string, email: string, now: int,
                  readError: Option<ServiceError>, writeError: Option<ServiceError>): (r: (AuthResult, UserStats.Users))
    ensures r.0.success <==> readError.None? && uid !in users && writeError.None?
    ensures !r.0.success ==> r.1 == users
    ensures r.0.success ==> r.1 == users[uid := NewUserDoc(name, email, now)] && r.0.message == AccountCreated
    ensures readError.None? && uid in users ==> r.0.message == UserExists
    ensures readError.Some? ==> r.0.message == SignUpErrorMessage(readError.value)
  {
    if readError.Some? then (AuthResult(false, SignUpErrorMessage(readError.value)), users)
    else if uid in users then (AuthResult(false, UserExists), users)
    else if writeError.Some? then (AuthResult(false, SignUpErrorMessage(writeError.value)), users)
    else (AuthResult(true, AccountCreated), users[uid := NewUserDoc(name, email, now)])
  }

  /** A new account reads zero interviews and zero questions, and nobody
      else's profile changes. */
  lemma SignUpThenStats(users: UserStats.Users, uid: string, name: string, email: string, now: int, other: string)
    requires uid !in users
    ensures UserStats.GetUserStats(SignUp(users, uid, name, email, now, None, None).1, uid) == Some(UserStats.Counts(0, 0))
    ensures other != uid ==> UserStats.GetUserStats(SignUp(users, uid, name, email, now, None, None).1, other) == UserStats.GetUserStats(users, other)
  {
  }

  /** Signing up twice with the same id fails the second time and leaves the
      first profile in place. */
  lemma SignUpTwice(users: UserStats.Users, uid: string, name: string, email: string, now: int,
                    name2: string, email2: string, later: int)
    requires uid !in users
    ensures var first := SignUp(users, uid, name, email, now, None, None).1;
      SignUp(first, uid, name2, email2, later, None, None) == (AuthResult(false, UserExists), first)
  {
  }

  /** `signIn`: looks the e-mail up and, for a known user, stores the session
      cookie the authentication service creates from the id token
      (`createdSession`, `None` when that call fails). */
  function SignIn(jar: CookieJar, lookup: UserLookup, createdSession: Option<string>, production: bool): (r: (AuthResult, CookieJar))
    ensures r.0.success <==> lookup.FoundUser? && createdSession.Some?
    ensures r.0.success ==> r.1 == SetSessionCookie(jar, createdSession.value, production) && r.0.message == SignedIn
    ensures !r.0.success ==> r.1 == jar
    ensures lookup.NoUser? ==> r.0.message == NoSuchUser
    ensures lookup.LookupFailed? || (lookup.FoundUser? && createdSession.None?) ==> r.0.message == SignInFailed
  {
    match lookup
    case LookupFailed => (AuthResult(false, SignInFailed), jar)
    case NoUser => (AuthResult(false, NoSuchUser), jar)
    case FoundUser(_) =>
      if createdSession.None? then (AuthResult(false, SignInFailed), jar)
      else (AuthResult(true, SignedIn), SetSessionCookie(jar, createdSession.value, production))
  }

  /** `signOut`: deletes the session cookie. */
  function SignOut(jar: CookieJar): (r: CookieJar)
    ensures SessionCookieName !in r
    ensures forall k :: k != SessionCookieName ==> (k in r <==> k in jar) && (k in jar ==> r[k] == jar[k])
  {
    jar - {SessionCookieName}
  }

  /** `getCurrentUser`: the profile named by a valid, non-empty session
      cookie; `null` when the cookie is missing, empty or invalid, when the
      profile read fails (`readOk` false) or when there is no profile. */
  function GetCurrentUser(jar: CookieJar, verify: string -> Option<string>, users: UserStats.Users, readOk: bool): (r: Option<CurrentUser>)
    ensures r.Some? <==> (SessionCookieName in jar && jar[SessionCookieName].value != ""
      && verify(jar[SessionCookieName].value).Some? && readOk && verify(jar[SessionCookieName].value).value in users)
    ensures r.Some? ==> r.value.id == verify(jar[SessionCookieName].value).value && r.value.doc == users[r.value.id]
  {
    if SessionCookieName !in jar || jar[SessionCookieName].value == "" then None
    else
      var claims := verify(jar[SessionCookieName].value);
      if claims.None? || !readOk || claims.value !in users then None
      else Some(CurrentUser(claims.value, users[claims.value]))
  }

  /** `isAuthenticated`: whether there is a current user. */
  function IsAuthenticated(jar: CookieJar, verify: string -> Option<string>, users: UserStats.Users, readOk: bool): (r: bool)
    ensures r <==> GetCurrentUser(jar, verify, users, readOk).Some?
  {
    GetCurrentUser(jar, verify, users, readOk).Some?
  }

  /** After signing out nobody is signed in, whatever the verifier says. */
  lemma SignOutSignsOut(jar: CookieJar, verify: string -> Option<string>, users: UserStats.Users, readOk: bool)
    ensures !IsAuthenticated(SignOut(jar), verify, users, readOk)
  {
  }

  /** A successful sign-in whose session the verifier accepts for an existing
      profile makes that profile the current user. */
  lemma SignInThenCurrent(jar: CookieJar, uid: string, session: string, production: bool,
                          verify: string -> Option<string>, users: UserStats.Users)
    requires session != "" && verify(session) == Some(uid) && uid in users
    ensures GetCurrentUser(SignIn(jar, FoundUser(uid), Some(session), production).1, verify, users, true)
      == Some(CurrentUser(uid, users[uid]))
  {
  }
}

=== FILE: dashboard_views.dfy ===
/** What the dashboard components derive from the analytics before rendering:
    the practice-time label, the default and truncation rules of the dashboard
    (`components/Dashboard.tsx`), the analytics dialog's counts and links
    (`components/DashboardModals.tsx`), an interview card's type, badge, score
    and link (`components/InterviewCard.tsx`), and the counter card's view
    states (`components/UserStatsCard.tsx`). Rendering itself is left out;
    each view is the data it shows. */
module DashboardViews {
  import opened Wrappers
  import opened Records
  import Numeric
  import Text
  import UserStats
  import GeneralActions
  import Analytics
  import InterviewTraining

  // ---------------------------------------------------------------- Dashboard

  /** A number followed by a one-letter unit: the digits before the unit
      denote the number. */
  function WithUnit(n: nat, unit: char): (r: string)
    ensures |r| >= 2 && r[|r| - 1] == unit
    ensures Text.IsDigits(r[..|r| - 1]) && Text.DigitsValue(r[..|r| - 1]) == n
  {
    var digits := Text.NatToString(n);
    assert (digits + [unit])[..|digits|] == digits;
    digits + [unit]
  }

  /** Whole hours in whole days: flooring twice is flooring once by the
      product. */
  lemma {:induction false} NestedFloor(m: nat)
    ensures m / 60 / 24 == m / 1440
  {
    var h, d := m / 60, m / 60 / 24;
    assert 60 * h <= m < 60 * h + 60;
    assert 24 * d <= h < 24 * d + 24;
    assert 1440 * d <= m < 1440 * d + 1440;
  }

  /** `formatPracticeTime`: no time, or a negative one, reads "0m"; under an
      hour the minutes; under a day the whole hours; otherwise the whole
      days. The number shown is always the count of whole units contained in
      the time. */
  function FormatPracticeTime(minutes: int): (r: string)
    ensures minutes <= 0 ==> r == "0m"
    ensures |r| >= 2 && Text.IsDigits(r[..|r| - 1])
    ensures 0 < minutes < 60 ==> r[|r| - 1] == 'm' && Text.DigitsValue(r[..|r| - 1]) == minutes
    ensures 60 <= minutes < 1440 ==> (r[|r| - 1] == 'h'
      && 60 * Text.DigitsValue(r[..|r| - 1]) <= minutes < 60 * Text.DigitsValue(r[..|r| - 1]) + 60)
    ensures 1440 <= minutes ==> (r[|r| - 1] == 'd'
      && 1440 * Text.DigitsValue(r[..|r| - 1]) <= minutes < 1440 * Text.DigitsValue(r[..|r| - 1]) + 1440)
  {
    if minutes <= 0 then
      assert "0m"[..1] == "0";
      "0m"
    else if minutes < 60 then WithUnit(minutes, 'm')
    else
      var hours := minutes / 60;
      if hours >= 24 then
        NestedFloor(minutes);
        WithUnit(hours / 24, 'd')
      else WithUnit(hours, 'h')
  }

  /** `dashboardStats?.field || 0`: without statistics every figure shows as
      0, otherwise as computed. */
  function ShownStats(stats: Option<Analytics.DashboardStats>): (r: Analytics.DashboardStats)
    ensures stats.None? ==> (r.totalInterviews == 0 && r.completedInterviews == 0 && r.successRate == 0
      && r.averageScore == 0 && r.practiceTime == 0 && r.weeklyGrowth == 0 && r.monthlyGrowth == 0
      && r.scoreImprovement == 0)
    ensures stats.Some? ==> r == stats.value
  {
    stats.GetOr(Analytics.NoStats)
  }

  /** `items.slice(0, k)` for a list shown in part: the first `k` items in
      their order, or all of them when there are fewer. */
  function FirstFew<T>(items: seq<T>, k: nat): (r: seq<T>)
    ensures |r| == Numeric.Min(k, |items|)
    ensures r <= items
    ensures |r| < k ==> r == items
  {
    SliceTo(items, k)
  }

  /** The recent-activity list: the first five interviews, none without a
      list. */
  function RecentActivity<T>(userInterviews: Option<seq<T>>): (r: seq<T>)
    ensures userInterviews.None? ==> r == []
    ensures userInterviews.Some? ==> |r| == Numeric.Min(5, |userInterviews.value|) && r <= userInterviews.value
  {
    FirstFew(userInterviews.GetOr([]), 5)
  }

  /** The achievements card: the first three achievements, or the empty-state
      message (`None`) when there are none. */
  function ShownAchievements<T>(achievements: Option<seq<T>>): (r: Option<seq<T>>)
    ensures r.None? <==> achievements.None? || |achievements.value| == 0
    ensures r.Some? ==> |r.value| == Numeric.Min(3, |achievements.value|) && r.value <= achievements.value
  {
    if achievements.None? || |achievements.value| == 0 then None
    else Some(FirstFew(achievements.value, 3))
  }

  /** The improvement-areas card: the placeholders when no skill progress is
      known, otherwise the improving skills it lists (possibly none). */
  datatype AreasView = Placeholders | Listed(skills: seq<Analytics.SkillProgress>)

  predicate Improving(s: Analytics.SkillProgress) {
    s.improvement > 0
  }

  /** The first three skills whose improvement is positive, in the given
      order. */
  function ImprovementAreas(skills: Option<seq<Analytics.SkillProgress>>): (r: AreasView)
    ensures r.Placeholders? <==> skills.None? || |skills.value| == 0
    ensures r.Listed? ==> |r.skills| <= 3 && forall i :: 0 <= i < |r.skills| ==> Improving(r.skills[i])
  {
    if skills.None? || |skills.value| == 0 then Placeholders
    else Listed(FirstFew(Filter(skills.value, Improving), 3))
  }

  /** The listed areas are the first three improving skills of the input,
      in the input's order, and fewer than three are listed only when no
      other skill improves. */
  lemma ImprovementAreasComplete(skills: seq<Analytics.SkillProgress>)
    requires |skills| > 0
    ensures ImprovementAreas(Some(skills)).skills <= Filter(skills, Improving)
    ensures |ImprovementAreas(Some(skills)).skills| == Numeric.Min(3, |Filter(skills, Improving)|)
    ensures forall s :: s in ImprovementAreas(Some(skills)).skills ==> s in skills && Improving(s)
    ensures |ImprovementAreas(Some(skills)).skills| < 3 ==>
      forall s :: s in skills && Improving(s) ==> s in ImprovementAreas(Some(skills)).skills
  {
    var improving := Filter(skills, Improving);
    FilterMembers(skills, Improving);
    var listed := ImprovementAreas(Some(skills)).skills;
    assert listed == FirstFew(improving, 3);
    forall s | s in listed ensures s in improving {
      var i :| 0 <= i < |listed| && listed[i] == s;
      assert improving[i] == s;
    }
  }

  /** The average-score card's caption: a `+` before a gain, the change, and
      whether it counts as improved. */
  function ScoreLine(improvement: int): (r: string)
  {
    (if improvement > 0 then "+" else "") + Text.IntToString(improvement) + " points "
      + (if improvement >= 0 then "improved" else "to improve")
  }

  /** The size of a change. */
  function Magnitude(improvement: int): nat {
    if improvement < 0 then -improvement else improvement
  }

  /** The caption is its sign, the size of the change in decimal digits,
      and the verdict. */
  lemma ScoreLineParts(improvement: int)
    ensures ScoreLine(improvement) ==
      (if improvement > 0 then "+" else if improvement < 0 then "-" else "")
      + Text.NatToString(Magnitude(improvement))
      + " points " + (if improvement >= 0 then "improved" else "to improve")
  {
    var n := Text.NatToString(Magnitude(improvement));
    if improvement < 0 {
      assert Text.IntToString(improvement) == "-" + n;
    } else {
      assert Text.IntToString(improvement) == n;
    }
  }

  /** The caption starts with `+` exactly for a gain and ends in "improved"
      exactly when there is no loss. */
  lemma ScoreLineWording(improvement: int)
    ensures |ScoreLine(improvement)| >= 10
    ensures ScoreLine(improvement)[0] == '+' <==> improvement > 0
    ensures ScoreLine(improvement)[|ScoreLine(improvement)| - 8..] == "improved" <==> improvement >= 0
  {
    ScoreLineParts(improvement);
    var r := ScoreLine(improvement);
    var n := Text.NatToString(Magnitude(improvement));
    var verdict := if improvement >= 0 then "improved" else "to improve";
    assert r[|r| - |verdict|..] == verdict;
    if improvement < 0 {
      assert r[|r| - 8..][7] == 'e';
    } else if improvement == 0 {
      assert r[0] == n[0];
    }
  }


  // ------------------------------------------------------- Analytics dialog

  /** The dialog's `userInterviews` prop: normally an array of interviews. */
  datatype InterviewsProp = InterviewArray(items: seq<Interview>) | NotAnArray

  predicate Finalized(iv: Interview) {
    iv.finalized
  }

  lemma {:induction false} FilterKeepsAll<T>(s: seq<T>, p: T -> bool)
    ensures |Filter(s, p)| == |s| <==> forall i :: 0 <= i < |s| ==> p(s[i])
    decreases |s|
  {
    if |s| > 0 {
      FilterKeepsAll(s[1..], p);
      assert forall i :: 1 <= i < |s| ==> s[i] == s[1..][i - 1];
      if forall i :: 0 <= i < |s| ==> p(s[i]) {
        assert forall i :: 0 <= i < |s[1..]| ==> p(s[1..][i]);
      }
    }
  }

  lemma {:induction false} FilterNone<T>(s: seq<T>, p: T -> bool)
    ensures |Filter(s, p)| == 0 <==> forall i :: 0 <= i < |s| ==> !p(s[i])
    decreases |s|
  {
    if |s| > 0 {
      FilterNone(s[1..], p);
      assert forall i :: 1 <= i < |s| ==> s[i] == s[1..][i - 1];
    }
  }

  /** The completed-interviews figure: how many interviews are finalized, at
      most the total and equal to it exactly when all are; 0 for anything
      that is not an array. */
  function CompletedCount(prop: InterviewsProp): (n: nat)
    ensures prop.NotAnArray? ==> n == 0
    ensures prop.InterviewArray? ==> n <= |prop.items|
    ensures prop.InterviewArray? ==> (n == |prop.items| <==> forall i :: 0 <= i < |prop.items| ==> prop.items[i].finalized)
    ensures prop.InterviewArray? ==> (n == 0 <==> forall i :: 0 <= i < |prop.items| ==> !prop.items[i].finalized)
  {
    if prop.NotAnArray? then 0
    else
      var done := Filter(prop.items, Finalized);
      FilterKeepsAll(prop.items, Finalized);
      FilterNone(prop.items, Finalized);
      |done|
  }

  /** Each completed interview is estimated at 25 minutes. */
  const MinutesPerInterview: nat := 25

  /** The practice time, in minutes, of the completed interviews. */
  function PracticeMinutes(prop: InterviewsProp): (t: nat)
    ensures t % MinutesPerInterview == 0 && t / MinutesPerInterview == CompletedCount(prop)
  {
    MinutesPerInterview * CompletedCount(prop)
  }

  /** `Math.floor(t / 60)` and `t % 60` for a non-negative time: the hours
      and the minutes left over. */
  function HoursMinutes(t: nat): (r: (nat, nat))
    ensures 60 * r.0 + r.1 == t && r.1 < 60
  {
    (t / 60, t % 60)
  }

  /** The hours and minutes shown are the only such split of the time. */
  lemma HoursMinutesUnique(t: nat, h: nat, m: nat)
    requires 60 * h + m == t && m < 60
    ensures HoursMinutes(t) == (h, m)
  {
    var (h', m') := HoursMinutes(t);
    assert 60 * (h - h') == m' - m;
  }

  /** The practice-time figure, "`h`h `m`m". */
  function PracticeTimeText(prop: InterviewsProp): string {
    var (h, m) := HoursMinutes(PracticeMinutes(prop));
    Text.NatToString(h) + "h " + Text.NatToString(m) + "m"
  }

  /** The recent-history list: the first five interviews. */
  function RecentHistory(items: seq<Interview>): (r: seq<Interview>)
    ensures |r| == Numeric.Min(5, |items|) && r <= items
  {
    FirstFew(items, 5)
  }

  /** The interview page, with query parameters when any are given. */
  const InterviewRoute: string := "/interview"

  /** The "Practice" button of a recommended skill. */
  function SkillLink(skillId: string): (r: string)
    ensures |InterviewRoute| + 7 <= |r| && r[..|InterviewRoute| + 7] == InterviewRoute + "?skill="
    ensures r[|InterviewRoute| + 7..] == skillId
  {
    InterviewRoute + "?skill=" + skillId
  }

  /** The two query parameters of a scheduled session. */
  function ScheduleParams(duration: nat, questionCount: nat): seq<string> {
    ["duration=" + Text.NatToString(duration), "questions=" + Text.NatToString(questionCount)]
  }

  /** The "Schedule Now" button of a session. */
  function ScheduleLink(duration: nat, questionCount: nat): (r: string)
    ensures |InterviewRoute| + 1 <= |r| && r[..|InterviewRoute| + 1] == InterviewRoute + "?"
  {
    InterviewRoute + "?" + Text.Join(ScheduleParams(duration, questionCount), "&")
  }

  lemma DigitsLackChar(s: string, c: char)
    requires Text.IsDigits(s) && !('0' <= c <= '9')
    ensures c !in s
  {
  }

  /** The query of a schedule link splits back into its two parameters, whose
      values read back as the session's duration and question count. */
  lemma ScheduleLinkReads(duration: nat, questionCount: nat)
    ensures var params := Text.Split(ScheduleLink(duration, questionCount)[|InterviewRoute| + 1..], '&');
      |params| == 2 && |params[0]| > 9 && |params[1]| > 10
      && params[0][..9] == "duration=" && params[1][..10] == "questions="
      && Text.IsDigits(params[0][9..]) && Text.DigitsValue(params[0][9..]) == duration
      && Text.IsDigits(params[1][10..]) && Text.DigitsValue(params[1][10..]) == questionCount
  {
    var ps := ScheduleParams(duration, questionCount);
    var d, q := Text.NatToString(duration), Text.NatToString(questionCount);
    assert ps[0][9..] == d && ps[1][10..] == q;
    assert ps[0][..9] == "duration=" && ps[1][..10] == "questions=";
    assert '&' !in "duration=" && '&' !in "questions=";
    DigitsLackChar(d, '&');
    DigitsLackChar(q, '&');
    Text.SplitJoin(ps, '&');
    assert ScheduleLink(duration, questionCount)[|InterviewRoute| + 1..] == Text.Join(ps, "&");
  }

  // ----------------------------------------------------------- Interview card

  /** The card's feedback lookup runs only when both ids are given and
      non-empty. */
  predicate FetchesFeedback(userId: Option<string>, interviewId: Option<string>) {
    userId.Some? && userId.value != "" && interviewId.Some? && interviewId.value != ""
  }

  /** The card's feedback: this user's first feedback on this interview, when
      the lookup runs. */
  function CardFeedback(feedback: Collection<Feedback>, userId: Option<string>, interviewId: Option<string>,
                        indexed: bool): (r: Option<Doc<Feedback>>)
    ensures r.Some? ==> FetchesFeedback(userId, interviewId)
    ensures r.Some? ==> r.value in feedback && GeneralActions.FeedbackMatches(r.value, interviewId.value, userId.value)
    ensures FetchesFeedback(userId, interviewId)
      && (exists i :: 0 <= i < |feedback| && GeneralActions.FeedbackMatches(feedback[i], interviewId.value, userId.value))
      ==> r.Some?
  {
    if FetchesFeedback(userId, interviewId) then
      GeneralActions.GetFeedbackByInterviewId(feedback, interviewId.value, userId.value, indexed)
    else None
  }

  /** Whether `/mix/gi` matches: "mix" in any letter case. Only ASCII letters
      fold to the pattern's letters, so ASCII lowering is exact here. */
  predicate MentionsMix(interviewType: string) {
    Text.Contains(Text.ToLower(interviewType), "mix")
  }

  /** The type the card shows: "Mixed" for any mixed type, the type itself
      otherwise. */
  function DisplayType(interviewType: string): (r: string)
    ensures MentionsMix(interviewType) ==> r == "Mixed"
    ensures !MentionsMix(interviewType) ==> r == interviewType
  {
    if MentionsMix(interviewType) then "Mixed" else interviewType
  }

  /** "Mixed" itself reads as mixed. */
  lemma MixedMentionsMix()
    ensures MentionsMix("Mixed")
  {
    var lowered := Text.ToLower("Mixed");
    assert lowered[..3] == "mix";
    assert Text.OccursAt(lowered, "mix", 0);
    Text.ContainsIff(lowered, "mix");
  }

  /** A card shows "Mixed" exactly for a mixed type, so showing a shown type
      again changes nothing, and the choice ignores letter case. */
  lemma DisplayTypeStable(interviewType: string, other: string)
    ensures DisplayType(interviewType) == "Mixed" <==> MentionsMix(interviewType)
    ensures DisplayType(DisplayType(interviewType)) == DisplayType(interviewType)
    ensures Text.ToLower(interviewType) == Text.ToLower(other) ==>
      (DisplayType(interviewType) == "Mixed" <==> DisplayType(other) == "Mixed")
  {
    MixedMentionsMix();
  }

  /** The badge a card wears. The lookup is an object literal keyed by the
      shown type: a type naming a property every object inherits finds that
      property instead of the gray default, and its colour and icon are
      missing. */
  datatype Badge = BehavioralBadge | MixedBadge | TechnicalBadge | GrayBadge | InheritedBadge {
    function Color(): Option<string> {
      match this
      case BehavioralBadge => Some("from-emerald-500 to-green-600")
      case MixedBadge => Some("from-amber-500 to-orange-600")
      case TechnicalBadge => Some("from-blue-500 to-cyan-600")
      case GrayBadge => Some("from-gray-500 to-gray-600")
      case InheritedBadge => None
    }
  }

  function BadgeFor(shownType: string): (b: Badge)
    ensures b == BehavioralBadge <==> shownType == "Behavioral"
    ensures b == MixedBadge <==> shownType == "Mixed"
    ensures b == TechnicalBadge <==> shownType == "Technical"
    ensures b == InheritedBadge <==> shownType in InterviewTraining.InheritedProperties
  {
    if shownType == "Behavioral" then BehavioralBadge
    else if shownType == "Mixed" then MixedBadge
    else if shownType == "Technical" then TechnicalBadge
    else if shownType in InterviewTraining.InheritedProperties then InheritedBadge
    else GrayBadge
  }

  /** A mixed type always wears the mixed badge; a type that is none of the
      three keys, mixed or an inherited name wears the gray one. */
  lemma CardBadge(interviewType: string)
    ensures MentionsMix(interviewType) ==> BadgeFor(DisplayType(interviewType)) == MixedBadge
    ensures (!MentionsMix(interviewType) && interviewType !in {"Behavioral", "Technical"}
      && interviewType !in InterviewTraining.InheritedProperties) ==> BadgeFor(DisplayType(interviewType)) == GrayBadge
  {
  }

  /** `feedback?.totalScore || 0`. */
  function CardScore(feedback: Option<Doc<Feedback>>): (s: int)
    ensures feedback.None? ==> s == 0
    ensures feedback.Some? ==> s == feedback.value.data.totalScore
  {
    if feedback.None? then 0 else feedback.value.data.totalScore
  }

  datatype ScoreTone = Red | Amber | Emerald {
    function Rank(): nat {
      match this
      case Red => 0
      case Amber => 1
      case Emerald => 2
    }
  }

  /** The score's colour: emerald from 80, amber from 60, red below. */
  function ToneOf(score: int): (t: ScoreTone)
    ensures t == Emerald <==> score >= 80
    ensures t == Red <==> score < 60
  {
    if score >= 80 then Emerald else if score >= 60 then Amber else Red
  }

  /** A higher score never gets a worse colour. */
  lemma ToneMonotone(a: int, b: int)
    requires a <= b
    ensures ToneOf(a).Rank() <= ToneOf(b).Rank()
  {
  }

  /** The score text: the score out of 100, or "---" when there is none or it
      is 0. */
  function ScoreLabel(feedback: Option<Doc<Feedback>>): (r: string)
    ensures |r| >= 4 && r[|r| - 4..] == "/100"
    ensures r[..|r| - 4] == "---" <==> CardScore(feedback) == 0
    ensures CardScore(feedback) != 0 ==> r[..|r| - 4] == Text.IntToString(CardScore(feedback))
  {
    var shown := if CardScore(feedback) == 0 then "---" else Text.IntToString(CardScore(feedback));
    assert (shown + "/100")[..|shown|] == shown;
    assert CardScore(feedback) != 0 ==> shown != "---" by {
      if CardScore(feedback) != 0 {
        IntToStringNotDashes(CardScore(feedback));
      }
    }
    shown + "/100"
  }

  /** A number never renders as "---". */
  lemma IntToStringNotDashes(n: int)
    ensures Text.IntToString(n) != "---"
  {
    if n < 0 {
      var d := Text.NatToString(-n);
      assert Text.IntToString(n)[1..] == d;
      assert '0' <= d[0] <= '9';
    } else {
      assert '0' <= Text.IntToString(n)[0] <= '9';
    }
  }

  /** The score bar: shown only for a non-zero score, filled to the score
      but never past 100. */
  function BarWidth(score: int): (w: Option<int>)
    ensures w.Some? <==> score != 0
    ensures w.Some? ==> w.value <= 100 && w.value <= score && (w.value == score || w.value == 100)
  {
    if score == 0 then None else Some(Numeric.Min(score, 100))
  }

  function InterviewPage(interviewId: string): string {
    InterviewRoute + "/" + interviewId
  }

  /** The card's button: the feedback page when there is feedback, the
      interview itself otherwise. Both lie under the interview's page. */
  function CardLink(interviewId: string, feedback: Option<Doc<Feedback>>): (r: string)
    ensures |InterviewPage(interviewId)| <= |r| && r[..|InterviewPage(interviewId)|] == InterviewPage(interviewId)
    ensures r == InterviewPage(interviewId) + "/feedback" <==> feedback.Some?
  {
    if feedback.Some? then
      assert (InterviewPage(interviewId) + "/feedback")[..|InterviewPage(interviewId)|] == InterviewPage(interviewId);
      InterviewPage(interviewId) + "/feedback"
    else InterviewPage(interviewId)
  }

  // -------------------------------------------------------- User stats card

  /** The counter card's state. */
  datatype StatsCard = StatsCard(stats: UserStats.Counts, loading: bool, migrating: bool, error: Option<string>)

  /** Before the first answer: both counters 0, loading, no error. */
  const InitialCard: StatsCard := StatsCard(UserStats.Counts(0, 0), true, false, None)

  const LoadFailed: string := "Failed to load user statistics"
  const MigrationFailed: string := "Failed to migrate user statistics"

  /** How a call to a server action ended: with its return value, or
      rejected before one arrived. */
  datatype Reply<T> = Replied(value: T) | Rejected

  /** `fetchStats`: the counters replace the card's on an answer; a missing
      user or a rejected call shows the load error instead. Either way the
      card stops loading. */
  function FetchStats(s: StatsCard, reply: Reply<Option<UserStats.Counts>>): (r: StatsCard)
    ensures !r.loading && r.migrating == s.migrating
    ensures reply.Replied? && reply.value.Some? ==> r.stats == reply.value.value && r.error.None?
    ensures !(reply.Replied? && reply.value.Some?) ==> r.stats == s.stats && r.error == Some(LoadFailed)
  {
    var started := s.(loading := true, error := None);
    var answered :=
      if reply.Replied? && reply.value.Some? then started.(stats := reply.value.value)
      else started.(error := Some(LoadFailed));
    answered.(loading := false)
  }

  /** The effect on mounting: the counters are fetched only for a non-empty
      user id; without one the card keeps loading. */
  function Mount(userId: string, reply: Reply<Option<UserStats.Counts>>): (r: StatsCard)
    ensures userId == "" ==> r == InitialCard
    ensures userId != "" ==> r == FetchStats(InitialCard, reply)
  {
    if userId != "" then FetchStats(InitialCard, reply) else InitialCard
  }

  /** `handleMigrate`: a successful migration fetches the counters again; a
      failed one shows its error, or the default message when it has none or
      the call was rejected. The card stops migrating either way. */
  function Migrate(s: StatsCard, reply: Reply<UserStats.Outcome>, refetch: Reply<Option<UserStats.Counts>>): (r: StatsCard)
    ensures !r.migrating
    ensures reply == Replied(UserStats.Ok) ==>
      (r.stats == FetchStats(s, refetch).stats && r.error == FetchStats(s, refetch).error && !r.loading)
    ensures reply.Replied? && reply.value.Err? ==>
      r.stats == s.stats && r.loading == s.loading
      && r.error == Some(if reply.value.message != "" then reply.value.message else MigrationFailed)
    ensures reply.Rejected? ==> r.stats == s.stats && r.loading == s.loading && r.error == Some(MigrationFailed)
  {
    var started := s.(migrating := true, error := None);
    var finished :=
      if reply.Rejected? then started.(error := Some(MigrationFailed))
      else if reply.value.Ok? then FetchStats(started, refetch)
      else started.(error := Some(if reply.value.message != "" then reply.value.message else MigrationFailed));
    finished.(migrating := false)
  }

  /** What the card shows. */
  datatype CardView =
    | Spinner
    | ErrorPanel(message: string)
    | StatsPanel(interviewCount: int, questionCount: int, averagePerInterview: Option<int>, migrationNotice: bool)

  /** The loading spinner first, then the error with its retry button, and
      otherwise both counters, the rounded questions per interview when
      there has been an interview, and the migration notice when both
      counters are 0. */
  function View(s: StatsCard): (v: CardView)
    ensures v.Spinner? <==> s.loading
    ensures v.ErrorPanel? <==> !s.loading && s.error.Some? && s.error.value != ""
    ensures v.ErrorPanel? ==> v.message == s.error.value
    ensures v.StatsPanel? ==> v.interviewCount == s.stats.interviewCount && v.questionCount == s.stats.questionCount
    ensures v.StatsPanel? ==> (v.averagePerInterview.Some? <==> s.stats.interviewCount > 0)
    ensures v.StatsPanel? && v.averagePerInterview.Some? ==>
      2 * s.stats.interviewCount * v.averagePerInterview.value - s.stats.interviewCount <= 2 * s.stats.questionCount
      < 2 * s.stats.interviewCount * v.averagePerInterview.value + s.stats.interviewCount
    ensures v.StatsPanel? ==> (v.migrationNotice <==> s.stats.interviewCount == 0 && s.stats.questionCount == 0)
  {
    if s.loading then Spinner
    else if s.error.Some? && s.error.value != "" then ErrorPanel(s.error.value)
    else
      var i, q := s.stats.interviewCount, s.stats.questionCount;
      StatsPanel(i, q, if i > 0 then Some(Numeric.RoundDiv(q, i)) else None, i == 0 && q == 0)
  }

  /** A card whose load failed shows the error; retrying with an answer shows
      that answer's counters. */
  lemma RetryRecovers(s: StatsCard, failed: Reply<Option<UserStats.Counts>>, c: UserStats.Counts)
    requires !(failed.Replied? && failed.value.Some?)
    ensures View(FetchStats(s, failed)) == ErrorPanel(LoadFailed)
    ensures View(FetchStats(FetchStats(s, failed), Replied(Some(c)))).StatsPanel?
    ensures View(FetchStats(FetchStats(s, failed), Replied(Some(c)))).interviewCount == c.interviewCount
  {
  }

  /** Migrating an existing user and fetching again shows the counters
      recomputed from that user's interviews, without the migration notice
      once any interview exists. */
  lemma MigrationShowsRecount(s: StatsCard, users: UserStats.Users, interviews: Collection<Interview>, userId: string)
    requires userId in users
    ensures var after := UserStats.MigrateUserStats(users, interviews, userId);
      var v := View(Migrate(s, Replied(after.0), Replied(UserStats.GetUserStats(after.1, userId))));
      v.StatsPanel? && v.interviewCount == UserStats.OwnedCount(interviews, userId)
      && v.questionCount == UserStats.OwnedQuestions(interviews, userId)
      && (UserStats.OwnedCount(interviews, userId) > 0 ==> !v.migrationNotice)
  {
    var after := UserStats.MigrateUserStats(users, interviews, userId);
    var fetched := UserStats.GetUserStats(after.1, userId);
    assert fetched == Some(UserStats.Counts(UserStats.OwnedCount(interviews, userId), UserStats.OwnedQuestions(interviews, userId)));
  }
}

=== FILE: general_actions.dfy ===
/** The server actions of `lib/actions/general.action.ts`: saving the feedback
    of a finished interview together with the user's counters, and the three
    read queries the pages use. The language model that grades a transcript is
    a parameter (`None` when the call fails), and so are the id the store would
    generate, the clock and whether each store access succeeds. */
module GeneralActions {
  import opened Wrappers
  import opened Numeric
  import opened Records
  import opened Sorting
  import Text
  import UserStats

  /** One line of a call transcript. */
  datatype TranscriptMessage = TranscriptMessage(role: string, content: string)

  /** The fields of `createFeedback`'s parameter object. */
  datatype CreateFeedbackParams = CreateFeedbackParams(
    interviewId: string,
    userId: string,
    transcript: seq<TranscriptMessage>,
    feedbackId: Option<string>)

  /** What the grading model returns (the feedback schema's fields). */
  datatype Generated = Generated(
    totalScore: int,
    categoryScores: seq<CategoryScore>,
    strengths: seq<string>,
    areasForImprovement: seq<string>,
    finalAssessment: string)

  /** The three collections the actions touch. */
  datatype Store = Store(users: UserStats.Users, interviews: Collection<Interview>, feedback: Collection<Feedback>)

  /** `{ success: true, feedbackId }` or `{ success: false }`. */
  datatype CreateOutcome = Created(feedbackId: string) | Failed

  /** One transcript message as the grading prompt shows it. */
  function TranscriptLine(m: TranscriptMessage): string {
    "- " + m.role + ": " + m.content + "\n"
  }

  /** The transcript as one text: the lines one after another. */
  function FormatTranscript(t: seq<TranscriptMessage>): string
    decreases |t|
  {
    if |t| == 0 then "" else FormatTranscript(t[..|t| - 1]) + TranscriptLine(t[|t| - 1])
  }

  /** Length of one transcript line. */
  function LineLength(m: TranscriptMessage): int {
    |TranscriptLine(m)|
  }

  /** The formatted transcript is as long as its lines together. */
  lemma {:induction false} FormatTranscriptLength(t: seq<TranscriptMessage>)
    ensures |FormatTranscript(t)| == SumOf(t, LineLength)
    decreases |t|
  {
    if |t| > 0 {
      FormatTranscriptLength(t[..|t| - 1]);
    }
  }

  /** Formatting distributes over concatenation of transcripts. */
  lemma {:induction false} FormatTranscriptAppend(a: seq<TranscriptMessage>, b: seq<TranscriptMessage>)
    ensures FormatTranscript(a + b) == FormatTranscript(a) + FormatTranscript(b)
    decreases |b|
  {
    if |b| == 0 {
      assert a + b == a;
    } else {
      var front := b[..|b| - 1];
      var last := TranscriptLine(b[|b| - 1]);
      assert (a + b)[..|a + b| - 1] == a + front;
      FormatTranscriptAppend(a, front);
      calc {
        FormatTranscript(a + b);
        FormatTranscript(a + front) + last;
        (FormatTranscript(a) + FormatTranscript(front)) + last;
        FormatTranscript(a) + (FormatTranscript(front) + last);
      }
    }
  }

  /** The formatted prefix up to a message is the one before it followed by
      its line. */
  lemma FormatPrefixStep(t: seq<TranscriptMessage>, i: int)
    requires 0 <= i < |t|
    ensures FormatTranscript(t[..i + 1]) == FormatTranscript(t[..i]) + TranscriptLine(t[i])
  {
    assert t[..i + 1][..i] == t[..i];
  }

  /** The formatted transcript is the formatted prefix followed by the
      formatted rest. */
  lemma FormatSplit(t: seq<TranscriptMessage>, k: int)
    requires 0 <= k <= |t|
    ensures FormatTranscript(t) == FormatTranscript(t[..k]) + FormatTranscript(t[k..])
  {
    assert t == t[..k] + t[k..];
    FormatTranscriptAppend(t[..k], t[k..]);
  }

  /** The formatted transcript is the lines before a message, its line, and
      the lines after it. */
  lemma FormatTranscriptAround(t: seq<TranscriptMessage>, i: int)
    requires 0 <= i < |t|
    ensures FormatTranscript(t) == FormatTranscript(t[..i]) + TranscriptLine(t[i]) + FormatTranscript(t[i + 1..])
  {
    FormatSplit(t, i + 1);
    FormatPrefixStep(t, i);
  }

  /** Every message appears in the formatted transcript as its own line. */
  lemma FormatTranscriptShowsEach(t: seq<TranscriptMessage>, i: int)
    requires 0 <= i < |t|
    ensures Text.Contains(FormatTranscript(t), TranscriptLine(t[i]))
  {
    var line := TranscriptLine(t[i]);
    FormatTranscriptAround(t, i);
    Text.ContainsSelf(line);
    Text.ContainsInContext(FormatTranscript(t[..i]), line, FormatTranscript(t[i + 1..]), line);
  }

  /** The document id the feedback is saved under: the requested one when it
      is a non-empty string, otherwise the one the store generates. */
  function FeedbackDocId(requested: Option<string>, freshId: string): string {
    if requested.Some? && requested.value != "" then requested.value else freshId
  }

  /** `interview?.questions?.length || 0`: the length of whatever the
      questions field holds, 0 for a missing interview or field. */
  function AskedQuestions(iv: Option<Interview>): (n: nat)
    ensures iv.Some? && iv.value.questions.QuestionList? ==> n == UserStats.ListedQuestions(iv.value)
    ensures iv.Some? && iv.value.questions.QuestionText? ==> n == |iv.value.questions.text|
    ensures iv.None? || iv.value.questions.NoQuestions? ==> n == 0
  {
    if iv.None? then 0
    else match iv.value.questions
      case NoQuestions => 0
      case QuestionList(items) => |items|
      case QuestionText(text) => |text|
  }

  /** The counter updates after the feedback is saved: initialise the
      counters, then (when the interview could be read, `asked` is `Some`)
      count one interview and, if any, the questions it asked. The outcomes
      of the counter actions are ignored. */
  function RecordStats(users: UserStats.Users, userId: string, asked: Option<nat>): UserStats.Users
  {
    var initialized := UserStats.InitializeUserStats(users, userId).1;
    if asked.None? then initialized
    else
      var counted := UserStats.IncrementUserInterviewCount(initialized, userId).1;
      if asked.value > 0 then UserStats.IncrementUserQuestionCount(counted, userId, asked.value).1
      else counted
  }

  /** `createFeedback`: grade the transcript, save the feedback, then update
      the user's counters. Nothing is written when grading or the save fails;
      a failure while reading the interview for the counters only stops the
      counter updates. */
  function CreateFeedback(store: Store, params: CreateFeedbackParams, generated: Option<Generated>,
                          writeOk: bool, interviewReadOk: bool, freshId: string, now: int): (r: (CreateOutcome, Store))
    ensures r.0.Failed? <==> generated.None? || !writeOk
    ensures r.0.Failed? ==> r.1 == store
    ensures r.1.interviews == store.interviews
    ensures r.0.Created? ==> r.0.feedbackId == (if params.feedbackId.Some? && params.feedbackId.value != "" then params.feedbackId.value else freshId)
    ensures r.0.Created? ==> Lookup(r.1.feedback, r.0.feedbackId) == Some(Feedback(
      params.interviewId, params.userId, generated.value.totalScore, generated.value.categoryScores,
      generated.value.strengths, generated.value.areasForImprovement, generated.value.finalAssessment, now))
    ensures r.0.Created? ==> forall k :: k != r.0.feedbackId ==> Lookup(r.1.feedback, k) == Lookup(store.feedback, k)
    ensures r.1.users.Keys == store.users.Keys
    ensures forall u :: u in store.users && u != params.userId ==> r.1.users[u] == store.users[u]
    ensures params.userId in store.users && r.0.Created? ==>
      r.1.users[params.userId].interviewCount.Some? && r.1.users[params.userId].questionCount.Some?
  {
    if generated.None? || !writeOk then (Failed, store)
    else
      var g := generated.value;
      var id := FeedbackDocId(params.feedbackId, freshId);
      var fb := Feedback(params.interviewId, params.userId, g.totalScore, g.categoryScores,
                         g.strengths, g.areasForImprovement, g.finalAssessment, now);
      var asked := if interviewReadOk then Some(AskedQuestions(Lookup(store.interviews, params.interviewId))) else None;
      (Created(id), Store(RecordStats(store.users, params.userId, asked), store.interviews, Put(store.feedback, id, fb)))
  }

  /** After a saved feedback, the user's counters read one more interview and
      the interview's questions more than before, or the same as before when
      the interview could not be read. */
  lemma CreateFeedbackCounts(store: Store, params: CreateFeedbackParams, generated: Option<Generated>,
                             writeOk: bool, interviewReadOk: bool, freshId: string, now: int)
    requires generated.Some? && writeOk && params.userId in store.users
    ensures UserStats.GetUserStats(CreateFeedback(store, params, generated, writeOk, interviewReadOk, freshId, now).1.users, params.userId)
      == Some(UserStats.Counts(
           UserStats.OrZero(store.users[params.userId].interviewCount) + (if interviewReadOk then 1 else 0),
           UserStats.OrZero(store.users[params.userId].questionCount)
             + (if interviewReadOk then AskedQuestions(Lookup(store.interviews, params.interviewId)) else 0)))
  {
  }

  /** A transcript for a user without a profile still saves the feedback and
      leaves the users untouched. */
  lemma CreateFeedbackUnknownUser(store: Store, params: CreateFeedbackParams, generated: Option<Generated>,
                                  writeOk: bool, interviewReadOk: bool, freshId: string, now: int)
    requires params.userId !in store.users
    ensures CreateFeedback(store, params, generated, writeOk, interviewReadOk, freshId, now).1.users == store.users
  {
  }

  /** The query condition of `getFeedbackByInterviewId`. */
  predicate FeedbackMatches(d: Doc<Feedback>, interviewId: string, userId: string) {
    d.data.interviewId == interviewId && d.data.userId == userId
  }

  /** `getFeedbackByInterviewId`: the first feedback of this interview by this
      user. With the composite index (`indexed`) the store filters on both
      fields; without it the action filters on the interview and searches the
      result for the user. */
  function GetFeedbackByInterviewId(feedback: Collection<Feedback>, interviewId: string, userId: string, indexed: bool): (r: Option<Doc<Feedback>>)
    ensures r.None? <==> forall i :: 0 <= i < |feedback| ==> !FeedbackMatches(feedback[i], interviewId, userId)
    ensures r.Some? ==> exists i :: (0 <= i < |feedback| && feedback[i] == r.value && FeedbackMatches(r.value, interviewId, userId)
      && forall j :: 0 <= j < i ==> !FeedbackMatches(feedback[j], interviewId, userId))
  {
    var both := (d: Doc<Feedback>) => FeedbackMatches(d, interviewId, userId);
    if indexed then FindBy(feedback, both)
    else
      var forInterview := (d: Doc<Feedback>) => d.data.interviewId == interviewId;
      FindFiltered(feedback, forInterview, (d: Doc<Feedback>) => d.data.userId == userId, both);
      FindBy(Filter(feedback, forInterview), (d: Doc<Feedback>) => d.data.userId == userId)
  }

  /** The fallback search finds the same document as the indexed query. */
  lemma FeedbackFallbackAgrees(feedback: Collection<Feedback>, interviewId: string, userId: string)
    ensures GetFeedbackByInterviewId(feedback, interviewId, userId, false) == GetFeedbackByInterviewId(feedback, interviewId, userId, true)
  {
    var both := (d: Doc<Feedback>) => FeedbackMatches(d, interviewId, userId);
    FindFiltered(feedback, (d: Doc<Feedback>) => d.data.interviewId == interviewId, (d: Doc<Feedback>) => d.data.userId == userId, both);
  }

  function InterviewTime(d: Doc<Interview>): int {
    d.data.createdAt
  }

  /** The interviews of `getLatestInterviews`: finalized and owned by the user. */
  predicate IsLatestCandidate(d: Doc<Interview>, userId: string) {
    d.data.finalized && d.data.userId == userId
  }

  /** The interviews `getLatestInterviews` chooses from, in store order. */
  function LatestCandidates(interviews: Collection<Interview>, userId: string): seq<Doc<Interview>> {
    Filter(interviews, (d: Doc<Interview>) => IsLatestCandidate(d, userId))
  }

  /** A prefix holds no element more often than the whole sequence. */
  lemma PrefixMultiset<T>(r: seq<T>, s: seq<T>)
    requires r <= s
    ensures multiset(r) <= multiset(s)
  {
    assert s == r + s[|r|..];
  }

  /** `getLatestInterviews` (default `limit` 20): the user's finalized
      interviews, newest first, cut to `limit` with `slice(0, limit)`; a
      negative `limit` drops that many from the end. */
  function GetLatestInterviews(interviews: Collection<Interview>, userId: string, limit: int := 20): (r: seq<Doc<Interview>>)
    ensures limit >= 0 ==> |r| == Min(limit, |LatestCandidates(interviews, userId)|)
    ensures limit < 0 ==> |r| == Max(0, |LatestCandidates(interviews, userId)| + limit)
    ensures multiset(r) <= multiset(LatestCandidates(interviews, userId))
    ensures forall i :: 0 <= i < |r| ==> r[i] in interviews && IsLatestCandidate(r[i], userId)
    ensures forall i, j :: 0 <= i < j < |r| ==> r[i].data.createdAt >= r[j].data.createdAt
  {
    var finalized := Filter(interviews, (d: Doc<Interview>) => d.data.finalized);
    var owned := Filter(finalized, (d: Doc<Interview>) => d.data.userId == userId);
    var sorted := SortDescBy(owned, InterviewTime);
    var r := SliceTo(sorted, limit);
    FilterMembers(interviews, (d: Doc<Interview>) => d.data.finalized);
    FilterMembers(finalized, (d: Doc<Interview>) => d.data.userId == userId);
    FilterFilter(interviews, (d: Doc<Interview>) => d.data.finalized, (d: Doc<Interview>) => d.data.userId == userId,
                 (d: Doc<Interview>) => IsLatestCandidate(d, userId));
    DescendingPrefix(owned, sorted, InterviewTime, r);
    PrefixMultiset(r, sorted);
    r
  }

  /** The cut keeps the newest: a matching interview left out is no newer
      than any returned one, and none is left out when `limit` covers all
      the user's finalized interviews. */
  lemma LatestInterviewsAreNewest(interviews: Collection<Interview>, userId: string, limit: int, x: Doc<Interview>)
    requires x in interviews && IsLatestCandidate(x, userId)
    ensures x !in GetLatestInterviews(interviews, userId, limit) ==>
      forall i :: 0 <= i < |GetLatestInterviews(interviews, userId, limit)| ==>
        x.data.createdAt <= GetLatestInterviews(interviews, userId, limit)[i].data.createdAt
    ensures limit >= |LatestCandidates(interviews, userId)| ==> x in GetLatestInterviews(interviews, userId, limit)
  {
    var finalized := Filter(interviews, (d: Doc<Interview>) => d.data.finalized);
    var owned := Filter(finalized, (d: Doc<Interview>) => d.data.userId == userId);
    var sorted := SortDescBy(owned, InterviewTime);
    var r := GetLatestInterviews(interviews, userId, limit);
    assert r == SliceTo(sorted, limit);
    FilterMembers(interviews, (d: Doc<Interview>) => d.data.finalized);
    FilterMembers(finalized, (d: Doc<Interview>) => d.data.userId == userId);
    FilterFilter(interviews, (d: Doc<Interview>) => d.data.finalized, (d: Doc<Interview>) => d.data.userId == userId,
                 (d: Doc<Interview>) => IsLatestCandidate(d, userId));
    DescendingPrefix(owned, sorted, InterviewTime, r);
  }

  /** `getInterviewsByUserId`: every interview of the user, newest first. */
  function GetInterviewsByUserId(interviews: Collection<Interview>, userId: string): (r: seq<Doc<Interview>>)
    ensures multiset(r) == multiset(Filter(interviews, (d: Doc<Interview>) => d.data.userId == userId))
    ensures forall i, j :: 0 <= i < j < |r| ==> r[i].data.createdAt >= r[j].data.createdAt
  {
    var r := SortDescBy(Filter(interviews, (d: Doc<Interview>) => d.data.userId == userId), InterviewTime);
    assert forall i, j :: 0 <= i < j < |r| ==> InterviewTime(r[i]) >= InterviewTime(r[j]);
    r
  }

  /** The user's list holds exactly the user's interviews. */
  lemma InterviewsByUserMembers(interviews: Collection<Interview>, userId: string, x: Doc<Interview>)
    ensures x in GetInterviewsByUserId(interviews, userId) <==> x in interviews && x.data.userId == userId
  {
    var p := (d: Doc<Interview>) => d.data.userId == userId;
    var r := GetInterviewsByUserId(interviews, userId);
    FilterMembers(interviews, p);
    assert x in r <==> x in multiset(r);
    assert x in Filter(interviews, p) <==> x in multiset(Filter(interviews, p));
  }
}

=== FILE: generate.dfy ===
/** The interview generator endpoint (`app/api/vapi/generate/route.ts`): it
    parses the requested tech stack, builds the enhanced interviewer prompt,
    asks the language model for questions and stores a finalized interview. The model's reply, already passed
    through `JSON.parse` (`None` when the call or the parse fails), the cover
    image pick, the clock and the id the store assigns are parameters. */
module Generate {
  import opened Wrappers
  import opened Records
  import Text
  import GeneralActions
  import UserStats
  import InterviewTraining

  /** The JSON body. `techstack` is `None` when it is missing or not a string,
      where `split` throws. */
  datatype GenerateRequest = GenerateRequest(
    interviewType: string,
    role: string,
    level: string,
    techstack: Option<string>,
    amount: int,
    userid: string)

  /** 200 `{ success: true }`, 500 `{ success: false }` from the handler's
      catch, or a body that is not JSON, which the handler does not catch. */
  datatype GenerateResponse = GenerateOk | GenerateFailed | Unhandled

  /** `techstack.split(",").map(t => t.trim())`. */
  function ParseTechstack(s: string): (r: seq<string>)
    ensures |r| == Text.Occurrences(s, ',') + 1
    ensures forall i :: 0 <= i < |r| ==> Text.IsTrimmed(r[i]) && ',' !in r[i]
    ensures forall i :: 0 <= i < |r| ==> r[i] == Text.Trim(Text.Split(s, ',')[i])
  {
    var pieces := Text.Split(s, ',');
    var r := seq(|pieces|, i requires 0 <= i < |pieces| => Text.Trim(pieces[i]));
    forall i | 0 <= i < |r| ensures Text.IsTrimmed(r[i]) && ',' !in r[i] {
      Text.TrimShape(pieces[i], ',');
    }
    r
  }

  /** Comma-free, already trimmed names come back from their comma-joined
      text unchanged. */
  lemma ParseTechstackJoin(names: seq<string>)
    requires |names| > 0
    requires forall i :: 0 <= i < |names| ==> ',' !in names[i] && Text.IsTrimmed(names[i])
    ensures ParseTechstack(Text.Join(names, ",")) == names
  {
    Text.SplitJoin(names, ',');
    var r := ParseTechstack(Text.Join(names, ","));
    forall i | 0 <= i < |names| ensures r[i] == names[i] {
      Text.TrimTrimmed(names[i]);
    }
  }

  /** `POST /api/vapi/generate`. On success the store gains one finalized
      interview owned by `userid`; users and feedback are never touched. */
  function PostGenerate(store: GeneralActions.Store, request: Option<GenerateRequest>, generated: Option<QuestionsField>,
                        cover: string, now: int, freshId: string, writeOk: bool): (r: (GenerateResponse, GeneralActions.Store))
    ensures r.1.users == store.users && r.1.feedback == store.feedback
    ensures request.None? ==> r.0 == Unhandled
    ensures r.0 == GenerateOk <==> (request.Some? && request.value.techstack.Some?
      && request.value.level !in InterviewTraining.InheritedProperties && generated.Some? && writeOk)
    ensures r.0 != GenerateOk ==> r.1 == store
    ensures r.0 == GenerateOk ==> |r.1.interviews| == |store.interviews| + 1 && r.1.interviews == store.interviews + [Doc(freshId, r.1.interviews[|store.interviews|].data)]
    ensures r.0 == GenerateOk ==> (
      var iv := r.1.interviews[|store.interviews|].data;
      iv.finalized && iv.userId == request.value.userid && iv.role == request.value.role
      && iv.level == request.value.level && iv.interviewType == request.value.interviewType
      && iv.techstack == ParseTechstack(request.value.techstack.value) && iv.questions == generated.value
      && iv.createdAt == now)
  {
    if request.None? then (Unhandled, store)
    else if request.value.techstack.None? then (GenerateFailed, store)
    else if InterviewTraining.EnhancedPrompt(request.value.interviewType, request.value.level, request.value.role,
                                             ParseTechstack(request.value.techstack.value)).None? then (GenerateFailed, store)
    else if generated.None? || !writeOk then (GenerateFailed, store)
    else
      var q := request.value;
      var iv := Interview(q.role, q.level, q.interviewType, ParseTechstack(q.techstack.value), generated.value,
                          q.userid, true, cover, now);
      (GenerateOk, store.(interviews := store.interviews + [Doc(freshId, iv)]))
  }

  /** Generating an interview leaves every user's counters as they were:
      only completed interviews are counted. */
  lemma GenerateKeepsCounters(store: GeneralActions.Store, request: Option<GenerateRequest>, generated: Option<QuestionsField>,
                              cover: string, now: int, freshId: string, writeOk: bool, userId: string)
    ensures UserStats.GetUserStats(PostGenerate(store, request, generated, cover, now, freshId, writeOk).1.users, userId)
      == UserStats.GetUserStats(store.users, userId)
  {
  }
}

=== FILE: interview_training.dfy ===
/** The enhanced interviewer prompt (`constants/interview-training.ts`): a
    system prompt chosen by interview type, adjustments chosen by experience
    level, focus areas chosen by the words in the role, and the tech stack,
    assembled into one text. */
module InterviewTraining {
  import opened Wrappers
  import Text

  /** The keys of `interviewTrainingPrompts`. */
  datatype InterviewKind = Technical | Behavioral | Mixed
  {
    /** The kind's `systemPrompt`, line by line (each line but the last
        ends with its line break). */
    function SystemPromptLines(): seq<string> {
      match this
      case Technical => [
        "You are conducting a technical interview. Focus on:\n",
        "    - Deep technical knowledge assessment\n",
        "    - Problem-solving methodologies\n",
        "    - Code quality and best practices\n",
        "    - System design thinking\n",
        "    - Debugging and optimization skills\n",
        "    \n",
        "    Ask follow-up questions that reveal depth of understanding, not just memorization."]
      case Behavioral => [
        "You are conducting a behavioral interview. Focus on:\n",
        "    - Past experiences and decision-making\n",
        "    - Leadership and teamwork examples\n",
        "    - Conflict resolution abilities\n",
        "    - Adaptability and learning agility\n",
        "    - Cultural fit and values alignment\n",
        "    \n",
        "    Use STAR method (Situation, Task, Action, Result) to structure responses."]
      case Mixed => [
        "You are conducting a comprehensive interview combining technical and behavioral assessment. Focus on:\n",
        "    - Balance between technical skills and soft skills\n",
        "    - Real-world application of technical knowledge\n",
        "    - Communication of complex technical concepts\n",
        "    - Team dynamics in technical environments\n",
        "    - Growth mindset and continuous learning\n",
        "    \n",
        "    Seamlessly transition between technical and behavioral questions."]
    }

    function SystemPrompt(): string {
      Text.Concat(SystemPromptLines())
    }
  }

  /** The keys of `interviewLevelAdjustments`. */
  datatype Level = Junior | MidLevel | SeniorLevel
  {
    function Focus(): string {
      match this
      case Junior => "Foundational knowledge, learning ability, enthusiasm"
      case MidLevel => "Applied experience, independent problem-solving, mentoring potential"
      case SeniorLevel => "Strategic thinking, leadership, architecture decisions"
    }

    function Adjustments(): seq<string> {
      match this
      case Junior => [
        "Focus on fundamental concepts rather than advanced topics",
        "Assess learning potential and curiosity",
        "Be encouraging and provide guidance",
        "Look for passion and willingness to grow"]
      case MidLevel => [
        "Expect practical experience with technologies",
        "Assess ability to work independently",
        "Look for some leadership/mentoring experience",
        "Evaluate decision-making in complex scenarios"]
      case SeniorLevel => [
        "Expect deep expertise and architectural thinking",
        "Assess leadership and mentoring abilities",
        "Evaluate strategic decision-making",
        "Look for industry influence and thought leadership"]
    }
  }

  /** The keys of `industrySpecificFocus`, and no focus at all. */
  datatype Industry = Frontend | Backend | Fullstack | Data | Mobile | NoIndustry
  {
    function FocusAreas(): seq<string> {
      match this
      case Frontend => [
        "User experience considerations", "Performance optimization", "Cross-browser compatibility",
        "Modern framework expertise", "Responsive design principles"]
      case Backend => [
        "System scalability", "Database design", "API architecture",
        "Security best practices", "Performance optimization"]
      case Fullstack => [
        "End-to-end system understanding", "Technology integration", "Performance across the stack",
        "User experience + system design", "DevOps and deployment"]
      case Data => [
        "Data modeling and analysis", "Statistical thinking", "Machine learning concepts",
        "Data pipeline design", "Business insight generation"]
      case Mobile => [
        "Platform-specific knowledge", "Mobile UX/UI principles", "Performance on mobile devices",
        "App store guidelines", "Cross-platform considerations"]
      case NoIndustry => []
    }
  }

  /** Looking a level up in `interviewLevelAdjustments`: one of its own keys,
      a property every object inherits (the lookup then yields an object
      without `adjustments`), or nothing. */
  datatype LevelLookup = OwnLevel(level: Level) | InheritedProperty | NoLevel

  /** The properties a plain JavaScript object inherits from `Object.prototype`. */
  const InheritedProperties: set<string> := {
    "constructor", "__proto__", "toString", "toLocaleString", "valueOf", "hasOwnProperty",
    "isPrototypeOf", "propertyIsEnumerable", "__defineGetter__", "__defineSetter__",
    "__lookupGetter__", "__lookupSetter__"}

  /** The base prompt's kind: the type's own entry, and the mixed prompt for
      any other type (inherited properties have no `systemPrompt` either). */
  function KindOf(interviewType: string): (k: InterviewKind)
    ensures k == Technical <==> interviewType == "technical"
    ensures k == Behavioral <==> interviewType == "behavioral"
    ensures k == Mixed <==> interviewType != "technical" && interviewType != "behavioral"
  {
    if interviewType == "technical" then Technical
    else if interviewType == "behavioral" then Behavioral
    else Mixed
  }

  function LookupLevel(level: string): (r: LevelLookup)
    ensures r.OwnLevel? <==> level in {"junior", "mid-level", "senior"}
    ensures r == InheritedProperty <==> level in InheritedProperties
  {
    if level == "junior" then OwnLevel(Junior)
    else if level == "mid-level" then OwnLevel(MidLevel)
    else if level == "senior" then OwnLevel(SeniorLevel)
    else if level in InheritedProperties then InheritedProperty
    else NoLevel
  }

  predicate MentionsFrontend(r: string) {
    Text.Contains(r, "frontend") || Text.Contains(r, "ui") || Text.Contains(r, "react")
  }

  predicate MentionsBackend(r: string) {
    Text.Contains(r, "backend") || Text.Contains(r, "api") || Text.Contains(r, "server")
  }

  predicate MentionsFullstack(r: string) {
    Text.Contains(r, "fullstack") || Text.Contains(r, "full stack")
  }

  predicate MentionsData(r: string) {
    Text.Contains(r, "data") || Text.Contains(r, "ml") || Text.Contains(r, "ai")
  }

  predicate MentionsMobile(r: string) {
    Text.Contains(r, "mobile") || Text.Contains(r, "ios") || Text.Contains(r, "android")
  }

  /** The industry a role belongs to: the lower-cased role is tested against
      the frontend words first, then backend, full-stack, data and mobile. */
  function DetectIndustry(role: string): (ind: Industry)
    ensures ind == Frontend <==> MentionsFrontend(Text.ToLower(role))
    ensures ind == Backend <==> !MentionsFrontend(Text.ToLower(role)) && MentionsBackend(Text.ToLower(role))
    ensures ind == Fullstack <==> (!MentionsFrontend(Text.ToLower(role)) && !MentionsBackend(Text.ToLower(role))
      && MentionsFullstack(Text.ToLower(role)))
    ensures ind == Data <==> (!MentionsFrontend(Text.ToLower(role)) && !MentionsBackend(Text.ToLower(role))
      && !MentionsFullstack(Text.ToLower(role)) && MentionsData(Text.ToLower(role)))
    ensures ind == Mobile <==> (!MentionsFrontend(Text.ToLower(role)) && !MentionsBackend(Text.ToLower(role))
      && !MentionsFullstack(Text.ToLower(role)) && !MentionsData(Text.ToLower(role)) && MentionsMobile(Text.ToLower(role)))
  {
    var r := Text.ToLower(role);
    if MentionsFrontend(r) then Frontend
    else if MentionsBackend(r) then Backend
    else if MentionsFullstack(r) then Fullstack
    else if MentionsData(r) then Data
    else if MentionsMobile(r) then Mobile
    else NoIndustry
  }

  /** The two lines under the level heading: the focus and the bulleted
      adjustments, or the text `undefined` twice when the level has no entry. */
  function LevelSection(lookup: LevelLookup): string
    requires !lookup.InheritedProperty?
  {
    match lookup
    case OwnLevel(l) => l.Focus() + "\n" + Text.Bullets(l.Adjustments())
    case NoLevel => "undefined\nundefined"
  }

  const RoleHeading: string := "\n\nROLE-SPECIFIC CONTEXT:\nPosition: "
  const LevelLabel: string := "\nExperience Level: "
  const StackLabel: string := "\nTech Stack: "
  const LevelHeading: string := "\n\nLEVEL ADJUSTMENTS:\n"
  const IndustryHeading: string := "\n\nINDUSTRY FOCUS AREAS:\n"
  const TechnologyHeading: string :=
    "\n\nTECHNOLOGY CONTEXT:\nThe candidate should demonstrate knowledge and experience with: "
  const ClosingLines: string :=
    "\n\nTailor your questions and follow-ups to assess competency in these specific technologies "
    + "while maintaining the overall interview structure and objectives."

  /** The role, level and tech stack lines. */
  function RoleContext(role: string, level: string, techStack: seq<string>): string {
    RoleHeading + role + LevelLabel + level + StackLabel + Text.Join(techStack, ", ")
  }

  /** The blocks of the prompt template, in order. */
  function PromptParts(base: string, role: string, level: string, levelSection: string,
                       focusAreas: seq<string>, techStack: seq<string>): (parts: seq<string>)
    ensures |parts| == 5
  {
    [base,
     RoleContext(role, level, techStack),
     LevelHeading + levelSection,
     IndustryHeading + Text.Bullets(focusAreas),
     TechnologyHeading + Text.Join(techStack, ", ") + ClosingLines]
  }

  /** The prompt text once its blocks are chosen. */
  function Prompt(base: string, role: string, level: string, levelSection: string,
                  focusAreas: seq<string>, techStack: seq<string>): string {
    Text.Concat(PromptParts(base, role, level, levelSection, focusAreas, techStack))
  }

  /** `generateEnhancedInterviewPrompt`. A level naming an inherited property
      makes the adjustments lookup fail with a TypeError: no prompt. */
  function EnhancedPrompt(interviewType: string, level: string, role: string, techStack: seq<string>): (r: Option<string>)
    ensures r.None? <==> LookupLevel(level).InheritedProperty?
    ensures r.Some? ==> r.value == Prompt(KindOf(interviewType).SystemPrompt(), role, level, LevelSection(LookupLevel(level)),
                                          DetectIndustry(role).FocusAreas(), techStack)
  {
    var lookup := LookupLevel(level);
    if lookup.InheritedProperty? then None
    else
      Some(Prompt(KindOf(interviewType).SystemPrompt(), role, level, LevelSection(lookup),
                  DetectIndustry(role).FocusAreas(), techStack))
  }

  /** Every block of the template appears in the prompt, which starts with
      the base prompt. */
  lemma PromptBlocks(base: string, role: string, level: string, levelSection: string,
                     focusAreas: seq<string>, techStack: seq<string>)
    ensures |base| <= |Prompt(base, role, level, levelSection, focusAreas, techStack)|
    ensures Prompt(base, role, level, levelSection, focusAreas, techStack)[..|base|] == base
    ensures Text.Contains(Prompt(base, role, level, levelSection, focusAreas, techStack), RoleContext(role, level, techStack))
    ensures Text.Contains(Prompt(base, role, level, levelSection, focusAreas, techStack), LevelHeading + levelSection)
    ensures Text.Contains(Prompt(base, role, level, levelSection, focusAreas, techStack), IndustryHeading + Text.Bullets(focusAreas))
    ensures Text.Contains(Prompt(base, role, level, levelSection, focusAreas, techStack),
                          TechnologyHeading + Text.Join(techStack, ", ") + ClosingLines)
  {
    var parts := PromptParts(base, role, level, levelSection, focusAreas, techStack);
    Text.ConcatHas(parts, 0);
    Text.ConcatHas(parts, 1);
    Text.ConcatHas(parts, 2);
    Text.ConcatHas(parts, 3);
    Text.ConcatHas(parts, 4);
  }

  /** The context lines list the tech stack joined by `, `. */
  lemma RoleContextListsStack(role: string, level: string, techStack: seq<string>)
    ensures Text.Contains(RoleContext(role, level, techStack), Text.Join(techStack, ", "))
  {
    var j := Text.Join(techStack, ", ");
    var pre := RoleHeading + role + LevelLabel + level + StackLabel;
    assert RoleContext(role, level, techStack) == pre + j + "";
    Text.ContainsSelf(j);
    Text.ContainsInContext(pre, j, "", j);
  }

  /** The prompt starts with the base prompt of the type's kind. */
  lemma PromptStartsWithBase(interviewType: string, level: string, role: string, techStack: seq<string>)
    requires level !in InheritedProperties
    ensures EnhancedPrompt(interviewType, level, role, techStack).Some?
    ensures |KindOf(interviewType).SystemPrompt()| <= |EnhancedPrompt(interviewType, level, role, techStack).value|
    ensures EnhancedPrompt(interviewType, level, role, techStack).value[..|KindOf(interviewType).SystemPrompt()|] == KindOf(interviewType).SystemPrompt()
  {
    var p := EnhancedPrompt(interviewType, level, role, techStack).value;
    var base := KindOf(interviewType).SystemPrompt();
    var section := LevelSection(LookupLevel(level));
    var focus := DetectIndustry(role).FocusAreas();
    assert p == Prompt(base, role, level, section, focus, techStack);
    PromptBlocks(base, role, level, section, focus, techStack);
    assert |base| <= |p| && p[..|base|] == base;
  }

  /** The prompt names the role and the level and lists the tech stack,
      joined by `, `. */
  lemma PromptNamesRole(interviewType: string, level: string, role: string, techStack: seq<string>)
    requires level !in InheritedProperties
    ensures EnhancedPrompt(interviewType, level, role, techStack).Some?
    ensures Text.Contains(EnhancedPrompt(interviewType, level, role, techStack).value, RoleContext(role, level, techStack))
    ensures Text.Contains(EnhancedPrompt(interviewType, level, role, techStack).value, Text.Join(techStack, ", "))
  {
    var p := EnhancedPrompt(interviewType, level, role, techStack).value;
    var base := KindOf(interviewType).SystemPrompt();
    var section := LevelSection(LookupLevel(level));
    var focus := DetectIndustry(role).FocusAreas();
    assert p == Prompt(base, role, level, section, focus, techStack);
    PromptBlocks(base, role, level, section, focus, techStack);
    RoleContextListsStack(role, level, techStack);
    Text.ContainsTransitive(EnhancedPrompt(interviewType, level, role, techStack).value, RoleContext(role, level, techStack),
                            Text.Join(techStack, ", "));
  }

  /** The prompt ends by asking for knowledge of the tech stack, listed again. */
  lemma PromptClosesWithStack(interviewType: string, level: string, role: string, techStack: seq<string>)
    requires level !in InheritedProperties
    ensures EnhancedPrompt(interviewType, level, role, techStack).Some?
    ensures Text.Contains(EnhancedPrompt(interviewType, level, role, techStack).value, TechnologyHeading + Text.Join(techStack, ", ") + ClosingLines)
  {
    var p := EnhancedPrompt(interviewType, level, role, techStack).value;
    var base := KindOf(interviewType).SystemPrompt();
    var section := LevelSection(LookupLevel(level));
    var focus := DetectIndustry(role).FocusAreas();
    assert p == Prompt(base, role, level, section, focus, techStack);
    PromptBlocks(base, role, level, section, focus, techStack);
  }

  /** Under the level heading stands the level's section; a level other
      than junior, mid-level and senior renders as the text `undefined`
      twice. */
  lemma PromptLevelSection(interviewType: string, level: string, role: string, techStack: seq<string>)
    requires level !in InheritedProperties
    ensures EnhancedPrompt(interviewType, level, role, techStack).Some?
    ensures Text.Contains(EnhancedPrompt(interviewType, level, role, techStack).value, LevelHeading + LevelSection(LookupLevel(level)))
    ensures level !in {"junior", "mid-level", "senior"} ==>
      Text.Contains(EnhancedPrompt(interviewType, level, role, techStack).value, LevelHeading + "undefined\nundefined")
  {
    var p := EnhancedPrompt(interviewType, level, role, techStack).value;
    var base := KindOf(interviewType).SystemPrompt();
    var section := LevelSection(LookupLevel(level));
    var focus := DetectIndustry(role).FocusAreas();
    assert p == Prompt(base, role, level, section, focus, techStack);
    PromptBlocks(base, role, level, section, focus, techStack);
  }

  /** Under the industry heading stand the detected industry's focus areas. */
  lemma PromptIndustryFocus(interviewType: string, level: string, role: string, techStack: seq<string>)
    requires level !in InheritedProperties
    ensures EnhancedPrompt(interviewType, level, role, techStack).Some?
    ensures Text.Contains(EnhancedPrompt(interviewType, level, role, techStack).value, IndustryHeading + Text.Bullets(DetectIndustry(role).FocusAreas()))
  {
    var p := EnhancedPrompt(interviewType, level, role, techStack).value;
    var base := KindOf(interviewType).SystemPrompt();
    var section := LevelSection(LookupLevel(level));
    var focus := DetectIndustry(role).FocusAreas();
    assert p == Prompt(base, role, level, section, focus, techStack);
    PromptBlocks(base, role, level, section, focus, techStack);
  }

  /** Detection lower-cases the role: roles equal up to case get the same
      focus areas. */
  lemma IndustryIgnoresCase(a: string, b: string)
    requires Text.ToLower(a) == Text.ToLower(b)
    ensures DetectIndustry(a) == DetectIndustry(b)
    ensures DetectIndustry(Text.ToLower(a)) == DetectIndustry(a)
  {
    Text.ToLowerIdempotent(a);
  }
}

=== FILE: numeric.dfy ===
/** Integer arithmetic the statistics rely on: sums, JavaScript's
    `Math.round` of a ratio, `Math.ceil` of a half, clamping. */
module Numeric {

  /** `xs.reduce((sum, x) => sum + f(x), 0)`, folding from the left. */
  function SumOf<T>(xs: seq<T>, f: T -> int): int
  {
    if |xs| == 0 then 0 else SumOf(xs[..|xs| - 1], f) + f(xs[|xs| - 1])
  }

  /** The sum over a concatenation is the sum of the sums of its parts. */
  lemma {:induction false} SumOfAppend<T>(a: seq<T>, b: seq<T>, f: T -> int)
    ensures SumOf(a + b, f) == SumOf(a, f) + SumOf(b, f)
    decreases |b|
  {
    if |b| == 0 {
      assert a + b == a;
    } else {
      assert (a + b)[..|a + b| - 1] == a + b[..|b| - 1];
      SumOfAppend(a, b[..|b| - 1], f);
    }
  }

  /** A sum of `n` values within `[lo, hi]` lies within `[n * lo, n * hi]`. */
  lemma {:induction false} SumOfBounds<T>(xs: seq<T>, f: T -> int, lo: int, hi: int)
    requires forall i :: 0 <= i < |xs| ==> lo <= f(xs[i]) <= hi
    ensures |xs| * lo <= SumOf(xs, f) <= |xs| * hi
    decreases |xs|
  {
    if |xs| > 0 {
      SumOfBounds(xs[..|xs| - 1], f, lo, hi);
    }
  }

  /** Taking the term at `k` out of a sum leaves the sum of the others. */
  lemma SumOfRemove<T>(b: seq<T>, k: int, f: T -> int)
    requires 0 <= k < |b|
    ensures SumOf(b, f) == SumOf(b[..k] + b[k + 1..], f) + f(b[k])
  {
    var head, back := b[..k + 1], b[k + 1..];
    assert head[..k] == b[..k];
    assert SumOf(head, f) == SumOf(b[..k], f) + f(b[k]);
    assert head + back == b;
    SumOfAppend(head, back, f);
    SumOfAppend(b[..k], back, f);
  }

  /** Taking the element at `k` out of a sequence takes one copy of it out of its multiset. */
  lemma MultisetRemove<T>(b: seq<T>, k: int)
    requires 0 <= k < |b|
    ensures multiset(b[..k] + b[k + 1..]) == multiset(b) - multiset{b[k]}
  {
    assert b == b[..k] + [b[k]] + b[k + 1..];
  }

  /** A sum does not depend on the order of its terms. */
  lemma {:induction false} SumOfPermutation<T>(a: seq<T>, b: seq<T>, f: T -> int)
    requires multiset(a) == multiset(b)
    ensures SumOf(a, f) == SumOf(b, f)
    decreases |a|
  {
    if |a| > 0 {
      var n := |a|;
      var x := a[n - 1];
      assert x in multiset(b);
      var k :| 0 <= k < |b| && b[k] == x;
      MultisetRemove(a, n - 1);
      MultisetRemove(b, k);
      SumOfPermutation(a[..n - 1] + a[n..], b[..k] + b[k + 1..], f);
      SumOfRemove(a, n - 1, f);
      SumOfRemove(b, k, f);
    }
  }

  /** `Math.round(a / b)` for a positive denominator, computed exactly:
      the integer nearest to `a / b`, a half rounding up. */
  function RoundDiv(a: int, b: int): (r: int)
    requires b > 0
    ensures 2 * b * r - b <= 2 * a < 2 * b * r + b
  {
    var q := (2 * a + b) / (2 * b);
    assert 2 * b * q <= 2 * a + b < 2 * b * q + 2 * b by {
      assert (2 * a + b) == (2 * b) * q + (2 * a + b) % (2 * b);
    }
    q
  }

  /** Dividing both sides of a comparison by a positive factor keeps it. */
  lemma RealCancel(u: real, v: real, c: real)
    requires c > 0.0
    ensures u * c <= v * c ==> u <= v
    ensures u * c < v * c ==> u < v
  {
    if u > v {
      assert (u - v) * c > 0.0;
    }
    if u >= v {
      assert (u - v) * c >= 0.0;
    }
  }

  /** The exact quotient `a / b`, as JavaScript computes it before rounding. */
  function Ratio(a: int, b: int): real
    requires b > 0
  {
    a as real / b as real
  }

  /** Integer products carry over to the reals. */
  lemma CastMul(x: int, y: int)
    ensures (x * y) as real == x as real * y as real
  {
  }

  /** Halving a two-sided bound. */
  lemma HalveBounds(y: real, c: real, v: real)
    requires 2.0 * y - c <= 2.0 * v < 2.0 * y + c
    ensures y - 0.5 * c <= v < y + 0.5 * c
  {
  }

  /** Multiplication distributes over a half offset. */
  lemma HalfOffsetMul(x: real, c: real)
    ensures (x - 0.5) * c == x * c - 0.5 * c
    ensures (x + 0.5) * c == x * c + 0.5 * c
  {
  }

  /** If `x * c` lies within half a `c` of `qr * c`, then `x` lies within a
      half of `qr`. */
  lemma RoundBoundsFromProducts(qr: real, x: real, c: real, v: real)
    requires c > 0.0
    requires 2.0 * (qr * c) - c <= 2.0 * v < 2.0 * (qr * c) + c
    requires x * c == v
    ensures qr - 0.5 <= x < qr + 0.5
  {
    var y := qr * c;
    HalveBounds(y, c, v);
    HalfOffsetMul(qr, c);
    CancelBelow(qr - 0.5, x, c, y - 0.5 * c, v);
    CancelAbove(x, qr + 0.5, c, v, y + 0.5 * c);
  }

  /** `RealCancel` for `<=`, with both products named. */
  lemma CancelBelow(u: real, w: real, c: real, uc: real, wc: real)
    requires c > 0.0 && uc == u * c && wc == w * c && uc <= wc
    ensures u <= w
  {
    RealCancel(u, w, c);
  }

  /** `RealCancel` for `<`, with both products named. */
  lemma CancelAbove(u: real, w: real, c: real, uc: real, wc: real)
    requires c > 0.0 && uc == u * c && wc == w * c && uc < wc
    ensures u < w
  {
    RealCancel(u, w, c);
  }

  /** `RoundDiv` is `Math.round` of the exact quotient: the integer `r` with
      `r - 1/2 <= a / b < r + 1/2`. */
  lemma RoundDivIsRound(a: int, b: int)
    ensures b > 0 ==> RoundDiv(a, b) as real - 0.5 <= Ratio(a, b) < RoundDiv(a, b) as real + 0.5
  {
    if b > 0 {
      var q := RoundDiv(a, b);
      var bq := b * q;
      assert 2 * bq - b <= 2 * a < 2 * bq + b;
      assert 2.0 * (bq as real) - b as real <= 2.0 * (a as real) < 2.0 * (bq as real) + b as real;
      CastMul(b, q);
      assert bq as real == q as real * b as real;
      RatioMul(a, b);
      RoundBoundsFromProducts(q as real, Ratio(a, b), b as real, a as real);
    }
  }

  /** The quotient times the denominator is the numerator. */
  lemma RatioMul(a: int, b: int)
    requires b > 0
    ensures Ratio(a, b) * b as real == a as real
  {
  }

  /** Comparing a quotient with an integer threshold is comparing the
      numerator with the scaled threshold. */
  lemma RatioAtLeast(a: int, b: int, k: int)
    requires b > 0
    ensures Ratio(a, b) >= k as real <==> a >= k * b
  {
    var x := Ratio(a, b);
    var c := b as real;
    RatioMul(a, b);
    CastMul(k, b);
    RealCancel(k as real, x, c);
    RealCancel(x, k as real, c);
  }

  /** The difference of two quotients over a common denominator. */
  lemma RatioDifference(s2: int, n2: int, s1: int, n1: int)
    requires n1 > 0 && n2 > 0
    ensures Ratio(s2, n2) - Ratio(s1, n1) == Ratio(s2 * n1 - s1 * n2, n2 * n1)
  {
    var x2 := Ratio(s2, n2);
    var x1 := Ratio(s1, n1);
    var c2 := n2 as real;
    var c1 := n1 as real;
    assert x2 * c2 == s2 as real;
    assert x1 * c1 == s1 as real;
    assert (x2 - x1) * (c2 * c1) == s2 as real * c1 - s1 as real * c2;
    assert (s2 * n1 - s1 * n2) as real == s2 as real * c1 - s1 as real * c2;
    assert (n2 * n1) as real == c2 * c1;
  }

  /** Multiplying by a positive factor keeps a gap of at least one step. */
  lemma MulStep(c: int, x: int, y: int)
    requires c > 0 && x < y
    ensures c * x + c <= c * y
  {
    assert c * y - c * x == c * (y - x - 1) + c;
    assert c * (y - x - 1) >= 0;
  }

  /** The rounding characterisation has exactly one solution, so any integer
      within half of `a / b` (half excluded above) is `RoundDiv(a, b)`. */
  lemma RoundDivUnique(a: int, b: int, r: int)
    requires b > 0
    requires 2 * b * r - b <= 2 * a < 2 * b * r + b
    ensures r == RoundDiv(a, b)
  {
    var q := RoundDiv(a, b);
    if r < q {
      MulStep(2 * b, r, q);
    } else if r > q {
      MulStep(2 * b, q, r);
    }
  }

  /** Rounding the mean of values within `[lo, hi]` stays within `[lo, hi]`. */
  lemma RoundDivMeanBounds(s: int, n: int, lo: int, hi: int)
    requires n > 0 && n * lo <= s <= n * hi
    ensures lo <= RoundDiv(s, n) <= hi
  {
    var r := RoundDiv(s, n);
    if r < lo {
      MulStep(2 * n, r, lo);
    }
    if r > hi {
      MulStep(2 * n, hi, r);
    }
  }

  /** `Math.ceil(n / 2)`. */
  function CeilHalf(n: nat): (r: nat)
    ensures 2 * r - 1 <= n <= 2 * r
  {
    (n + 1) / 2
  }

  function Min(a: int, b: int): int {
    if a <= b then a else b
  }

  function Max(a: int, b: int): int {
    if a >= b then a else b
  }

  /** `Math.min(hi, Math.max(lo, x))`. */
  function Clamp(lo: int, hi: int, x: int): (r: int)
    requires lo <= hi
    ensures lo <= r <= hi
    ensures lo <= x <= hi ==> r == x
  {
    Min(hi, Max(lo, x))
  }
}

=== FILE: question_banks.dfy ===
/** The question-bank classifier (`constants/question-banks.ts`): which
    prepared list of questions a domain, level and interview type select.
    The lists' wording is not modelled; a bank is named by its key and
    carries its size. */
module QuestionBanks {
  import Text

  datatype LevelKey = Beginner | Intermediate | Senior

  datatype TypeKey = BehavioralQuestions | TechnicalQuestions

  /** The lists of `domainQuestionBanks`. */
  datatype Bank =
    | TechnicalBank(level: LevelKey, kind: TypeKey)
    | SalesBank
    | AnalyticsBank
    | MarketingBank
    | HrBank
    | FinanceBank
  {
    /** Number of questions in the list: five in each technical list, ten in
        each other domain's. */
    function Size(): nat {
      if TechnicalBank? then 5 else 10
    }
  }

  /** The level key: `senior` if the level mentions it, `beginner` for
      junior or entry levels, otherwise `intermediate`. The level is matched
      as given, without lower-casing. */
  function LevelKeyOf(level: string): (k: LevelKey)
    ensures k == Senior <==> Text.Contains(level, "senior")
    ensures k == Beginner <==> !Text.Contains(level, "senior") && (Text.Contains(level, "junior") || Text.Contains(level, "entry"))
  {
    if Text.Contains(level, "senior") then Senior
    else if Text.Contains(level, "junior") || Text.Contains(level, "entry") then Beginner
    else Intermediate
  }

  /** The type key: behavioral only for exactly `behavioral`. */
  function TypeKeyOf(interviewType: string): (k: TypeKey)
    ensures k == BehavioralQuestions <==> interviewType == "behavioral"
  {
    if interviewType == "behavioral" then BehavioralQuestions else TechnicalQuestions
  }

  predicate MentionsTechnical(d: string) {
    Text.Contains(d, "technical") || Text.Contains(d, "developer") || Text.Contains(d, "engineer")
  }

  predicate MentionsSales(d: string) {
    Text.Contains(d, "sales")
  }

  predicate MentionsAnalytics(d: string) {
    Text.Contains(d, "analytics") || Text.Contains(d, "data")
  }

  predicate MentionsMarketing(d: string) {
    Text.Contains(d, "marketing")
  }

  predicate MentionsHr(d: string) {
    Text.Contains(d, "hr") || Text.Contains(d, "human")
  }

  predicate MentionsFinance(d: string) {
    Text.Contains(d, "finance") || Text.Contains(d, "accounting")
  }

  /** `getQuestionsByDomain` (level defaults to `intermediate`, type to
      `mixed`). The lower-cased domain is tested against the technical words
      first, then sales, analytics, marketing, HR and finance; with no match
      the intermediate technical list is used. */
  function GetQuestionsByDomain(domain: string, level: string := "intermediate", interviewType: string := "mixed"): (b: Bank)
    ensures b.Size() > 0
    ensures MentionsTechnical(Text.ToLower(domain)) ==> b == TechnicalBank(LevelKeyOf(level), TypeKeyOf(interviewType))
    ensures b == SalesBank <==> !MentionsTechnical(Text.ToLower(domain)) && MentionsSales(Text.ToLower(domain))
    ensures b == AnalyticsBank <==> (!MentionsTechnical(Text.ToLower(domain)) && !MentionsSales(Text.ToLower(domain))
      && MentionsAnalytics(Text.ToLower(domain)))
    ensures b == MarketingBank <==> (!MentionsTechnical(Text.ToLower(domain)) && !MentionsSales(Text.ToLower(domain))
      && !MentionsAnalytics(Text.ToLower(domain)) && MentionsMarketing(Text.ToLower(domain)))
    ensures b == HrBank <==> (!MentionsTechnical(Text.ToLower(domain)) && !MentionsSales(Text.ToLower(domain))
      && !MentionsAnalytics(Text.ToLower(domain)) && !MentionsMarketing(Text.ToLower(domain)) && MentionsHr(Text.ToLower(domain)))
    ensures b == FinanceBank <==> (!MentionsTechnical(Text.ToLower(domain)) && !MentionsSales(Text.ToLower(domain))
      && !MentionsAnalytics(Text.ToLower(domain)) && !MentionsMarketing(Text.ToLower(domain)) && !MentionsHr(Text.ToLower(domain))
      && MentionsFinance(Text.ToLower(domain)))
    ensures b.TechnicalBank? && !MentionsTechnical(Text.ToLower(domain)) ==> b == TechnicalBank(Intermediate, TechnicalQuestions)
  {
    var d := Text.ToLower(domain);
    if MentionsTechnical(d) then TechnicalBank(LevelKeyOf(level), TypeKeyOf(interviewType))
    else if MentionsSales(d) then SalesBank
    else if MentionsAnalytics(d) then AnalyticsBank
    else if MentionsMarketing(d) then MarketingBank
    else if MentionsHr(d) then HrBank
    else if MentionsFinance(d) then FinanceBank
    else TechnicalBank(Intermediate, TechnicalQuestions)
  }

  /** The level is matched as given, without lower-casing: a level lacking
      the lower-case letters `s` (of `senior`), `j` (of `junior`) and `t`
      (of `entry`) cannot contain those words, so it falls through to the
      intermediate list. A capitalised `Senior` is one such level. */
  lemma LevelIsCaseSensitive(level: string)
    ensures 's' !in level && 'j' !in level && 't' !in level ==> LevelKeyOf(level) == Intermediate
    ensures LevelKeyOf("Senior") == Intermediate
  {
    Text.ContainsChars(level, "senior", 's');
    Text.ContainsChars(level, "junior", 'j');
    Text.ContainsChars(level, "entry", 't');
    Text.ContainsChars("Senior", "senior", 's');
    Text.ContainsChars("Senior", "junior", 'j');
    Text.ContainsChars("Senior", "entry", 't');
  }
}

=== FILE: records.dfy ===
/** The documents of the three store collections (`users`, `interviews`,
    `feedback`) and the two store primitives the actions use on them. Creation
    times (`createdAt`, an ISO-8601 string in the store) are milliseconds since
    the epoch, which is what `new Date(createdAt).getTime()` yields. */
module Records {
  import opened Wrappers

  datatype CategoryScore = CategoryScore(name: string, score: int, comment: string)

  datatype Feedback = Feedback(
    interviewId: string,
    userId: string,
    totalScore: int,
    categoryScores: seq<CategoryScore>,
    strengths: seq<string>,
    areasForImprovement: seq<string>,
    finalAssessment: string,
    createdAt: int)

  /** The `questions` field of an interview as stored: normally an array, but
      it holds whatever the generator's output parsed to, so it may be a string
      or absent/something else. */
  datatype QuestionsField = NoQuestions | QuestionList(items: seq<string>) | QuestionText(text: string)

  datatype Interview = Interview(
    role: string,
    level: string,
    interviewType: string,
    techstack: seq<string>,
    questions: QuestionsField,
    userId: string,
    finalized: bool,
    coverImage: string,
    createdAt: int)

  /** A `users` document. The two counters may be missing on accounts created
      before the counters existed. */
  datatype UserDoc = UserDoc(
    name: string,
    email: string,
    interviewCount: Option<int>,
    questionCount: Option<int>,
    createdAt: int,
    profileURL: Option<string>,
    resumeURL: Option<string>)

  /** A stored document: its id and its data. */
  datatype Doc<T> = Doc(id: string, data: T)

  /** A collection in store order. */
  type Collection<T> = seq<Doc<T>>

  /** `collection.doc(id).get()`: the data of the document with that id. */
  function Lookup<T>(c: Collection<T>, id: string): (r: Option<T>)
    ensures r.Some? <==> exists i :: 0 <= i < |c| && c[i].id == id
  {
    if |c| == 0 then None
    else if c[0].id == id then Some(c[0].data)
    else
      var r := Lookup(c[1..], id);
      assert forall i :: 1 <= i < |c| ==> c[i] == c[1..][i - 1];
      r
  }

  /** `collection.doc(id).set(v)`: overwrites the document with that id, or
      appends a new one. */
  function Put<T>(c: Collection<T>, id: string, v: T): (r: Collection<T>)
    ensures Lookup(r, id) == Some(v)
    ensures forall k :: k != id ==> Lookup(r, k) == Lookup(c, k)
    ensures |r| == |c| || |r| == |c| + 1
  {
    if |c| == 0 then [Doc(id, v)]
    else if c[0].id == id then [Doc(id, v)] + c[1..]
    else
      var r := [c[0]] + Put(c[1..], id, v);
      assert r[1..] == Put(c[1..], id, v);
      r
  }

  /** The elements of `s` that satisfy `p`, in order (`Array.prototype.filter`). */
  function Filter<T>(s: seq<T>, p: T -> bool): (r: seq<T>)
    ensures |r| <= |s|
    ensures forall i :: 0 <= i < |r| ==> p(r[i])
  {
    if |s| == 0 then []
    else
      var rest := Filter(s[1..], p);
      if p(s[0]) then [s[0]] + rest else rest
  }

  /** The filtered sequence holds exactly the elements of `s` that satisfy
      `p`, each as often as in `s`. */
  lemma {:induction false} FilterMembers<T>(s: seq<T>, p: T -> bool)
    ensures forall x :: x in Filter(s, p) <==> x in s && p(x)
    ensures multiset(Filter(s, p)) <= multiset(s)
    decreases |s|
  {
    if |s| > 0 {
      FilterMembers(s[1..], p);
      var head := if p(s[0]) then [s[0]] else [];
      assert Filter(s, p) == head + Filter(s[1..], p);
      assert s == [s[0]] + s[1..];
      assert multiset(s) == multiset{s[0]} + multiset(s[1..]);
      assert multiset(Filter(s, p)) == multiset(head) + multiset(Filter(s[1..], p));
      forall x ensures x in Filter(s, p) <==> x in s && p(x) {
        assert x in s <==> x == s[0] || x in s[1..];
      }
    }
  }

  /** Filtering distributes over concatenation. */
  lemma {:induction false} FilterAppend<T>(a: seq<T>, b: seq<T>, p: T -> bool)
    ensures Filter(a + b, p) == Filter(a, p) + Filter(b, p)
    decreases |a|
  {
    if |a| > 0 {
      assert (a + b)[1..] == a[1..] + b;
      FilterAppend(a[1..], b, p);
    } else {
      assert a + b == b;
    }
  }

  /** Filtering by two predicates that agree everywhere gives the same result. */
  lemma {:induction false} FilterExt<T>(s: seq<T>, p: T -> bool, q: T -> bool)
    requires forall x :: p(x) == q(x)
    ensures Filter(s, p) == Filter(s, q)
    decreases |s|
  {
    if |s| > 0 {
      FilterExt(s[1..], p, q);
    }
  }

  /** Filtering twice is filtering once by both predicates. */
  lemma {:induction false} FilterFilter<T>(s: seq<T>, p: T -> bool, q: T -> bool, both: T -> bool)
    requires forall x :: both(x) == (p(x) && q(x))
    ensures Filter(Filter(s, p), q) == Filter(s, both)
    decreases |s|
  {
    if |s| > 0 {
      FilterFilter(s[1..], p, q, both);
      var head := if p(s[0]) then [s[0]] else [];
      assert Filter(s, p) == head + Filter(s[1..], p);
      FilterAppend(head, Filter(s[1..], p), q);
    }
  }

  /** How often `x` occurs in a filtered sequence. */
  lemma {:induction false} FilterCount<T>(s: seq<T>, p: T -> bool, x: T)
    ensures multiset(Filter(s, p))[x] == if p(x) then multiset(s)[x] else 0
    decreases |s|
  {
    if |s| > 0 {
      assert s == [s[0]] + s[1..];
      FilterCount(s[1..], p, x);
    }
  }

  /** Filtering two rearrangements of the same elements gives rearrangements. */
  lemma FilterPermutation<T>(a: seq<T>, b: seq<T>, p: T -> bool)
    requires multiset(a) == multiset(b)
    ensures multiset(Filter(a, p)) == multiset(Filter(b, p))
  {
    FilterMembers(a, p);
    FilterMembers(b, p);
    forall x ensures multiset(Filter(a, p))[x] == multiset(Filter(b, p))[x] {
      FilterCount(a, p, x);
      FilterCount(b, p, x);
    }
    assert multiset(Filter(a, p)) == multiset(Filter(b, p));
  }

  /** `s.find(p)`: the first element satisfying `p`, if any. */
  function FindBy<T>(s: seq<T>, p: T -> bool): (r: Option<T>)
    ensures r.None? <==> forall i :: 0 <= i < |s| ==> !p(s[i])
    ensures r.Some? ==> exists i :: 0 <= i < |s| && s[i] == r.value && p(s[i]) && forall j :: 0 <= j < i ==> !p(s[j])
    decreases |s|
  {
    if |s| == 0 then None
    else if p(s[0]) then Some(s[0])
    else
      var r := FindBy(s[1..], p);
      assert forall i :: 1 <= i < |s| ==> s[i] == s[1..][i - 1];
      assert r.Some? ==> exists i :: 1 <= i < |s| && s[i] == r.value && p(s[i]) && forall j :: 0 <= j < i ==> !p(s[j]) by {
        if r.Some? {
          var i :| 0 <= i < |s[1..]| && s[1..][i] == r.value && p(s[1..][i]) && forall j :: 0 <= j < i ==> !p(s[1..][j]);
          assert forall j :: 1 <= j < i + 1 ==> !p(s[j]) by {
            forall j | 1 <= j < i + 1 ensures !p(s[j]) {
              assert s[j] == s[1..][j - 1];
            }
          }
        }
      }
      r
  }

  /** Searching a concatenation searches the second part only when the first has no match. */
  lemma {:induction false} FindByAppend<T>(a: seq<T>, b: seq<T>, p: T -> bool)
    ensures FindBy(a + b, p) == if FindBy(a, p).Some? then FindBy(a, p) else FindBy(b, p)
    decreases |a|
  {
    if |a| == 0 {
      assert a + b == b;
    } else {
      assert (a + b)[1..] == a[1..] + b;
      FindByAppend(a[1..], b, p);
    }
  }

  /** Searching the `p`-filtered sequence for `q` finds what searching the
      whole sequence for `p` and `q` together finds. */
  lemma {:induction false} FindFiltered<T>(s: seq<T>, p: T -> bool, q: T -> bool, pq: T -> bool)
    requires forall x :: pq(x) == (p(x) && q(x))
    ensures FindBy(Filter(s, p), q) == FindBy(s, pq)
    decreases |s|
  {
    if |s| > 0 {
      FindFiltered(s[1..], p, q, pq);
      if p(s[0]) {
        assert ([s[0]] + Filter(s[1..], p))[1..] == Filter(s[1..], p);
      }
    }
  }

  /** The present values of a sequence of options, in order. */
  function Present<T>(opts: seq<Option<T>>): (r: seq<T>)
    ensures |r| <= |opts|
    decreases |opts|
  {
    if |opts| == 0 then []
    else (if opts[0].Some? then [opts[0].value] else []) + Present(opts[1..])
  }

  /** `Present` holds exactly the values of the entries that are present. */
  lemma {:induction false} PresentMembers<T>(opts: seq<Option<T>>)
    ensures forall i :: 0 <= i < |Present(opts)| ==> Some(Present(opts)[i]) in opts
    ensures forall k :: 0 <= k < |opts| && opts[k].Some? ==> opts[k].value in Present(opts)
    decreases |opts|
  {
    if |opts| > 0 {
      PresentMembers(opts[1..]);
      var head := if opts[0].Some? then [opts[0].value] else [];
      var r := Present(opts);
      assert r == head + Present(opts[1..]);
      forall i | 0 <= i < |r| ensures Some(r[i]) in opts {
        if i >= |head| {
          assert r[i] == Present(opts[1..])[i - |head|];
          assert Some(r[i]) in opts[1..];
          var j :| 0 <= j < |opts[1..]| && opts[1..][j] == Some(r[i]);
          assert opts[j + 1] == Some(r[i]);
        }
      }
      forall k | 0 <= k < |opts| && opts[k].Some? ensures opts[k].value in r {
        if k > 0 {
          assert opts[1..][k - 1] == opts[k];
        }
      }
    }
  }

  /** When every present entry carries a key naming its position (`tag` of
      it), the key of position `k` occurs in `Present` exactly when position
      `k` holds a value (the second clause gives the converse), and then only
      as that value. */
  lemma PresentByKey<T>(opts: seq<Option<T>>, key: T -> int, tag: int -> int, k: int)
    requires 0 <= k < |opts|
    requires forall a, b :: 0 <= a < b < |opts| ==> tag(a) != tag(b)
    requires forall j :: 0 <= j < |opts| && opts[j].Some? ==> key(opts[j].value) == tag(j)
    ensures opts[k].Some? ==> exists i :: 0 <= i < |Present(opts)| && key(Present(opts)[i]) == tag(k)
    ensures forall i :: 0 <= i < |Present(opts)| && key(Present(opts)[i]) == tag(k) ==> Some(Present(opts)[i]) == opts[k]
  {
    var r := Present(opts);
    PresentMembers(opts);
    forall i | 0 <= i < |r| && key(r[i]) == tag(k) ensures Some(r[i]) == opts[k] {
      var j :| 0 <= j < |opts| && opts[j] == Some(r[i]);
      if j < k {
        assert false;
      } else if k < j {
        assert false;
      }
    }
    if opts[k].Some? {
      var v := opts[k].value;
      assert v in r;
      var i :| 0 <= i < |r| && r[i] == v;
      assert key(r[i]) == tag(k);
    }
  }

  /** Distinct keys among the present entries stay distinct in `Present`. */
  lemma {:induction false} PresentKeysDistinct<T, K>(opts: seq<Option<T>>, key: T -> K)
    requires forall a, b :: 0 <= a < b < |opts| && opts[a].Some? && opts[b].Some? ==> key(opts[a].value) != key(opts[b].value)
    ensures forall i, j :: 0 <= i < j < |Present(opts)| ==> key(Present(opts)[i]) != key(Present(opts)[j])
    decreases |opts|
  {
    if |opts| > 0 {
      var tail := opts[1..];
      var r := Present(opts);
      var head := if opts[0].Some? then [opts[0].value] else [];
      assert r == head + Present(tail);
      forall a, b | 0 <= a < b < |tail| && tail[a].Some? && tail[b].Some? ensures key(tail[a].value) != key(tail[b].value) {
        assert tail[a] == opts[a + 1] && tail[b] == opts[b + 1];
      }
      PresentKeysDistinct(tail, key);
      PresentMembers(tail);
      forall i, j | 0 <= i < j < |r| ensures key(r[i]) != key(r[j]) {
        assert r[j] == Present(tail)[j - |head|];
        if i >= |head| {
          assert r[i] == Present(tail)[i - |head|];
        } else {
          assert Some(r[j]) in tail;
          var k :| 0 <= k < |tail| && tail[k] == Some(r[j]);
          assert opts[k + 1] == Some(r[j]);
        }
      }
    }
  }

  /** Strictly decreasing keys among the present entries stay strictly
      decreasing in `Present`. */
  lemma {:induction false} PresentKeysDescending<T>(opts: seq<Option<T>>, key: T -> int)
    requires forall a, b :: 0 <= a < b < |opts| && opts[a].Some? && opts[b].Some? ==> key(opts[a].value) > key(opts[b].value)
    ensures forall i, j :: 0 <= i < j < |Present(opts)| ==> key(Present(opts)[i]) > key(Present(opts)[j])
    decreases |opts|
  {
    if |opts| > 0 {
      var tail := opts[1..];
      var r := Present(opts);
      var head := if opts[0].Some? then [opts[0].value] else [];
      assert r == head + Present(tail);
      forall a, b | 0 <= a < b < |tail| && tail[a].Some? && tail[b].Some? ensures key(tail[a].value) > key(tail[b].value) {
        assert tail[a] == opts[a + 1] && tail[b] == opts[b + 1];
      }
      PresentKeysDescending(tail, key);
      PresentMembers(tail);
      forall i, j | 0 <= i < j < |r| ensures key(r[i]) > key(r[j]) {
        assert r[j] == Present(tail)[j - |head|];
        if i >= |head| {
          assert r[i] == Present(tail)[i - |head|];
        } else {
          assert Some(r[j]) in tail;
          var k :| 0 <= k < |tail| && tail[k] == Some(r[j]);
          assert opts[k + 1] == Some(r[j]);
        }
      }
    }
  }

  /** `s.slice(0, end)`: a negative end counts back from the end. */
  function SliceTo<T>(s: seq<T>, end: int): (r: seq<T>)
    ensures end >= 0 ==> |r| == if end < |s| then end else |s|
    ensures end < 0 ==> |r| == if |s| + end > 0 then |s| + end else 0
    ensures r <= s
  {
    var n := if end < 0 then (if |s| + end > 0 then |s| + end else 0)
             else (if end < |s| then end else |s|);
    s[..n]
  }
}

=== FILE: sorting.dfy ===
/** `Array.prototype.sort` with a numeric comparator, as the actions use it to
    order documents by creation time. The engine's sort is stable, so the model
    is an insertion sort that places an element before the first element whose
    key is not smaller. */
module Sorting {
  import opened Records

  ghost predicate SortedBy<T>(s: seq<T>, key: T -> int) {
    forall i, j :: 0 <= i < j < |s| ==> key(s[i]) <= key(s[j])
  }

  ghost predicate SortedDescBy<T>(s: seq<T>, key: T -> int) {
    forall i, j :: 0 <= i < j < |s| ==> key(s[i]) >= key(s[j])
  }

  /** No two elements of `s` share an `f` value. */
  ghost predicate InjectiveOn<T, K>(s: seq<T>, f: T -> K) {
    forall i, j :: 0 <= i < j < |s| ==> f(s[i]) != f(s[j])
  }

  /** The test "has key `k`". */
  function HasKey<T>(key: T -> int, k: int): T -> bool {
    (x: T) => key(x) == k
  }

  /** The elements of `s` whose key is `k`, in their order in `s`. A sort is
      stable when it leaves each of these sequences as it was. */
  function WithKey<T>(s: seq<T>, key: T -> int, k: int): seq<T> {
    Filter(s, HasKey(key, k))
  }

  function Insert<T>(x: T, s: seq<T>, key: T -> int): (r: seq<T>)
    ensures multiset(r) == multiset(s) + multiset{x}
    ensures |r| == |s| + 1
  {
    if |s| == 0 then [x]
    else if key(x) <= key(s[0]) then [x] + s
    else
      assert s == [s[0]] + s[1..];
      [s[0]] + Insert(x, s[1..], key)
  }

  /** Inserting into a sorted sequence keeps it sorted. */
  lemma {:induction false} InsertSorted<T>(x: T, s: seq<T>, key: T -> int)
    requires SortedBy(s, key)
    ensures SortedBy(Insert(x, s, key), key)
    decreases |s|
  {
    if |s| > 0 && key(x) > key(s[0]) {
      var rest := Insert(x, s[1..], key);
      InsertSorted(x, s[1..], key);
      forall j | 0 <= j < |rest| ensures key(s[0]) <= key(rest[j]) {
        assert rest[j] in multiset(rest);
        if rest[j] != x {
          assert rest[j] in multiset(s[1..]);
          var k :| 0 <= k < |s[1..]| && s[1..][k] == rest[j];
          assert s[k + 1] == rest[j];
        }
      }
      var r := [s[0]] + rest;
      forall i, j | 0 <= i < j < |r| ensures key(r[i]) <= key(r[j]) {
        if i > 0 {
          assert r[i] == rest[i - 1] && r[j] == rest[j - 1];
        } else {
          assert r[j] == rest[j - 1];
        }
      }
    }
  }

  /** Insertion puts `x` before every element with the same key: it passes
      only elements with smaller keys. */
  lemma {:induction false} InsertStable<T>(x: T, s: seq<T>, key: T -> int, k: int)
    ensures WithKey(Insert(x, s, key), key, k) == (if key(x) == k then [x] else []) + WithKey(s, key, k)
    decreases |s|
  {
    var p := HasKey(key, k);
    if |s| > 0 && key(x) > key(s[0]) {
      InsertStable(x, s[1..], key, k);
      FilterAppend([s[0]], Insert(x, s[1..], key), p);
      assert s == [s[0]] + s[1..];
      FilterAppend([s[0]], s[1..], p);
      if key(s[0]) == k {
        assert Filter([s[0]], p) == [s[0]];
      } else {
        assert Filter([s[0]], p) == [];
      }
    } else if |s| > 0 {
      FilterAppend([x], s, p);
    }
  }

  /** Inserting the head of `s` into a stable sort of its tail gives a stable
      sort of `s`. */
  lemma InsertHeadStable<T>(s: seq<T>, rest: seq<T>, key: T -> int)
    requires |s| > 0
    requires forall k :: WithKey(rest, key, k) == WithKey(s[1..], key, k)
    ensures forall k :: WithKey(Insert(s[0], rest, key), key, k) == WithKey(s, key, k)
  {
    forall k ensures WithKey(Insert(s[0], rest, key), key, k) == WithKey(s, key, k) {
      InsertStable(s[0], rest, key, k);
      assert s == [s[0]] + s[1..];
      FilterAppend([s[0]], s[1..], HasKey(key, k));
    }
  }

  /** Ascending stable sort by `key` (`sort((a, b) => key(a) - key(b))`):
      elements with equal keys keep their order. */
  function SortBy<T>(s: seq<T>, key: T -> int): (r: seq<T>)
    ensures SortedBy(r, key)
    ensures multiset(r) == multiset(s)
    ensures |r| == |s|
    ensures forall k :: WithKey(r, key, k) == WithKey(s, key, k)
  {
    if |s| == 0 then []
    else
      assert s == [s[0]] + s[1..];
      var rest := SortBy(s[1..], key);
      InsertSorted(s[0], rest, key);
      InsertHeadStable(s, rest, key);
      Insert(s[0], rest, key)
  }

  /** Sorting by the negated key keeps the order of elements of equal key. */
  lemma NegatedStable<T>(s: seq<T>, r: seq<T>, key: T -> int, neg: T -> int)
    requires forall x :: neg(x) == -key(x)
    requires forall k :: WithKey(r, neg, k) == WithKey(s, neg, k)
    ensures forall k :: WithKey(r, key, k) == WithKey(s, key, k)
  {
    forall k ensures WithKey(r, key, k) == WithKey(s, key, k) {
      assert WithKey(r, neg, -k) == WithKey(s, neg, -k);
      FilterExt(r, HasKey(neg, -k), HasKey(key, k));
      FilterExt(s, HasKey(neg, -k), HasKey(key, k));
    }
  }

  /** Descending stable sort by `key` (`sort((a, b) => key(b) - key(a))`):
      elements with equal keys keep their order. */
  function SortDescBy<T>(s: seq<T>, key: T -> int): (r: seq<T>)
    ensures SortedDescBy(r, key)
    ensures multiset(r) == multiset(s)
    ensures |r| == |s|
    ensures forall k :: WithKey(r, key, k) == WithKey(s, key, k)
  {
    var neg := (x: T) => -key(x);
    var r := SortBy(s, neg);
    assert forall i, j :: 0 <= i < j < |r| ==> neg(r[i]) <= neg(r[j]);
    NegatedStable(s, r, key, neg);
    r
  }

  /** Sorting only rearranges: membership is unchanged. */
  lemma SortedMembers<T>(s: seq<T>, r: seq<T>)
    requires multiset(r) == multiset(s)
    ensures forall x :: x in r <==> x in s
  {
    forall x ensures x in r <==> x in s {
      assert x in r <==> x in multiset(r);
      assert x in s <==> x in multiset(s);
    }
  }

  /** An element of a descending sort is an element of the input, and conversely. */
  lemma SortDescMember<T>(s: seq<T>, key: T -> int, x: T)
    ensures x in SortDescBy(s, key) <==> x in s
  {
    var r := SortDescBy(s, key);
    assert x in r <==> x in multiset(r);
    assert x in s <==> x in multiset(s);
  }

  /** Every element of an insertion is the inserted element or came from `s`. */
  lemma InsertMembers<T>(x: T, s: seq<T>, key: T -> int)
    ensures forall y :: y in Insert(x, s, key) ==> y == x || y in s
  {
    forall y | y in Insert(x, s, key) ensures y == x || y in s {
      assert y in multiset(Insert(x, s, key));
    }
  }

  lemma {:induction false} InsertInjective<T, K>(x: T, s: seq<T>, key: T -> int, f: T -> K)
    requires InjectiveOn(s, f)
    requires forall y :: y in s ==> f(y) != f(x)
    ensures InjectiveOn(Insert(x, s, key), f)
    decreases |s|
  {
    if |s| > 0 && key(x) > key(s[0]) {
      var tail := s[1..];
      var rest := Insert(x, tail, key);
      assert InjectiveOn(tail, f) by {
        forall i, j | 0 <= i < j < |tail| ensures f(tail[i]) != f(tail[j]) {
          assert tail[i] == s[i + 1] && tail[j] == s[j + 1];
        }
      }
      InsertInjective(x, tail, key, f);
      InsertMembers(x, tail, key);
      forall y | y in tail ensures f(y) != f(s[0]) {
        var j :| 0 <= j < |tail| && tail[j] == y;
        assert s[j + 1] == y;
      }
      var r := [s[0]] + rest;
      forall i, j | 0 <= i < j < |r| ensures f(r[i]) != f(r[j]) {
        assert r[j] == rest[j - 1];
        if i > 0 {
          assert r[i] == rest[i - 1];
        } else {
          assert rest[j - 1] in rest;
        }
      }
    }
  }

  /** Sorting keeps elements with distinct `f` values distinct. */
  lemma {:induction false} SortInjective<T, K>(s: seq<T>, key: T -> int, f: T -> K)
    requires InjectiveOn(s, f)
    ensures InjectiveOn(SortBy(s, key), f)
    decreases |s|
  {
    if |s| > 0 {
      assert InjectiveOn(s[1..], f) by {
        forall i, j | 0 <= i < j < |s[1..]| ensures f(s[1..][i]) != f(s[1..][j]) {
          assert s[1..][i] == s[i + 1] && s[1..][j] == s[j + 1];
        }
      }
      SortInjective(s[1..], key, f);
      var sorted := SortBy(s[1..], key);
      forall y | y in sorted ensures f(y) != f(s[0]) {
        assert y in multiset(sorted);
        assert y in multiset(s[1..]);
        var j :| 0 <= j < |s[1..]| && s[1..][j] == y;
        assert s[j + 1] == y;
      }
      InsertInjective(s[0], sorted, key, f);
    }
  }

  /** The descending sort keeps elements with distinct `f` values distinct. */
  lemma SortDescInjective<T, K>(s: seq<T>, key: T -> int, f: T -> K)
    requires InjectiveOn(s, f)
    ensures InjectiveOn(SortDescBy(s, key), f)
  {
    SortInjective(s, (x: T) => -key(x), f);
  }

  /** A prefix `r` of a descending rearrangement `sorted` of `s`: its elements
      come from `s` in descending order, every element of `s` left out is no
      greater than any kept, and a full-length prefix keeps everything. */
  lemma DescendingPrefix<T>(s: seq<T>, sorted: seq<T>, key: T -> int, r: seq<T>)
    requires SortedDescBy(sorted, key) && multiset(sorted) == multiset(s)
    requires r <= sorted
    ensures forall i :: 0 <= i < |r| ==> r[i] in s
    ensures forall i, j :: 0 <= i < j < |r| ==> key(r[i]) >= key(r[j])
    ensures forall x :: x in s && x !in r ==> forall i :: 0 <= i < |r| ==> key(x) <= key(r[i])
    ensures |r| >= |s| ==> forall x :: x in s ==> x in r
  {
    assert |sorted| == |multiset(s)| == |s|;
    forall i | 0 <= i < |r| ensures r[i] in s {
      assert r[i] == sorted[i];
      assert r[i] in multiset(sorted);
    }
    forall i, j | 0 <= i < j < |r| ensures key(r[i]) >= key(r[j]) {
      assert r[i] == sorted[i] && r[j] == sorted[j];
    }
    forall x | x in s ensures x !in r ==> forall i :: 0 <= i < |r| ==> key(x) <= key(r[i]) {
      assert x in multiset(sorted);
      var k :| 0 <= k < |sorted| && sorted[k] == x;
      if k < |r| {
        assert r[k] == x;
      }
    }
    if |r| >= |s| {
      assert r == sorted;
      forall x | x in s ensures x in r {
        assert x in multiset(sorted);
      }
    }
  }

  /** The first element of a sorted rearrangement has the least key, the last the greatest. */
  lemma RearrangedEnds<T>(s: seq<T>, r: seq<T>, key: T -> int)
    requires |s| > 0
    requires SortedBy(r, key) && multiset(r) == multiset(s)
    ensures |r| == |s|
    ensures forall x :: x in s ==> key(r[0]) <= key(x) <= key(r[|s| - 1])
  {
    assert |r| == |multiset(r)| == |s|;
    forall x | x in s ensures key(r[0]) <= key(x) <= key(r[|s| - 1]) {
      assert x in multiset(r);
      var i :| 0 <= i < |r| && r[i] == x;
    }
  }

  /** The first element of an ascending sort has the least key, the last the greatest. */
  lemma SortedEnds<T>(s: seq<T>, key: T -> int)
    requires |s| > 0
    ensures forall x :: x in s ==> key(SortBy(s, key)[0]) <= key(x) <= key(SortBy(s, key)[|s| - 1])
  {
    RearrangedEnds(s, SortBy(s, key), key);
  }
}

=== FILE: synthetic.dfy ===
/** The synthetic-feedback endpoint (`app/api/feedback/synthetic/route.ts`):
    when a call ends without a graded transcript, it stores a feedback with a
    random score so that the user's progress still moves. The random numbers
    are parameters: `Math.floor(Math.random() * 20)` for the base score and
    `Math.floor(Math.random() * 10)` for each category, in the order the
    handler draws them. The clock, the id the store assigns and the fixed
    wording of the feedback are parameters too. The handler reads the clock
    twice, once for the interview id (`Date.now()`) and once for the creation
    time (`new Date()`); one `now` stands for both, so the id and the
    timestamp always agree here, while the two reads may differ by a few
    milliseconds in the handler. */
module Synthetic {
  import opened Wrappers
  import opened Numeric
  import opened Records
  import Text
  import Analytics

  /** The JSON body, when it parses: its `userId` and `estimatedQuestions`. */
  datatype SyntheticRequest = SyntheticRequest(userId: Option<string>, estimatedQuestions: Option<int>)

  /** The endpoint's responses: 200 with the new feedback's id and score,
      400 without a user, 500 when parsing or saving fails. */
  datatype SyntheticResponse =
    | Saved(feedbackId: string, score: int)
    | BadRequest(error: string)
    | ServerError(error: string)

  /** The fixed wording of a synthetic feedback: its strengths, its areas for
      improvement, and the assessment sentence around the question count. */
  datatype SyntheticCopy = SyntheticCopy(
    strengths: seq<string>,
    areasForImprovement: seq<string>,
    assessmentBefore: string,
    assessmentAfter: string)

  const UserIdRequired: string := "User ID is required"
  const SyntheticFailed: string := "Failed to create synthetic feedback"

  /** Lowest base score; the base is `75 + Math.floor(random * 20)`. */
  const BaseLow: int := 75
  const BaseSpread: int := 20
  /** Category draws are `Math.floor(random * 10)`; the offset subtracts 5. */
  const OffsetSpread: int := 10

  /** The integer draws come from `Math.random()` in `[0, 1)`: scaled by 20 or
      10 and floored they lie in `[0, 20)` and `[0, 10)`, and flooring
      `random * 10 - 5` is flooring `random * 10` and subtracting 5. */
  lemma DrawsFromRandom(random: real)
    requires 0.0 <= random < 1.0
    ensures 0 <= (random * 20.0).Floor < BaseSpread
    ensures 0 <= (random * 10.0).Floor < OffsetSpread
    ensures (random * 10.0 - 5.0).Floor == (random * 10.0).Floor - 5
  {
  }

  /** The draws a request consumes: the base draw, then one per category. */
  predicate ValidDraws(base: int, offsets: seq<int>) {
    0 <= base < BaseSpread
    && |offsets| == |Analytics.Categories|
    && forall k :: 0 <= k < |offsets| ==> 0 <= offsets[k] < OffsetSpread
  }

  /** The fixed comment of each category. */
  function CategoryComment(k: int): string {
    match k
    case 0 => "Demonstrated solid technical understanding"
    case 1 => "Clear and effective communication"
    case 2 => "Good analytical and problem-solving approach"
    case 3 => "Shows good alignment with role requirements"
    case _ => "Confident and clear in responses"
  }

  /** The five category scores around the base score, each moved by its
      draw minus 5 and clamped to `[60, 100]`. */
  function SyntheticCategories(score: int, offsets: seq<int>): (cs: seq<CategoryScore>)
    requires |offsets| == |Analytics.Categories|
    ensures |cs| == |Analytics.Categories|
    ensures forall k :: 0 <= k < |cs| ==> cs[k].name == Analytics.Categories[k]
    ensures forall k :: 0 <= k < |cs| ==> cs[k].score == Clamp(60, 100, score + offsets[k] - 5)
  {
    seq(|Analytics.Categories|, k requires 0 <= k < |Analytics.Categories| =>
      CategoryScore(Analytics.Categories[k], Clamp(60, 100, score + offsets[k] - 5), CategoryComment(k)))
  }

  /** How the assessment shows `estimatedQuestions`: its digits, or
      `undefined` when the body did not carry it. */
  function QuestionsText(estimated: Option<int>): string {
    if estimated.Some? then Text.IntToString(estimated.value) else "undefined"
  }

  /** The stored synthetic feedback. */
  function SyntheticFeedback(userId: string, estimated: Option<int>, base: int, offsets: seq<int>,
                             copy: SyntheticCopy, now: int): (f: Feedback)
    requires ValidDraws(base, offsets)
    ensures f.userId == userId && f.createdAt == now
    ensures f.interviewId == "generate-" + Text.IntToString(now)
    ensures BaseLow <= f.totalScore < BaseLow + BaseSpread
    ensures |f.categoryScores| == |Analytics.Categories|
    ensures forall k :: 0 <= k < |f.categoryScores| ==>
      f.categoryScores[k].name == Analytics.Categories[k]
      && f.totalScore - 5 <= f.categoryScores[k].score <= f.totalScore + 4
    ensures f.finalAssessment == copy.assessmentBefore + QuestionsText(estimated) + copy.assessmentAfter
  {
    var score := BaseLow + base;
    var cs := SyntheticCategories(score, offsets);
    forall k | 0 <= k < |cs| ensures score - 5 <= cs[k].score <= score + 4 {
      ClampIdle(score, offsets[k] - 5);
    }
    Feedback("generate-" + Text.IntToString(now), userId, score, cs, copy.strengths, copy.areasForImprovement,
             copy.assessmentBefore + QuestionsText(estimated) + copy.assessmentAfter, now)
  }

  /** The clamp to `[60, 100]` never changes a category score: a base in
      `[75, 94]` moved by `-5` to `4` stays in `[70, 98]`. */
  lemma ClampIdle(score: int, offset: int)
    requires BaseLow <= score < BaseLow + BaseSpread && -5 <= offset <= 4
    ensures Clamp(60, 100, score + offset) == score + offset
    ensures 70 <= score + offset <= 98
  {
  }

  /** `POST /api/feedback/synthetic`. `request` is `None` when the body is
      not JSON; `freshId` is the id `add` assigns; `writeOk` whether it
      succeeds. */
  function PostSynthetic(feedback: Collection<Feedback>, request: Option<SyntheticRequest>, base: int, offsets: seq<int>,
                         copy: SyntheticCopy, now: int, freshId: string, writeOk: bool): (r: (SyntheticResponse, Collection<Feedback>))
    requires ValidDraws(base, offsets)
    ensures request.None? ==> r == (ServerError(SyntheticFailed), feedback)
    ensures request.Some? && (request.value.userId.None? || request.value.userId.value == "") ==> r == (BadRequest(UserIdRequired), feedback)
    ensures r.0.Saved? <==> request.Some? && request.value.userId.Some? && request.value.userId.value != "" && writeOk
    ensures !r.0.Saved? ==> r.1 == feedback
    ensures r.0.Saved? ==> (r.0.feedbackId == freshId
      && r.1 == feedback + [Doc(freshId, SyntheticFeedback(request.value.userId.value, request.value.estimatedQuestions, base, offsets, copy, now))]
      && r.0.score == r.1[|feedback|].data.totalScore)
  {
    if request.None? then (ServerError(SyntheticFailed), feedback)
    else if request.value.userId.None? || request.value.userId.value == "" then (BadRequest(UserIdRequired), feedback)
    else if !writeOk then (ServerError(SyntheticFailed), feedback)
    else
      var f := SyntheticFeedback(request.value.userId.value, request.value.estimatedQuestions, base, offsets, copy, now);
      (Saved(freshId, f.totalScore), feedback + [Doc(freshId, f)])
  }

  /** A saved synthetic feedback scores between 75 and 94, with every
      category between 70 and 98. */
  lemma SyntheticScoreRange(feedback: Collection<Feedback>, request: Option<SyntheticRequest>, base: int, offsets: seq<int>,
                            copy: SyntheticCopy, now: int, freshId: string, writeOk: bool)
    requires ValidDraws(base, offsets)
    requires PostSynthetic(feedback, request, base, offsets, copy, now, freshId, writeOk).0.Saved?
    ensures 75 <= PostSynthetic(feedback, request, base, offsets, copy, now, freshId, writeOk).0.score <= 94
    ensures forall c :: (c in PostSynthetic(feedback, request, base, offsets, copy, now, freshId, writeOk).1[|feedback|].data.categoryScores
      ==> 70 <= c.score <= 98)
  {
    var f := PostSynthetic(feedback, request, base, offsets, copy, now, freshId, writeOk).1[|feedback|].data;
    forall c | c in f.categoryScores ensures 70 <= c.score <= 98 {
      var k :| 0 <= k < |f.categoryScores| && f.categoryScores[k] == c;
    }
  }
}

=== FILE: text.dfy ===
/** String operations of the JavaScript runtime that the application relies on:
    `includes`, `toLowerCase`, `trim`, `split`, `join` and number-to-text
    conversion of integers. */
module Text {

  /** JavaScript's WhiteSpace and LineTerminator characters: the set
      `String.prototype.trim` removes from both ends. */
  predicate IsWhitespace(c: char) {
    || c == ' ' || c == '\t' || c == '\n' || c == '\r'
    || c == '\U{000B}' || c == '\U{000C}' || c == '\U{00A0}' || c == '\U{1680}'
    || ('\U{2000}' <= c <= '\U{200A}')
    || c == '\U{2028}' || c == '\U{2029}' || c == '\U{202F}' || c == '\U{205F}'
    || c == '\U{3000}' || c == '\U{FEFF}'
  }

  predicate IsUpper(c: char) {
    'A' <= c <= 'Z'
  }

  function LowerChar(c: char): (r: char)
    ensures !IsUpper(r)
    ensures IsUpper(c) ==> r as int == c as int + 32
    ensures !IsUpper(c) ==> r == c
  {
    if IsUpper(c) then (c as int - 'A' as int + 'a' as int) as char else c
  }

  /** `toLowerCase` on the ASCII letters. */
  function ToLower(s: string): (r: string)
    ensures |r| == |s|
    ensures forall i :: 0 <= i < |r| ==> !IsUpper(r[i])
    ensures forall i :: 0 <= i < |r| && !IsUpper(s[i]) ==> r[i] == s[i]
  {
    seq(|s|, i requires 0 <= i < |s| => LowerChar(s[i]))
  }

  /** Lower-casing twice is lower-casing once. */
  lemma ToLowerIdempotent(s: string)
    ensures ToLower(ToLower(s)) == ToLower(s)
  {
  }

  /** `s.includes(sub)`: `sub` occurs in `s` at some position. */
  predicate Contains(s: string, sub: string)
    decreases |s|
  {
    |sub| <= |s| && (s[..|sub|] == sub || (0 < |s| && Contains(s[1..], sub)))
  }

  /** `sub` occurs in `s` starting at position `i`. */
  predicate OccursAt(s: string, sub: string, i: int) {
    0 <= i && i + |sub| <= |s| && s[i..i + |sub|] == sub
  }

  /** `Contains` agrees with the positional definition of an occurrence. */
  lemma {:induction false} ContainsIff(s: string, sub: string)
    ensures Contains(s, sub) <==> exists i :: OccursAt(s, sub, i)
    decreases |s|
  {
    if Contains(s, sub) {
      if s[..|sub|] == sub {
        assert OccursAt(s, sub, 0);
      } else {
        ContainsIff(s[1..], sub);
        var i :| OccursAt(s[1..], sub, i);
        assert s[i + 1..i + 1 + |sub|] == s[1..][i..i + |sub|];
        assert OccursAt(s, sub, i + 1);
      }
    }
    if exists i :: OccursAt(s, sub, i) {
      var i :| OccursAt(s, sub, i);
      if i == 0 {
        assert s[..|sub|] == sub;
      } else {
        assert s[1..][i - 1..i - 1 + |sub|] == s[i..i + |sub|];
        assert OccursAt(s[1..], sub, i - 1);
        ContainsIff(s[1..], sub);
      }
    }
  }

  /** A string holds every character of anything it contains. */
  lemma ContainsChars(s: string, sub: string, c: char)
    requires c in sub
    ensures Contains(s, sub) ==> c in s
  {
    ContainsIff(s, sub);
    if Contains(s, sub) {
      var i :| OccursAt(s, sub, i);
      var k :| 0 <= k < |sub| && sub[k] == c;
      assert s[i + k] == sub[k];
    }
  }

  /** An occurrence survives appending text on either side. */
  lemma ContainsInContext(pre: string, s: string, post: string, sub: string)
    requires Contains(s, sub)
    ensures Contains(pre + s + post, sub)
  {
    ContainsIff(s, sub);
    var i :| OccursAt(s, sub, i);
    var t := pre + s + post;
    assert t[|pre| + i..|pre| + i + |sub|] == s[i..i + |sub|];
    assert OccursAt(t, sub, |pre| + i);
    ContainsIff(t, sub);
  }

  /** Containment is transitive. */
  lemma ContainsTransitive(a: string, b: string, c: string)
    requires Contains(a, b) && Contains(b, c)
    ensures Contains(a, c)
  {
    ContainsIff(a, b);
    ContainsIff(b, c);
    var i :| OccursAt(a, b, i);
    var j :| OccursAt(b, c, j);
    var window := a[i..i + |b|];
    assert window == b;
    assert forall k :: 0 <= k < |c| ==> a[i + j + k] == window[j + k] == c[k];
    assert a[i + j..i + j + |c|] == c;
    assert OccursAt(a, c, i + j);
    ContainsIff(a, c);
  }

  /** Every string contains itself. */
  lemma ContainsSelf(s: string)
    ensures Contains(s, s)
  {
    assert s[..|s|] == s;
  }

  /** `parts.join(sep)`. */
  function Join(parts: seq<string>, sep: string): string
  {
    if |parts| == 0 then ""
    else if |parts| == 1 then parts[0]
    else parts[0] + sep + Join(parts[1..], sep)
  }

  /** Each item with a leading `- ` (`items.map((x) => `- ${x}`)`). */
  function Bulleted(items: seq<string>): (r: seq<string>)
    ensures |r| == |items|
    ensures forall i :: 0 <= i < |r| ==> |r[i]| == |items[i]| + 2 && r[i][..2] == "- " && r[i][2..] == items[i]
  {
    seq(|items|, i requires 0 <= i < |items| => "- " + items[i])
  }

  /** A bulleted list, one item per line. */
  function Bullets(items: seq<string>): string {
    Join(Bulleted(items), "\n")
  }

  /** Splitting a bulleted list at the line breaks gives back one line per
      item, the item behind its bullet, provided no item spans lines; an
      empty list renders as the empty text. */
  lemma BulletsLines(items: seq<string>)
    requires forall i :: 0 <= i < |items| ==> '\n' !in items[i]
    ensures |items| == 0 ==> Bullets(items) == ""
    ensures |items| > 0 ==> Split(Bullets(items), '\n') == Bulleted(items)
    ensures |items| > 0 ==> forall i :: 0 <= i < |items| ==> Split(Bullets(items), '\n')[i][2..] == items[i]
  {
    if |items| > 0 {
      var b := Bulleted(items);
      forall i | 0 <= i < |b| ensures '\n' !in b[i] {
        assert b[i] == "- " + items[i];
      }
      SplitJoin(b, '\n');
    }
  }

  /** The parts written one after another (a template literal's pieces). */
  function Concat(parts: seq<string>): string {
    if |parts| == 0 then "" else parts[0] + Concat(parts[1..])
  }

  lemma {:induction false} ConcatAppend(a: seq<string>, b: seq<string>)
    ensures Concat(a + b) == Concat(a) + Concat(b)
    decreases |a|
  {
    if |a| == 0 {
      assert a + b == b;
    } else {
      assert (a + b)[1..] == a[1..] + b;
      ConcatAppend(a[1..], b);
    }
  }

  /** The text begins with the first part and contains every part. */
  lemma ConcatHas(parts: seq<string>, k: nat)
    requires k < |parts|
    ensures |parts[0]| <= |Concat(parts)| && Concat(parts)[..|parts[0]|] == parts[0]
    ensures Contains(Concat(parts), parts[k])
  {
    assert parts == parts[..k] + [parts[k]] + parts[k + 1..];
    ConcatAppend(parts[..k] + [parts[k]], parts[k + 1..]);
    ConcatAppend(parts[..k], [parts[k]]);
    assert Concat([parts[k]]) == parts[k];
    ContainsSelf(parts[k]);
    ContainsInContext(Concat(parts[..k]), parts[k], Concat(parts[k + 1..]), parts[k]);
  }

  /** Number of occurrences of `c` in `s`. */
  function Occurrences(s: string, c: char): nat
  {
    if |s| == 0 then 0 else (if s[0] == c then 1 else 0) + Occurrences(s[1..], c)
  }

  /** `s.split(sep)` for a one-character separator: the pieces between the
      separators, so joining them back with the separator gives `s` again. */
  function Split(s: string, sep: char): (r: seq<string>)
    ensures |r| == Occurrences(s, sep) + 1
    ensures Join(r, [sep]) == s
    ensures forall i :: 0 <= i < |r| ==> sep !in r[i]
    decreases |s|
  {
    if |s| == 0 then [""]
    else if s[0] == sep then [""] + Split(s[1..], sep)
    else
      var rest := Split(s[1..], sep);
      assert Join(rest, [sep]) == s[1..];
      var r := [[s[0]] + rest[0]] + rest[1..];
      assert Join(r, [sep]) == [s[0]] + Join(rest, [sep]) by {
        if |rest| > 1 {
          assert r[1..] == rest[1..];
        }
      }
      assert [s[0]] + s[1..] == s;
      r
  }

  /** A piece free of the separator comes back whole when split. */
  lemma {:induction false} SplitNoSeparator(p: string, sep: char)
    requires sep !in p
    ensures Split(p, sep) == [p]
    decreases |p|
  {
    if |p| > 0 {
      SplitNoSeparator(p[1..], sep);
      assert [p[0]] + p[1..] == p;
    }
  }

  /** Splitting a separator-free piece, a separator and more text yields the
      piece followed by the pieces of the rest. */
  lemma {:induction false} SplitAfterPiece(p: string, rest: string, sep: char)
    requires sep !in p
    ensures Split(p + [sep] + rest, sep) == [p] + Split(rest, sep)
    decreases |p|
  {
    var s := p + [sep] + rest;
    if |p| == 0 {
      assert s == [sep] + rest;
      assert s[1..] == rest;
    } else {
      assert s[0] == p[0];
      assert s[1..] == p[1..] + [sep] + rest;
      SplitAfterPiece(p[1..], rest, sep);
      assert [p[0]] + p[1..] == p;
    }
  }

  /** Joining separator-free pieces and splitting the result gives the pieces
      back: `Split` inverts `Join`. */
  lemma {:induction false} SplitJoin(parts: seq<string>, sep: char)
    requires |parts| > 0
    requires forall i :: 0 <= i < |parts| ==> sep !in parts[i]
    ensures Split(Join(parts, [sep]), sep) == parts
    decreases |parts|
  {
    if |parts| == 1 {
      SplitNoSeparator(parts[0], sep);
    } else {
      SplitJoin(parts[1..], sep);
      SplitAfterPiece(parts[0], Join(parts[1..], [sep]), sep);
      assert [parts[0]] + parts[1..] == parts;
    }
  }

  /** Number of whitespace characters at the start of `s`. */
  function LeadingWhitespace(s: string): (n: nat)
    ensures n <= |s|
    ensures forall k :: 0 <= k < n ==> IsWhitespace(s[k])
    ensures n < |s| ==> !IsWhitespace(s[n])
    decreases |s|
  {
    if |s| > 0 && IsWhitespace(s[0]) then 1 + LeadingWhitespace(s[1..]) else 0
  }

  /** Number of whitespace characters at the end of `s`. */
  function TrailingWhitespace(s: string): (n: nat)
    ensures n <= |s|
    ensures forall k :: |s| - n <= k < |s| ==> IsWhitespace(s[k])
    ensures n < |s| ==> !IsWhitespace(s[|s| - 1 - n])
    decreases |s|
  {
    if |s| > 0 && IsWhitespace(s[|s| - 1]) then 1 + TrailingWhitespace(s[..|s| - 1]) else 0
  }

  /** `s.trim()`: the longest infix of `s` that neither starts nor ends with
      whitespace, obtained by removing only whitespace. */
  function Trim(s: string): (r: string)
    ensures |r| > 0 ==> !IsWhitespace(r[0]) && !IsWhitespace(r[|r| - 1])
    ensures LeadingWhitespace(s) + |r| <= |s|
    ensures r == s[LeadingWhitespace(s)..LeadingWhitespace(s) + |r|]
    ensures forall k :: LeadingWhitespace(s) + |r| <= k < |s| ==> IsWhitespace(s[k])
  {
    var a := LeadingWhitespace(s);
    if a == |s| then ""
    else
      var b := TrailingWhitespace(s);
      assert b < |s| - a by {
        assert !IsWhitespace(s[a]);
      }
      s[a..|s| - b]
  }

  /** Trimming twice is trimming once. */
  lemma TrimIdempotent(s: string)
    ensures Trim(Trim(s)) == Trim(s)
  {
    var t := Trim(s);
    if |t| > 0 {
      assert LeadingWhitespace(t) == 0;
      assert TrailingWhitespace(t) == 0;
      assert t[0..|t| - 0] == t;
    }
  }

  /** Neither starts nor ends with whitespace. */
  predicate IsTrimmed(s: string) {
    |s| == 0 || (!IsWhitespace(s[0]) && !IsWhitespace(s[|s| - 1]))
  }

  /** A trimmed string is trimmed and holds no character `s` lacks. */
  lemma TrimShape(s: string, c: char)
    ensures IsTrimmed(Trim(s))
    ensures c !in s ==> c !in Trim(s)
  {
    var t := Trim(s);
    var a := LeadingWhitespace(s);
    if c in t {
      var k :| 0 <= k < |t| && t[k] == c;
      assert s[a + k] == c;
    }
  }

  /** Trimming changes nothing when there is nothing to trim. */
  lemma TrimTrimmed(s: string)
    requires IsTrimmed(s)
    ensures Trim(s) == s
  {
    if |s| > 0 {
      assert LeadingWhitespace(s) == 0;
      assert TrailingWhitespace(s) == 0;
      assert s[0..|s| - 0] == s;
    }
  }

  function DigitChar(d: nat): (c: char)
    requires d < 10
    ensures '0' <= c <= '9' && c as int - '0' as int == d
  {
    (d + '0' as int) as char
  }

  predicate IsDigits(s: string) {
    forall i :: 0 <= i < |s| ==> '0' <= s[i] <= '9'
  }

  /** The number a decimal digit string denotes. */
  function DigitsValue(s: string): nat
    requires IsDigits(s)
  {
    if |s| == 0 then 0 else 10 * DigitsValue(s[..|s| - 1]) + (s[|s| - 1] as int - '0' as int)
  }

  /** Decimal rendering of a non-negative integer (JavaScript's `${n}`): digits
      only, no leading zero, denoting `n`. */
  function NatToString(n: nat): (r: string)
    ensures |r| >= 1 && IsDigits(r)
    ensures r[0] == '0' ==> |r| == 1
    ensures DigitsValue(r) == n
    decreases n
  {
    if n < 10 then [DigitChar(n)]
    else
      var r := NatToString(n / 10) + [DigitChar(n % 10)];
      assert r[..|r| - 1] == NatToString(n / 10);
      r
  }

  /** Decimal rendering of an integer, with a leading `-` when negative. */
  function IntToString(n: int): string
  {
    if n < 0 then "-" + NatToString(-n) else NatToString(n)
  }
}

=== FILE: user_stats.dfy ===
/** The per-user counter store (`lib/actions/user-stats.action.ts`): each action
    takes the `users` collection and returns its `{ success, error? }` outcome
    together with the collection after its single write (or unchanged when it
    does not write). Concurrent read-modify-write races are not modelled: each
    action is one sequential step. */
module UserStats {
  import opened Wrappers
  import opened Records

  type Users = map<string, UserDoc>

  /** `{ success: true }` or `{ success: false, error }`. */
  datatype Outcome = Ok | Err(message: string)

  /** What `getUserStats` returns for an existing user. */
  datatype Counts = Counts(interviewCount: int, questionCount: int)

  const UserNotFound: string := "User not found"
  const ResetFailed: string := "Failed to reset user stats"
  const MigrateFailed: string := "Failed to migrate user stats"

  /** A stored counter read with `|| 0`: an absent counter reads as 0. */
  function OrZero(c: Option<int>): int {
    c.GetOr(0)
  }

  /** Adds one to the user's interview counter; a missing user is reported and
      nothing is written. */
  function IncrementUserInterviewCount(users: Users, userId: string): (r: (Outcome, Users))
    ensures userId !in users ==> r == (Err(UserNotFound), users)
    ensures userId in users ==> r.0 == Ok
    ensures userId in users ==> userId in r.1
    ensures userId in users ==> r.1[userId].interviewCount == Some(OrZero(users[userId].interviewCount) + 1)
    ensures userId in users ==> r.1[userId].(interviewCount := users[userId].interviewCount) == users[userId]
    ensures r.1.Keys == users.Keys
    ensures forall u :: u in users && u != userId ==> r.1[u] == users[u]
  {
    if userId !in users then (Err(UserNotFound), users)
    else
      var doc := users[userId];
      (Ok, users[userId := doc.(interviewCount := Some(OrZero(doc.interviewCount) + 1))])
  }

  /** Adds `questionCount` (1 when not given) to the user's question counter;
      a missing user is reported and nothing is written. */
  function IncrementUserQuestionCount(users: Users, userId: string, questionCount: int := 1): (r: (Outcome, Users))
    ensures userId !in users ==> r == (Err(UserNotFound), users)
    ensures userId in users ==> r.0 == Ok
    ensures userId in users ==> userId in r.1
    ensures userId in users ==> r.1[userId].questionCount == Some(OrZero(users[userId].questionCount) + questionCount)
    ensures userId in users ==> r.1[userId].(questionCount := users[userId].questionCount) == users[userId]
    ensures r.1.Keys == users.Keys
    ensures forall u :: u in users && u != userId ==> r.1[u] == users[u]
  {
    if userId !in users then (Err(UserNotFound), users)
    else
      var doc := users[userId];
      (Ok, users[userId := doc.(questionCount := Some(OrZero(doc.questionCount) + questionCount))])
  }

  /** Both counters of an existing user, absent ones read as 0; `null` for a
      missing user. */
  function GetUserStats(users: Users, userId: string): (r: Option<Counts>)
    ensures r.None? <==> userId !in users
    ensures r.Some? ==> r.value.interviewCount == users[userId].interviewCount.GetOr(0)
    ensures r.Some? ==> r.value.questionCount == users[userId].questionCount.GetOr(0)
  {
    if userId !in users then None
    else Some(Counts(OrZero(users[userId].interviewCount), OrZero(users[userId].questionCount)))
  }

  /** Sets each absent counter to 0 and keeps present ones; a missing user is
      reported. */
  function InitializeUserStats(users: Users, userId: string): (r: (Outcome, Users))
    ensures userId !in users ==> r == (Err(UserNotFound), users)
    ensures userId in users ==> r.0 == Ok
    ensures userId in users ==> userId in r.1
    ensures userId in users ==> r.1[userId].interviewCount.Some?
    ensures userId in users ==> r.1[userId].questionCount.Some?
    ensures userId in users ==> (users[userId].interviewCount.Some? ==> r.1[userId].interviewCount == users[userId].interviewCount)
    ensures userId in users ==> (users[userId].questionCount.Some? ==> r.1[userId].questionCount == users[userId].questionCount)
    ensures userId in users ==> r.1[userId].(interviewCount := users[userId].interviewCount, questionCount := users[userId].questionCount) == users[userId]
    ensures r.1.Keys == users.Keys
    ensures forall u :: u in users && u != userId ==> r.1[u] == users[u]
  {
    if userId !in users then (Err(UserNotFound), users)
    else
      var doc := users[userId];
      var ic := if doc.interviewCount.None? then Some(0) else doc.interviewCount;
      var qc := if doc.questionCount.None? then Some(0) else doc.questionCount;
      (Ok, users[userId := doc.(interviewCount := ic, questionCount := qc)])
  }

  /** Sets both counters to 0. The store's `update` fails on a missing
      document, which the action reports with its catch-all message. */
  function ResetUserStats(users: Users, userId: string): (r: (Outcome, Users))
    ensures userId !in users ==> r == (Err(ResetFailed), users)
    ensures userId in users ==> r.0 == Ok
    ensures userId in users ==> userId in r.1
    ensures userId in users ==> r.1[userId].interviewCount == Some(0)
    ensures userId in users ==> r.1[userId].questionCount == Some(0)
    ensures userId in users ==> r.1[userId].(interviewCount := users[userId].interviewCount, questionCount := users[userId].questionCount) == users[userId]
    ensures r.1.Keys == users.Keys
    ensures forall u :: u in users && u != userId ==> r.1[u] == users[u]
  {
    if userId !in users then (Err(ResetFailed), users)
    else (Ok, users[userId := users[userId].(interviewCount := Some(0), questionCount := Some(0))])
  }

  /** Questions an interview contributes to a recount: only an array counts. */
  function ListedQuestions(iv: Interview): nat {
    if iv.questions.QuestionList? then |iv.questions.items| else 0
  }

  /** The `forEach` accumulation of `ListedQuestions` over a query result. */
  function QuestionTotal(docs: Collection<Interview>): nat
  {
    if |docs| == 0 then 0 else QuestionTotal(docs[..|docs| - 1]) + ListedQuestions(docs[|docs| - 1].data)
  }

  /** Documents of the `interviews` collection owned by `userId`, in store order
      (the `where("userId", "==", userId)` query). */
  function OwnedBy(interviews: Collection<Interview>, userId: string): Collection<Interview>
  {
    Filter(interviews, (d: Doc<Interview>) => d.data.userId == userId)
  }

  /** Number of interviews of `userId`, counted document by document. */
  ghost function OwnedCount(interviews: Collection<Interview>, userId: string): nat
  {
    if |interviews| == 0 then 0
    else (if interviews[0].data.userId == userId then 1 else 0) + OwnedCount(interviews[1..], userId)
  }

  /** Array questions over the interviews of `userId`, counted document by document. */
  ghost function OwnedQuestions(interviews: Collection<Interview>, userId: string): nat
  {
    if |interviews| == 0 then 0
    else
      var here := if interviews[0].data.userId == userId then ListedQuestions(interviews[0].data) else 0;
      here + OwnedQuestions(interviews[1..], userId)
  }

  lemma {:induction false} QuestionTotalPrepend(d: Doc<Interview>, docs: Collection<Interview>)
    ensures QuestionTotal([d] + docs) == ListedQuestions(d.data) + QuestionTotal(docs)
    decreases |docs|
  {
    if |docs| > 0 {
      assert ([d] + docs)[..|[d] + docs| - 1] == [d] + docs[..|docs| - 1];
      QuestionTotalPrepend(d, docs[..|docs| - 1]);
    }
  }

  /** The query-and-accumulate recount agrees with the document-by-document count. */
  lemma {:induction false} OwnedByCounts(interviews: Collection<Interview>, userId: string)
    ensures |OwnedBy(interviews, userId)| == OwnedCount(interviews, userId)
    ensures QuestionTotal(OwnedBy(interviews, userId)) == OwnedQuestions(interviews, userId)
    decreases |interviews|
  {
    if |interviews| > 0 {
      var p := (d: Doc<Interview>) => d.data.userId == userId;
      FilterAppend([interviews[0]], interviews[1..], p);
      assert [interviews[0]] + interviews[1..] == interviews;
      OwnedByCounts(interviews[1..], userId);
      if interviews[0].data.userId == userId {
        QuestionTotalPrepend(interviews[0], OwnedBy(interviews[1..], userId));
      }
    }
  }

  /** The user document with both counters recomputed from the interviews. */
  function Recounted(doc: UserDoc, interviews: Collection<Interview>, userId: string): UserDoc
  {
    var owned := OwnedBy(interviews, userId);
    doc.(interviewCount := Some(|owned|), questionCount := Some(QuestionTotal(owned)))
  }

  /** Recomputes both counters from the user's interviews and overwrites them
      unconditionally; the `update` fails on a missing user document. */
  function MigrateUserStats(users: Users, interviews: Collection<Interview>, userId: string): (r: (Outcome, Users))
    ensures userId !in users ==> r == (Err(MigrateFailed), users)
    ensures userId in users ==> r.0 == Ok
    ensures userId in users ==> userId in r.1
    ensures userId in users ==> r.1[userId].interviewCount == Some(OwnedCount(interviews, userId))
    ensures userId in users ==> r.1[userId].questionCount == Some(OwnedQuestions(interviews, userId))
    ensures userId in users ==> r.1[userId].(interviewCount := users[userId].interviewCount, questionCount := users[userId].questionCount) == users[userId]
    ensures r.1.Keys == users.Keys
    ensures forall u :: u in users && u != userId ==> r.1[u] == users[u]
  {
    OwnedByCounts(interviews, userId);
    if userId !in users then (Err(MigrateFailed), users)
    else (Ok, users[userId := Recounted(users[userId], interviews, userId)])
  }

  /** A user document that lacks either counter. */
  predicate LacksStats(doc: UserDoc) {
    doc.interviewCount.None? || doc.questionCount.None?
  }

  /** The document a user has after `migrateAllUserStats`. */
  function AfterMigrateAll(users: Users, interviews: Collection<Interview>, u: string): UserDoc
    requires u in users
  {
    if LacksStats(users[u]) then Recounted(users[u], interviews, u) else users[u]
  }

  /** Users of `users` outside `pending` that lack a counter. */
  ghost function MigratedSoFar(users: Users, pending: set<string>): set<string>
  {
    set v | v in users && v !in pending && LacksStats(users[v])
  }

  /** Taking one more user out of `pending` adds it to the migrated set exactly
      when it lacks a counter. */
  lemma MigratedSoFarStep(users: Users, pending: set<string>, u: string)
    requires u in pending && u in users
    ensures |MigratedSoFar(users, pending - {u})|
      == |MigratedSoFar(users, pending)| + (if LacksStats(users[u]) then 1 else 0)
  {
    if LacksStats(users[u]) {
      assert MigratedSoFar(users, pending - {u}) == MigratedSoFar(users, pending) + {u};
    } else {
      assert MigratedSoFar(users, pending - {u}) == MigratedSoFar(users, pending);
    }
  }

  const MigrateAllFailed: string := "Failed to migrate user stats"

  /** Runs `MigrateUserStats` for every user lacking a counter, in any order,
      and counts those calls whatever their outcome. Each migration touches only
      its own document and reads only the interviews, so the order does not
      matter. When the users cannot be read (`readOk` false) nothing is
      migrated and the failure is reported with a count of 0. */
  method MigrateAllUserStats(users: Users, interviews: Collection<Interview>, readOk: bool)
    returns (success: bool, migratedCount: nat, error: Option<string>, result: Users)
    ensures success == readOk
    ensures !readOk ==> migratedCount == 0 && error == Some(MigrateAllFailed) && result == users
    ensures readOk ==> error.None? && migratedCount == |set u | u in users && LacksStats(users[u])|
    ensures result.Keys == users.Keys
    ensures readOk ==> forall u :: u in users && LacksStats(users[u]) ==>
      result[u] == Recounted(users[u], interviews, u)
    ensures forall u :: u in users && !LacksStats(users[u]) ==> result[u] == users[u]
  {
    if !readOk {
      return false, 0, Some(MigrateAllFailed), users;
    }
    success, error := true, None;
    var pending := users.Keys;
    result := users;
    migratedCount := 0;
    while pending != {}
      invariant pending <= users.Keys
      invariant result.Keys == users.Keys
      invariant forall u :: u in users ==>
        result[u] == if u in pending then users[u] else AfterMigrateAll(users, interviews, u)
      invariant migratedCount == |MigratedSoFar(users, pending)|
      decreases pending
    {
      var u :| u in pending;
      MigratedSoFarStep(users, pending, u);
      if LacksStats(users[u]) {
        var (_, next) := MigrateUserStats(result, interviews, u);
        result := next;
        migratedCount := migratedCount + 1;
      }
      pending := pending - {u};
    }
    assert MigratedSoFar(users, pending) == set u | u in users && LacksStats(users[u]);
  }

  /** `getUserStats` after `initializeUserStats` reads what it read before:
      initialization only makes the implicit zeros explicit. */
  lemma InitializePreservesReadings(users: Users, userId: string, other: string)
    ensures GetUserStats(InitializeUserStats(users, userId).1, other) == GetUserStats(users, other)
  {
  }

  /** A second `initializeUserStats` changes nothing. */
  lemma InitializeIdempotent(users: Users, userId: string)
    ensures var once := InitializeUserStats(users, userId).1;
      InitializeUserStats(once, userId) == (InitializeUserStats(users, userId).0, once)
  {
    var once := InitializeUserStats(users, userId).1;
    if userId in users {
      var doc := once[userId];
      assert doc.(interviewCount := doc.interviewCount, questionCount := doc.questionCount) == doc;
      assert once[userId := doc] == once;
    }
  }

  /** The read after an interview increment is one more than before. */
  lemma IncrementThenRead(users: Users, userId: string)
    requires userId in users
    ensures GetUserStats(IncrementUserInterviewCount(users, userId).1, userId)
      == Some(Counts(GetUserStats(users, userId).value.interviewCount + 1,
                     GetUserStats(users, userId).value.questionCount))
  {
  }

  /** The two increments touch different counters, so their order does not matter. */
  lemma IncrementsCommute(users: Users, userId: string, n: int)
    ensures IncrementUserQuestionCount(IncrementUserInterviewCount(users, userId).1, userId, n).1
      == IncrementUserInterviewCount(IncrementUserQuestionCount(users, userId, n).1, userId).1
  {
  }

  /** After a migration the user's readings equal the recount of their interviews. */
  lemma MigrateThenRead(users: Users, interviews: Collection<Interview>, userId: string)
    requires userId in users
    ensures GetUserStats(MigrateUserStats(users, interviews, userId).1, userId)
      == Some(Counts(OwnedCount(interviews, userId), OwnedQuestions(interviews, userId)))
  {
  }
}

=== FILE: wrappers.dfy ===
/** Optional values: the model's stand-in for JavaScript `undefined`/`null`. */
module Wrappers {

  datatype Option<+T> = None | Some(value: T) {

    /** The carried value, or `default` when absent (the `?? default` operator). */
    function GetOr(default: T): T {
      match this
      case Some(v) => v
      case None => default
    }
  }
}
